=== FILE: README.md ===
# Ask-AI backend of an HTML site generator, modelled in Dafny

The system is a web application in which a user describes a web page and a language
model writes it as one HTML document. Its core is the `/api/ask-ai` route:

- `POST` generates a page. It routes the request to a model, admits or refuses the
  client, and streams the model's answer until the document is complete.
- `PUT` edits an existing page. The model answers with search/replace blocks, which
  are applied in order to the current HTML. The response also reports the line range
  each block touched.

Both handlers reach the model either directly through the Gemini API client or through
the Hugging Face inference client. The catalog of providers and models drives model
lookup and provider selection. The settings panel of the editor offers the providers
and models from the same catalog.

The project has one module per concern:

| module | file | what it holds |
|---|---|---|
| `Optional` | optional.dfy | `Option`, standing for `undefined` |
| `JsString` | js_string.dfy | the JavaScript string operations the code relies on: `indexOf`, `includes`, `split`, `join`, `trim`, `substring`, `toLowerCase` |
| `Catalog` | catalog.dfy | `PROVIDERS` and `MODELS`, and the well-formedness facts about them |
| `Routing` | routing.dfy | prompt classification, smart-model routing, model lookup, provider resolution, `getActualModelName` |
| `RateLimit` | rate_limit.dfy | the client key from `x-forwarded-for` and the per-address counter of anonymous requests |
| `Gemini` | gemini.dfy | the pure parts of the Gemini client: message conversion, model-name table, generation defaults, `shouldUseDirectGeminiAPI` |
| `EventStream` | event_stream.dfy | the newline-buffered reader of the Gemini streaming response |
| `StreamSession` | stream_session.dfy | the streaming task of `POST`: what is written, when it stops, how failures are reported |
| `Patch` | patch.dfy | the follow-up patch engine of `PUT` |
| `Handlers` | handlers.dfy | `POST` and `PUT` end to end, as functions from request, counter and upstream behaviour to counter and response |
| `Settings` | settings.dfy | the provider picker, its reset effect, the auto-provider switch and the model dropdown of the settings panel |

Everything outside the process becomes a parameter:

- The environment variables, `MAX_REQUESTS_PER_IP`, the system prompts and the three
  patch markers become the `Env` datatype. They come from `lib/prompts.ts`, which is
  not part of this model.
- The process-wide `ipAddresses` map becomes a `Counter` value, passed in and returned.
- What the upstream streams or answers becomes a `StreamBackend` or
  `CompletionBackend` value. This covers the chunks, the raw reads of the Gemini body
  and how each stream ends.
- The JSON parsing of one `data:` payload becomes the `extract` function parameter.

Points where the code does something its names do not suggest; the model follows the code:

- `provider: "auto"` looks up the model's `autoProvider` and has no fallback. Only an
  explicit provider whose property is `undefined` falls back to `groq`. `PROVIDERS` is
  a plain object, so a name it inherits from `Object.prototype`, such as `toString`,
  is not `undefined` and does not fall back. `PUT` does not check the provider, and
  such a name reaches the upstream call.
- The client key is entry `[1]` of the comma-split `x-forwarded-for` header, trimmed,
  whenever the header contains a comma. It is not the last or the second-from-last
  entry.
- The route tests `process.env.google_api_key`, while `shouldUseDirectGeminiAPI` tests
  `GOOGLE_API_KEY`. These are two distinct variables, so `Env` carries both
  (`routeGoogleKey` and `clientGoogleKey`). The direct Gemini path needs both.
- Without a Google key, the smart router picks `google/gemma-2b-it` or
  `meta-llama/Llama-3.2-3B-Instruct`. Neither is a value or label in `MODELS`, so every
  routed request then ends in "Invalid model selected". `Routing.FallbackRoutesMissCatalog`
  and `Handlers.FallbackRoutingRejected` state this.

## Model

Paths are relative to the repository root.

| member | source | states |
|---|---|---|
| JsString.IndexOfFirst | app/api/ask-ai/route.ts:514-527 | `indexOf(pat, from)` returns an occurrence at or after `from` with none before it, and -1 exactly when there is no occurrence at or after `from` |
| JsString.Split | lib/gemini-client.ts:109 | `split` on one character gives separator-free pieces, one more than there are separators |
| JsString.JoinSplit | app/api/ask-ai/route.ts:150-151 | joining the pieces of a split on the same character rebuilds the string |
| JsString.Trim | app/api/ask-ai/route.ts:541 | `trim()` is the slice of the text left once its leading and trailing whitespace is dropped; it is empty exactly when the text is all whitespace, and a non-empty result starts and ends with non-whitespace |
| JsString.Substring | app/api/ask-ai/route.ts:532-539 | `substring(a, b)` is the slice between the two positions, whichever comes first |
| JsString.ToLowerCase | app/api/ask-ai/route.ts:40 | `toLowerCase()` leaves no ASCII capital, and the result is at least as long as the text and at most twice as long |
| JsString.ToLowerCaseAppend | app/api/ask-ai/route.ts:40 | lower-casing works character by character: the lower case of a concatenation is the concatenation of the lower cases |
| JsString.LowerCharFixed | app/api/ask-ai/route.ts:40 | a character is kept as it is exactly when it is not an ASCII capital, U+0130 or U+212A |
| JsString.ToLowerCaseIdempotent | app/api/ask-ai/route.ts:40 | lower-casing a lower-cased text changes nothing |
| Catalog.Lookup | app/api/ask-ai/route.ts:141-144 | the own property `key` of `PROVIDERS` is missing exactly for a key that is not in the table, and otherwise is an entry stored under that key |
| Catalog.Get | app/api/ask-ai/route.ts:141-144 | `PROVIDERS[key]` is an own entry exactly for a table key; for a name inherited from `Object.prototype` that is not a key it is the inherited member; it is `undefined` exactly for every other name |
| Catalog.ProviderKeysInOrder | lib/providers.ts:1-92 | the provider keys in declaration order, from `openai` to `google` |
| Catalog.ShippedProvidersWellFormed | lib/providers.ts:1-92 | every provider's `id` is its key, keys are non-empty and distinct, and every `max_tokens` is positive |
| Catalog.ShippedModelsUseCatalogProviders | lib/providers.ts:94-353 | every model lists at least one provider, only keys of `PROVIDERS`, and its `autoProvider` among them |
| Catalog.ShippedNamesUnambiguous | lib/providers.ts:94-353 | no model's value equals another model's value or any label, and no two labels coincide |
| Catalog.CatalogWellFormed | lib/providers.ts:1-353 | the shipped tables satisfy all of the above, and `groq`, the router's fallback, is a provider key |
| Routing.WordCount | app/api/ask-ai/route.ts:41 | `prompt.split(' ').length` is the number of spaces plus one |
| Routing.Classify | app/api/ask-ai/route.ts:48-58 | a prompt is Simple exactly when `isSimple`, and Complex exactly when it is complex but not simple; everything else is balanced |
| Routing.SimpleTakesPrecedence | app/api/ask-ai/route.ts:63-71 | a short prompt asking to fix a dashboard is complex, yet it is routed as simple |
| Routing.DottedCapitalIMentionsApi | app/api/ask-ai/route.ts:40-58 | "AP" followed by U+0130 lower-cases to "api" and a combining dot, so the prompt mentions `api` and is routed as complex |
| Routing.LongPromptIsComplex | app/api/ask-ai/route.ts:48-58 | a prompt with at least fifty spaces is never simple and always complex |
| Routing.SmartModel | app/api/ask-ai/route.ts:37-84 | the model id is kept unless the prompt is non-empty and the id mentions `gemini` or `gemma`; then it becomes the target for the class and the key setting |
| Routing.FindModel | app/api/ask-ai/route.ts:86-88 | the lookup returns the first model whose value or label is the id, and `undefined` exactly when none matches |
| Routing.FindModelByName | app/api/ask-ai/route.ts:86-88 | in a catalog with unambiguous names, the lookup by a model's value or label returns that very model |
| Routing.FindShippedModel | app/api/ask-ai/route.ts:86-88 | every shipped model is found under its own value |
| Routing.GoogleTargetFound | app/api/ask-ai/route.ts:63-71 | with the Google key set, each of the three targets is a catalog model whose value starts with `google/` |
| Routing.GoogleTargetPrefix | app/api/ask-ai/route.ts:63-71 | with the Google key set, every routing target starts with `google/` |
| Routing.GoogleRoutesFound | app/api/ask-ai/route.ts:39-94 | with the Google key set, a routed request always passes the model lookup |
| Routing.FallbackRoutesMissCatalog | app/api/ask-ai/route.ts:72-94 | without the Google key, every routed request fails the model lookup |
| Routing.FallbackTargetUnlisted | app/api/ask-ai/route.ts:72-81 | no fallback target, whatever the class, is found in the catalog |
| Routing.GemmaFallbackUnlisted | app/api/ask-ai/route.ts:75 | `google/gemma-2b-it` is neither a value nor a label of `MODELS` |
| Routing.LlamaFallbackUnlisted | app/api/ask-ai/route.ts:77 | `meta-llama/Llama-3.2-3B-Instruct` is neither a value nor a label of `MODELS` |
| Routing.ShippedGoogleTargets | app/api/ask-ai/route.ts:63-71 | the shipped catalog lists every Google-key routing target |
| Routing.ShippedFallbackTargets | app/api/ask-ai/route.ts:72-81 | the shipped catalog lists no fallback routing target |
| Routing.ResolveProvider | app/api/ask-ai/route.ts:140-144 | `auto` reads the model's `autoProvider` property; an explicit provider reads its own property, which is an own entry or an inherited `Object.prototype` member; `groq` is read only when that property is `undefined` |
| Routing.ResolveProviderTotal | app/api/ask-ai/route.ts:140-144 | in a well-formed catalog, no provider argument resolves to `undefined`; the result is inherited exactly for an explicit `Object.prototype` name that is not a key; otherwise it is a real provider: the `autoProvider` for `auto`, the key itself for a key, and `groq` for any other name |
| Routing.ActualModelName | app/api/ask-ai/route.ts:147-154 | an id with `/` and without a kept prefix loses exactly the text up to its first `/`; any other id is passed through |
| RateLimit.ClientKeyOf | app/api/ask-ai/route.ts:119-121 | an absent header gives the `null` key, a header without a comma is its own key, and otherwise the key is the trimmed text between the first and second commas |
| RateLimit.SecondField | app/api/ask-ai/route.ts:120 | entry `[1]` of a comma split is the text after the first comma, up to the next comma if there is one |
| RateLimit.HasCredential | app/api/ask-ai/route.ts:107-123 | a request bypasses the counter exactly when it has a token cookie or `HF_TOKEN` is set |
| RateLimit.Admit | app/api/ask-ai/route.ts:123-138 | a request with a credential passes and changes nothing; an anonymous one adds one to its key only, and is refused exactly when the new count exceeds the limit |
| RateLimit.Replay | app/api/ask-ai/route.ts:123-134 | a run of requests yields one verdict per request |
| RateLimit.ReplayMonotone | app/api/ask-ai/route.ts:124 | counts never decrease and no key is ever removed from the map |
| RateLimit.ReplayCountsAnonymous | app/api/ask-ai/route.ts:123-124 | a key's count grows by exactly the number of anonymous requests made under that key |
| RateLimit.RepeatedAnonymousRequests | app/api/ask-ai/route.ts:123-134 | from an address with no history, the i-th anonymous request is refused exactly when i exceeds the limit |
| RateLimit.RepeatedFrom | app/api/ask-ai/route.ts:123-134 | from any history, the i-th anonymous request is refused exactly when the earlier count plus i exceeds the limit |
| Gemini.FirstSystem | lib/gemini-client.ts:34 | `find` yields the first system message, and nothing exactly when there is no system message |
| Gemini.NonSystem | lib/gemini-client.ts:35 | the filter keeps exactly the non-system messages, in their order, and never grows the list |
| Gemini.ConvertContents | lib/gemini-client.ts:37-40 | each kept message becomes one entry with its text; `assistant` maps to `model` and any other role to `user` |
| Gemini.ConvertMessages | lib/gemini-client.ts:33-48 | there is a system instruction exactly when some message is a system message, and one content entry per non-system message |
| Gemini.ConvertRestores | lib/gemini-client.ts:33-48 | mapping the contents back gives the non-system messages, in order, with their roles and texts |
| Gemini.ConvertRoundTrip | lib/gemini-client.ts:33-48 | a leading system message followed by a conversation is rebuilt exactly from its conversion |
| Gemini.GetModelName | lib/gemini-client.ts:53-62 | only `google/gemini-2.5-flash` maps to `gemini-1.5-pro`; every other id, listed or not, maps to `gemini-1.5-flash` (the names `Object.prototype` supplies are outside the model, see Left out) |
| Gemini.MaxOutputTokens | lib/gemini-client.ts:75 | an absent or zero budget becomes 2048, any other budget is kept, and the result is never zero |
| Gemini.Temperature | lib/gemini-client.ts:76 | an absent or zero temperature becomes 0.7, any other is kept, and the result is never zero |
| Gemini.BuildRequest | lib/gemini-client.ts:67-78 | the request body names `gemini-1.5-pro` exactly for `google/gemini-2.5-flash` and `gemini-1.5-flash` otherwise; its system instruction is the first system message, if any; its contents map back to the non-system messages; an absent or zero budget is sent as 2048 and an absent or zero temperature as 0.7, any other value as given |
| Gemini.ShouldUseDirectGeminiAPI | lib/gemini-client.ts:184-188 | the direct API is used exactly when the key is non-empty and the model id starts with `google/` |
| Gemini.CompletionContent | lib/gemini-client.ts:168-169 | a missing candidate text becomes "" |
| EventStream.Feed | lib/gemini-client.ts:108-110 | after a read, neither the lines handed out nor the kept buffer contain a newline |
| EventStream.ReadAllSplits | lib/gemini-client.ts:100-112 | after any number of reads, the lines handed out are the complete lines of everything read, and the buffer is the text after the last newline |
| EventStream.LineFragment | lib/gemini-client.ts:113-124 | a line yields a fragment exactly when it starts with `data: ` and its payload has a non-empty candidate text, and the fragment is that text |
| EventStream.Fragments | lib/gemini-client.ts:112-131 | the lines yield at most one fragment each, none of them empty; a single line yields exactly its own fragment, or nothing |
| EventStream.FragmentsAppend | lib/gemini-client.ts:112-131 | the fragments of two runs of lines are the fragments of the first run followed by those of the second |
| EventStream.OneLineStream | lib/gemini-client.ts:104-131 | a body made of one newline-terminated line yields exactly that line's fragment, or nothing |
| EventStream.ChunkingIrrelevant | lib/gemini-client.ts:104-131 | the fragments yielded depend only on the concatenated body, not on how it is cut into reads |
| EventStream.UnterminatedLineKept | lib/gemini-client.ts:104-110 | a final line without a newline stays in the buffer and is never handed out |
| StreamSession.ErrorFrameFor | app/api/ask-ai/route.ts:255-277 | a thrown error is reported with `openProModal` exactly when its message mentions exceeded credits; the message is kept, or the generic one is used when it is empty |
| StreamSession.DataFrames | app/api/ask-ai/route.ts:244-247 | only non-empty chunks are written, in order, at most one frame per chunk |
| StreamSession.WrittenDataFrames | app/api/ask-ai/route.ts:244-247 | the written data frames carry exactly the concatenated chunk text |
| StreamSession.DataFramesOfNonEmpty | app/api/ask-ai/route.ts:244-247 | when no chunk is empty, each chunk becomes exactly one frame |
| StreamSession.Consumed | app/api/ask-ai/route.ts:238-253 | the session reads chunks up to the first one after which the accumulated text contains `</html>`, or all of them |
| StreamSession.RunSession | app/api/ask-ai/route.ts:173-281 | the loop writes the frames of `Session`: the data read, an error frame on failure, then the close |
| StreamSession.SessionShape | app/api/ask-ai/route.ts:238-280 | every session writes data frames, at most one error frame and exactly one close, which comes last |
| StreamSession.SessionWritesPrefix | app/api/ask-ai/route.ts:238-253 | the client receives exactly the text of the chunks read, which is a prefix of everything the upstream produced |
| StreamSession.IncompleteDocumentReportsFailure | app/api/ask-ai/route.ts:238-277 | if `</html>` never arrives and the upstream fails, every chunk is written, then the error frame, then the close |
| StreamSession.ReadsEverything | app/api/ask-ai/route.ts:238-253 | without `</html>` in the whole text, the session never stops early |
| StreamSession.CompleteDocumentIgnoresRest | app/api/ask-ai/route.ts:249-251 | once `</html>` has arrived, what the upstream would send later and how it would end change nothing, and no error frame is written |
| Patch.NextBlockAdvances | app/api/ask-ai/route.ts:514-557 | the cursor moves strictly forward and stays within the answer, so the loop ends |
| Patch.ApplyBlock | app/api/ask-ai/route.ts:541-555 | a recorded range always has `1 <= start <= end` |
| Patch.BlankSearchPrepends | app/api/ask-ai/route.ts:541-543 | a whitespace-only search prepends the replacement and a newline, and records lines 1 to the replacement's line count, with or without `$` expansion |
| Patch.FoundReplacesFirst | app/api/ask-ai/route.ts:545-553 | a search text first found at i is replaced there, and the range runs from the line of i over the replacement's lines; as written, the text put in at i is the replacement with its `$` patterns expanded against that match, under the same range |
| Patch.MissingSearchChangesNothing | app/api/ask-ai/route.ts:545-546 | a search text that does not occur leaves the page unchanged and records nothing |
| Patch.RangeCoversReplacement | app/api/ask-ai/route.ts:545-553 | the recorded range starts and ends on exactly the lines where the replacement text now lies |
| Patch.ExpandLiteral | app/api/ask-ai/route.ts:553 | a replacement text without `$` is inserted literally |
| Patch.AsWrittenAgreesWithoutDollar | app/api/ask-ai/route.ts:553 | for replacement texts without `$`, the code as written agrees with the literal replacement |
| Patch.AsWrittenRangeMisses | app/api/ask-ai/route.ts:547-553 | with `` $` `` in the replacement, the code inserts text the recorded range does not cover |
| Patch.ApplyBlockWith | app/api/ask-ai/route.ts:541-555 | whether the replacement is expanded as written or inserted literally, a block records the same range, always with `1 <= start <= end` |
| Patch.ApplyPatches | app/api/ask-ai/route.ts:507-558 | for either way of inserting replacements, `Expanded` being the code as written, the loop computes exactly the scanned blocks applied in order, with their ranges |
| Patch.ExpandedAgreesWithoutDollar | app/api/ask-ai/route.ts:507-558 | when no replacement text holds a `$`, the loop as written and the literal loop give the same page and the same ranges |
| Patch.UpdatedLinesBounded | app/api/ask-ai/route.ts:543-552 | `updatedLines` has at most one entry per block, each with `1 <= start <= end` |
| Patch.UnmatchedBlocksChangeNothing | app/api/ask-ai/route.ts:545-555 | blocks whose search text never occurs leave the page unchanged and add no range |
| Patch.ApplyFromAppend | app/api/ask-ai/route.ts:513-558 | applying two lists of blocks one after the other is the same as applying their concatenation |
| Patch.ParseRenderRoundTrip | app/api/ask-ai/route.ts:513-539 | an answer made of parsable blocks, possibly followed by an unfinished block, scans back into exactly those blocks |
| Patch.NoBlockNoChange | app/api/ask-ai/route.ts:526-530 | an answer without `REPLACE_END` yields no blocks, so the page is returned unchanged with no ranges |
| Patch.WholeDocumentEdit | app/api/ask-ai/route.ts:545-553 | replacing the whole page with one line records line 1; the literal insertion gives that line, the code as written its `$` expansion, so `$&` gives back the page unchanged while line 1 is still reported |
| Handlers.Status | app/api/ask-ai/route.ts:571-590 | only a streaming or patched response has status 200, and only the login refusal has 429 |
| Handlers.PlanUpstream | app/api/ask-ai/route.ts:427-497 | the call is direct exactly when a provider resolves, the routed id starts with `google/` and both Google keys are set; otherwise it goes through the inference client with the prefix-stripped model; an own provider entry passes its `id` and `max_tokens`, an inherited `Object.prototype` member passes neither, and the Gemini API then falls back to 2048 output tokens |
| Handlers.Front | app/api/ask-ai/route.ts:37-138 | the shared front half stops only for an invalid model, an unsupported provider or a login refusal; an invalid model happens exactly when the lookup fails; a provider the found model does not list is refused before the client is counted, leaving the counter as it was; on success it yields the routed model, its entry and the billing flag; only the request's own key is counted |
| Handlers.InitialUserContent | app/api/ask-ai/route.ts:189-194 | the user message wraps the markdown design when given, else the current HTML when given, else it is the prompt |
| Handlers.Post | app/api/ask-ai/route.ts:21-295 | "Missing required fields" exactly when the model is missing or both prompt and design are; only an admitted anonymous request is counted, and only under its own key; an unsupported provider is answered with the counter unchanged, whatever the client's count; the response is streaming or one of the four refusals |
| Handlers.CurrentCode | app/api/ask-ai/route.ts:446-450 | the assistant turn contains the current page, and the selected element when there is one |
| Handlers.FollowUpMessages | app/api/ask-ai/route.ts:433-456 | the follow-up sends four messages: the system prompt, the previous prompt or the default text, the current code, and the new prompt |
| Handlers.CompletionOf | app/api/ask-ai/route.ts:427-499 | the direct path always answers with content, possibly "", and an unresolved provider throws |
| Handlers.ErrorReply | app/api/ask-ai/route.ts:571-590 | the credits message answers 402 with that message; any other error answers 500 with its message or the generic one |
| Handlers.FollowUpReply | app/api/ask-ai/route.ts:499-570 | "No content" exactly when the answer is missing or empty; a patched page is the scanned blocks of the answer applied to the page with the environment's way of inserting replacements, and keeps the call that produced it; a thrown error goes to `ErrorReply` |
| Handlers.Put | app/api/ask-ai/route.ts:297-592 | "Missing required fields" exactly when prompt or page is missing; there is no provider check and no streaming; only an admitted anonymous request is counted, under its own key |
| Handlers.FallbackRoutingRejected | app/api/ask-ai/route.ts:72-94 | without the Google key, both handlers answer "Invalid model selected" to every routed request and leave the counter alone |
| Handlers.HandlersResolveProvider | app/api/ask-ai/route.ts:140-144 | in a well-formed catalog, no response of either handler comes from the `undefined` provider path |
| Handlers.PostResolvesProvider | app/api/ask-ai/route.ts:140-144 | in a well-formed catalog, a streaming `POST` always has a resolved provider |
| Handlers.PutResolvesProvider | app/api/ask-ai/route.ts:405-409 | in a well-formed catalog, a patched `PUT` always has a resolved provider |
| Handlers.PostReadsOwnProvider | app/api/ask-ai/route.ts:140-233 | `POST` checks the provider against the model's list, so in a well-formed catalog a streaming call through the inference client always has a provider id and a token budget |
| Handlers.PutInheritedProvider | app/api/ask-ai/route.ts:405-497 | `PUT` has no provider check, so an `Object.prototype` name that is not a key reaches the call: the inference client gets no provider id and no budget, and the Gemini API uses 2048 output tokens |
| Handlers.GoogleRoutingGoesDirect | app/api/ask-ai/route.ts:177-198 | with both Google keys set, a routed generation passes the lookup; once admitted, it goes to the Gemini API with the system prompt as instruction and the user message as the only content |
| Handlers.DirectModelNotInherited | lib/gemini-client.ts:184-188 | no id the direct Gemini path accepts is one of the names `Object.prototype` supplies |
| Handlers.InitialMessagesConvert | app/api/ask-ai/route.ts:183-196 | the two generation messages convert to a system instruction and a single user turn |
| Handlers.PostWritesUpstreamPrefix | app/api/ask-ai/route.ts:200-253 | the client of a generation receives exactly a prefix of the upstream's text, on both paths |
| Handlers.PostWritesChunkPrefix | app/api/ask-ai/route.ts:211-253 | through the inference client, the client receives exactly the chunks read, a prefix of all the chunks |
| Handlers.PostWritesFragmentPrefix | app/api/ask-ai/route.ts:177-210 | through the Gemini API, the client receives exactly the text fragments read, a prefix of all the fragments of the body |
| Handlers.DirectReadsChunkingIrrelevant | app/api/ask-ai/route.ts:181-210 | how the Gemini body is cut into reads does not change the `POST` response |
| Handlers.FollowUpWithoutBlocks | app/api/ask-ai/route.ts:507-564 | a non-empty answer without a complete block returns the page unchanged with no updated lines |
| Handlers.FollowUpAppliesRenderedBlocks | app/api/ask-ai/route.ts:507-564 | an answer written as parsable blocks applies exactly those blocks, in order, to the page |
| Handlers.FollowUpStatuses | app/api/ask-ai/route.ts:499-590 | a thrown error answers 402 exactly when it mentions exceeded credits and 500 otherwise; an answer gives 200 exactly when its content is non-empty |
| Settings.FindByValue | components/editor/ask-ai/settings.tsx:45-47 | the picker finds a model by value only; it returns the first match, or nothing exactly when no value matches |
| Settings.KeepListed | components/editor/ask-ai/settings.tsx:49-51 | the filter keeps exactly the provider keys the model lists |
| Settings.KeepListedInOrder | components/editor/ask-ai/settings.tsx:49-51 | the filtered keys keep the provider table's order |
| Settings.AvailableProviders | components/editor/ask-ai/settings.tsx:44-52 | a model unknown by value is offered every provider; a known one is offered exactly the keys it lists |
| Settings.AvailableAreKeys | components/editor/ask-ai/settings.tsx:44-52 | the picker only offers provider keys, in table order |
| Settings.AvailableForCatalogModel | components/editor/ask-ai/settings.tsx:44-52 | in a well-formed catalog, a model is offered exactly its providers, including its auto provider |
| Settings.ResetEffect | components/editor/ask-ai/settings.tsx:54-58 | the effect switches to `auto` exactly when the provider is neither `auto` nor offered |
| Settings.ResetSettles | components/editor/ask-ai/settings.tsx:54-58 | after the effect the provider is `auto` or offered, and running the effect again does nothing |
| Settings.Toggle | components/editor/ask-ai/settings.tsx:170-179 | from `auto`, the switch goes to the model's auto provider when the model is known by value and names one; in every other case it goes to `auto` |
| Settings.ToggleTwice | components/editor/ask-ai/settings.tsx:170-179 | toggling twice from `auto` returns to `auto`; from an explicit provider it lands on the model's auto provider |
| Settings.FindByValueCatalog | components/editor/ask-ai/settings.tsx:171-173 | in a well-formed catalog, a model is found by its own value |
| Settings.ToggleSurvivesReset | components/editor/ask-ai/settings.tsx:170-179 | whatever the switch picks, the reset effect leaves it alone |
| Settings.SmartModels | components/editor/ask-ai/settings.tsx:98-101 | the dropdown lists exactly the catalog models whose value mentions `gemini` or `gemma` |
| Settings.SmartModelsInOrder | components/editor/ask-ai/settings.tsx:98-101 | the dropdown keeps catalog order |
| Settings.ShippedGoogleModelsListed | components/editor/ask-ai/settings.tsx:98-101 | the four Google models of the shipped catalog are offered in the dropdown |

## Left out

- HTTP is not modelled: request parsing, `NextResponse`, headers, `TextEncoder` and
  `TextDecoder`. Reads are already-decoded strings, and a response is a `Reply` value.
- The network calls (`fetch`, `InferenceClient`) are not modelled. Their observable
  behaviour is a parameter: the chunks, the reads, the answer and how each ends.
  `response.ok` failures and a missing body become a thrown error with some message.
- JSON parsing of a `data:` payload and the candidate-text path are not modelled. They
  are the `extract` parameter, where None stands for malformed JSON or a missing text.
- Logging (`console.log`) and JSON serialisation of the frames are not modelled.
  Frames are datatypes.
- Concurrency is not modelled. Requests to the shared `ipAddresses` map are taken one
  at a time, in the order given.
- `lib/prompts.ts` and the cookie-name helper are not part of this model. The markers,
  system prompts and request limit are parameters.
- The `undefined` provider path is modelled. In the model, the error message is the
  one for reading `max_tokens`; on the inference path the source reads `id` first,
  which the model does not tell apart. The exact V8 message text is outside the model.
- The outer `catch` of `POST` (lines 284-293) is left out. Nothing inside its `try`
  can throw once the stream is started: the streaming task catches its own errors.
- A `PUT` without a `model` field is not modelled. `model.includes` then throws outside
  the `try`, and the framework answers. In the model an absent model is "", which is
  not found.
- Settings: `useUpdateEffect` skips the first render. `ResetEffect` models one run of
  the effect after an update. The JSX, the popover state and `onModelChange` are left
  out.
- JsString.ToLowerCase: only the characters whose lower case contains an ASCII letter
  are mapped: the ASCII capitals, U+0130 and U+212A. Every other character is kept,
  although `toLowerCase` maps many of them. Their lower cases contain no ASCII letter,
  and the keywords prompts are compared against are ASCII, so the routing decision
  does not depend on them.
- Patch.ApplyPatches, Patch.WholeDocumentEdit, Handlers.FollowUpReply,
  Handlers.FollowUpAppliesRenderedBlocks and Handlers.Put: the way replacements are
  inserted is a parameter (`Patch.Substitution`, carried by `Env`). `Expanded` is line
  553 as written; `Literal` is the insertion the recorded ranges assume. The contracts
  hold for both. Only `Literal` carries `Patch.RangeCoversReplacement`.
- Catalog.Get: the twelve `Object.prototype` names are modelled as inherited members.
  Their values (functions, or the prototype for `__proto__`) are not modelled. The
  model only records that reading `id` or `max_tokens` from them gives `undefined`.
- Strings are sequences of Unicode scalar values, not of UTF-16 code units. Positions
  such as the result of `indexOf` therefore count a character outside the Basic
  Multilingual Plane once where JavaScript counts two, and an unpaired surrogate, which
  a JSON string field may carry, cannot be represented. No result of the model depends
  on an absolute position, only on slices taken at positions it computed itself.
- Gemini.GetModelName: `modelMap` is a plain object, so the twelve names it inherits
  from `Object.prototype` (such as `toString`) would read an inherited member rather than
  fall back to `gemini-1.5-flash`. The model does not represent that member.
  `Handlers.DirectModelNotInherited` shows the route never passes such a name, since the
  direct path needs a `google/` prefix.
- StreamSession.SessionShape, StreamSession.RunSession: the response writer never fails.
  In the source, once the client has gone, `writer.write` rejects, and so do the error
  frame's write and the final close. The client then gets no error frame and no close.
- Gemini.Temperature: temperatures are reals, not IEEE doubles, so `NaN` is not
  modelled.
- Gemini.MaxOutputTokens: `NaN` is not modelled, because the budget comes from a
  provider's integer `max_tokens`.
- Settings.ShippedGoogleModelsListed: proves that the four Google models are in the
  dropdown, but not that no other shipped model is; that direction needs a
  character-by-character argument for each long literal value.
- Catalog: the model `description` texts and provider `name` and `baseUrl` are carried
  as data. Nothing is proved about them.

## Findings

| source | as written | input that shows it | evidently intended | confidence | as-written member | corrected member |
|---|---|---|---|---|---|---|
| app/api/ask-ai/route.ts:553 | `newHtml.replace(searchBlock, replaceBlock)` passes the replacement as a template, so `$$`, `$&`, `` $` `` and `$'` are expanded | page "a\nb", block search "b", replace `` "$`x" ``: the page becomes "a\na\nx" (three lines) while `updatedLines` records only [2, 2] | the replacement is inserted literally, so the recorded range covers exactly the new text | not executed | Patch.AsWrittenRangeMisses | Patch.RangeCoversReplacement |

`Patch.ApplyBlockAsWritten` models line 553 as written, using ECMA-262 GetSubstitution
(section 22.1.3.19.1) in `Patch.Expand`. `Patch.AsWrittenAgreesWithoutDollar` shows
that it agrees with `Patch.ApplyBlock` for every replacement without `$`.
`Patch.ExpandedAgreesWithoutDollar` lifts that agreement to the whole loop. The loop
and the handlers take the way of inserting as a parameter: `Patch.Expanded` is the
route as written, and `Patch.Literal` is the corrected insertion.

=== FILE: catalog.dfy ===
/** The static catalog of lib/providers.ts: the inference providers, keyed by their
    identifier in declaration order (the order of `Object.keys(PROVIDERS)`), and the
    selectable models. The router and the settings picker depend on the invariants
    collected in `WellFormed`, which `CatalogWellFormed` proves of the shipped tables. */
module Catalog {
  import opened Optional

  datatype Provider = Provider(name: string, maxTokens: nat, id: string, baseUrl: string)

  /** One entry of `MODELS`; `providers` keeps its declared order. */
  datatype Model = Model(value: string, labelText: string, providers: seq<string>,
                         autoProvider: string, description: string)

  type ProviderTable = seq<(string, Provider)>

  /** `PROVIDERS`, as (key, descriptor) pairs in declaration order. */
  const PROVIDERS: ProviderTable :=
    [
      ("openai", Provider("OpenAI", 128000, "openai", "https://api.openai.com/v1")),
      ("anthropic", Provider("Anthropic", 200000, "anthropic", "https://api.anthropic.com/v1")),
      ("fireworks", Provider("Fireworks AI", 32768, "fireworks", "https://api.fireworks.ai/inference/v1")),
      ("sambanova", Provider("SambaNova", 128000, "sambanova", "https://api.sambanova.ai/v1")),
      ("hyperbolic", Provider("Hyperbolic", 32768, "hyperbolic", "https://api.hyperbolic.xyz/v1")),
      ("nebius", Provider("Nebius AI", 32768, "nebius", "https://api.studio.nebius.ai/v1")),
      ("novita", Provider("Novita AI", 32768, "novita", "https://api.novita.ai/v3/openai")),
      ("cohere", Provider("Cohere", 128000, "cohere", "https://api.cohere.ai/v1")),
      ("huggingface", Provider("Hugging Face", 32768, "huggingface", "https://api-inference.huggingface.co/models")),
      ("replicate", Provider("Replicate", 32768, "replicate", "https://api.replicate.com/v1")),
      ("deepinfra", Provider("DeepInfra", 32768, "deepinfra", "https://api.deepinfra.com/v1/openai")),
      ("together", Provider("Together AI", 128000, "together", "https://api.together.xyz/v1")),
      ("perplexity", Provider("Perplexity", 32768, "perplexity", "https://api.perplexity.ai")),
      ("groq", Provider("Groq", 32768, "groq", "https://api.groq.com/openai/v1")),
      ("google", Provider("Google AI", 1000000, "google", "https://generativelanguage.googleapis.com/v1beta"))
    ]

  /** `MODELS`, in declaration order. */
  const MODELS: seq<Model> :=
    [
      Model("gpt-4o-mini", "GPT-4O Mini", ["openai"], "openai", "Fast and efficient model for most tasks"),
      Model("gpt-4o", "GPT-4O", ["openai"], "openai", "Most advanced OpenAI model"),
      Model("claude-3-5-sonnet-20241022", "Claude 3.5 Sonnet", ["anthropic"], "anthropic", "Most intelligent Claude model"),
      Model("claude-3-haiku-20240307", "Claude 3 Haiku", ["anthropic"], "anthropic", "Fast and lightweight Claude model"),
      Model("llama-3.3-70b-versatile", "Llama 3.3 70B", ["groq"], "groq", "High performance open-source model"),
      Model("llama-3.1-8b-instant", "Llama 3.1 8B Instant", ["groq"], "groq", "Ultra-fast smaller Llama model"),
      Model("mixtral-8x7b-32768", "Mixtral 8x7B", ["groq"], "groq", "Efficient mixture of experts model"),
      Model("meta-llama/Meta-Llama-3.1-70B-Instruct-Turbo", "Llama 3.1 70B Turbo", ["together"], "together", "Ultra-fast Llama model with excellent coding abilities"),
      Model("meta-llama/Meta-Llama-3.1-8B-Instruct-Turbo", "Llama 3.1 8B Turbo", ["together"], "together", "Fast and efficient smaller model"),
      Model("mistralai/Mixtral-8x7B-Instruct-v0.1", "Mixtral 8x7B Instruct", ["together"], "together", "High-quality mixture of experts model"),
      Model("Meta-Llama-3.1-8B-Instruct", "Llama 3.1 8B (SambaNova)", ["sambanova"], "sambanova", "Free tier Llama model on SambaNova"),
      Model("Meta-Llama-3.1-70B-Instruct", "Llama 3.1 70B (SambaNova)", ["sambanova"], "sambanova", "Large Llama model on SambaNova"),
      Model("Meta-Llama-3.1-405B-Instruct", "Llama 3.1 405B (SambaNova)", ["sambanova"], "sambanova", "Largest Llama model available"),
      Model("accounts/fireworks/models/llama-v3p1-8b-instruct", "Llama 3.1 8B (Fireworks)", ["fireworks"], "fireworks", "Fast inference Llama model"),
      Model("accounts/fireworks/models/llama-v3p1-70b-instruct", "Llama 3.1 70B (Fireworks)", ["fireworks"], "fireworks", "High-performance Llama model"),
      Model("hyperbolic/meta-llama/Meta-Llama-3.1-8B-Instruct", "Llama 3.1 8B (Hyperbolic)", ["hyperbolic"], "hyperbolic", "Serverless Llama model"),
      Model("hyperbolic/meta-llama/Meta-Llama-3.1-70B-Instruct", "Llama 3.1 70B (Hyperbolic)", ["hyperbolic"], "hyperbolic", "Large Llama model with fast inference"),
      Model("novita/meta-llama/llama-3.1-8b-instruct", "Llama 3.1 8B (Novita)", ["novita"], "novita", "Efficient Llama model on Novita"),
      Model("novita/meta-llama/llama-3.1-70b-instruct", "Llama 3.1 70B (Novita)", ["novita"], "novita", "Large Llama model on Novita"),
      Model("deepinfra/meta-llama/Meta-Llama-3.1-8B-Instruct", "Llama 3.1 8B (DeepInfra)", ["deepinfra"], "deepinfra", "Open-source Llama model"),
      Model("deepinfra/meta-llama/Meta-Llama-3.1-70B-Instruct", "Llama 3.1 70B (DeepInfra)", ["deepinfra"], "deepinfra", "Large open-source model"),
      Model("command-r", "Command R", ["cohere"], "cohere", "Cohere's instruction-following model"),
      Model("command-r-plus", "Command R+", ["cohere"], "cohere", "Enhanced Cohere model"),
      Model("llama-3.1-sonar-small-128k-online", "Sonar Small (Perplexity)", ["perplexity"], "perplexity", "Real-time web search + LLM"),
      Model("llama-3.1-sonar-large-128k-online", "Sonar Large (Perplexity)", ["perplexity"], "perplexity", "Advanced web search + LLM"),
      Model("google/gemini-2.5-flash-lite", "Gemini 2.5 Flash Lite", ["google", "huggingface"], "huggingface", "Fast and efficient Gemini model"),
      Model("google/gemini-2.5-flash", "Gemini 2.5 Flash", ["google", "huggingface"], "huggingface", "Powerful Gemini model for complex tasks"),
      Model("google/gemma-2-3b-it", "Gemma 2 3B Instruct", ["google", "huggingface"], "huggingface", "Open-source Google model"),
      Model("google/gemma-2-9b-it", "Gemma 2 9B Instruct", ["google", "huggingface"], "huggingface", "Larger open-source Google model"),
      Model("deepseek-ai/DeepSeek-V3-0324", "DeepSeek V3", ["deepinfra", "fireworks"], "deepinfra", "Advanced DeepSeek model for complex tasks"),
      Model("deepseek-ai/deepseek-coder-33b-instruct", "DeepSeek Coder 33B", ["deepinfra", "fireworks"], "deepinfra", "Specialized coding model"),
      Model("Qwen/Qwen2.5-Coder-32B-Instruct", "Qwen2.5 Coder 32B", ["deepinfra", "fireworks"], "deepinfra", "Advanced Qwen coding model"),
      Model("Qwen/Qwen2.5-72B-Instruct", "Qwen2.5 72B", ["deepinfra", "together"], "deepinfra", "Large Qwen general model")
    ]

  /** The key of `PROVIDERS.groq`, the router's fallback for an unknown explicit provider. */
  const DEFAULT_PROVIDER_KEY := "groq"

  /** `Object.keys(table)`. */
  function Keys(table: ProviderTable): (keys: seq<string>)
    ensures |keys| == |table|
    ensures forall i :: 0 <= i < |table| ==> keys[i] == table[i].0
  {
    seq(|table|, i requires 0 <= i < |table| => table[i].0)
  }

  /** The own property `key` of the table: the descriptor stored under it, or None. */
  function Lookup(table: ProviderTable, key: string): (r: Option<Provider>)
    ensures r.None? <==> key !in Keys(table)
    ensures r.Some? ==> exists i :: 0 <= i < |table| && table[i] == (key, r.value)
  {
    if |table| == 0 then None
    else if table[0].0 == key then Some(table[0].1)
    else Lookup(table[1..], key)
  }

  /** The properties every plain object inherits from `Object.prototype` (section 20.1.3
      of ECMA-262 and Annex B.2.2): reading one of them yields a function, or the
      prototype itself for `__proto__`, and never `undefined`. */
  const OBJECT_PROTOTYPE_NAMES: set<string> :=
    {"constructor", "hasOwnProperty", "isPrototypeOf", "propertyIsEnumerable", "toLocaleString",
     "toString", "valueOf", "__proto__", "__defineGetter__", "__defineSetter__",
     "__lookupGetter__", "__lookupSetter__"}

  /** What reading `table[key]` yields: an own descriptor, an inherited member (which has
      neither `id` nor `max_tokens`), or `undefined`. */
  datatype Property = Own(provider: Provider) | Inherited | Undefined

  /** `table[key]` on the object literal: own keys first, then `Object.prototype`. */
  function Get(table: ProviderTable, key: string): (r: Property)
    ensures r.Own? <==> key in Keys(table)
    ensures r.Own? ==> exists i :: 0 <= i < |table| && table[i] == (key, r.provider)
    ensures r.Inherited? <==> key !in Keys(table) && key in OBJECT_PROTOTYPE_NAMES
    ensures r.Undefined? <==> key !in Keys(table) && key !in OBJECT_PROTOTYPE_NAMES
  {
    match Lookup(table, key)
    case Some(p) => Own(p)
    case None => if key in OBJECT_PROTOTYPE_NAMES then Inherited else Undefined
  }

  /** Every provider's `id` equals its key, every key is non-empty, every budget is
      positive, keys are distinct. */
  ghost predicate ProvidersWellFormed(table: ProviderTable) {
    && (forall i :: 0 <= i < |table| ==>
          table[i].1.id == table[i].0 && table[i].0 != "" && table[i].1.maxTokens > 0)
    && (forall i, j :: 0 <= i < j < |table| ==> table[i].0 != table[j].0)
  }

  /** A model lists at least one provider, only catalog providers, and its own auto provider. */
  ghost predicate ModelProvidersValid(table: ProviderTable, m: Model) {
    && |m.providers| > 0
    && (forall k :: 0 <= k < |m.providers| ==> m.providers[k] in Keys(table))
    && m.autoProvider in m.providers
  }

  /** No model's value or label equals another model's value or label, so looking a model
      up by either one names a single entry. */
  ghost predicate NamesUnambiguous(models: seq<Model>) {
    forall i, j :: 0 <= i < |models| && 0 <= j < |models| && i != j ==>
      && models[i].value != models[j].value
      && models[i].value != models[j].labelText
      && models[i].labelText != models[j].labelText
  }

  ghost predicate WellFormed(table: ProviderTable, models: seq<Model>) {
    && ProvidersWellFormed(table)
    && (forall i :: 0 <= i < |models| ==> ModelProvidersValid(table, models[i]))
    && NamesUnambiguous(models)
    && DEFAULT_PROVIDER_KEY in Keys(table)
  }

  /** The key order of the shipped table, written out. */
  const PROVIDER_KEYS: seq<string> :=
    ["openai", "anthropic", "fireworks", "sambanova", "hyperbolic", "nebius", "novita", "cohere", "huggingface", "replicate",
     "deepinfra", "together", "perplexity", "groq", "google"]

  lemma ProviderKeysInOrder()
    ensures Keys(PROVIDERS) == PROVIDER_KEYS
  {
    assert forall i :: 0 <= i < |PROVIDERS| ==> Keys(PROVIDERS)[i] == PROVIDER_KEYS[i];
  }

  lemma ShippedProvidersWellFormed()
    ensures ProvidersWellFormed(PROVIDERS)
  {
    assert forall i :: 0 <= i < |PROVIDERS| ==>
      PROVIDERS[i].1.id == PROVIDERS[i].0 && PROVIDERS[i].0 != "" && PROVIDERS[i].1.maxTokens > 0;
    assert forall i, j :: 0 <= i < j < |PROVIDERS| ==> PROVIDERS[i].0 != PROVIDERS[j].0;
  }

  lemma ShippedModelsUseCatalogProviders()
    ensures forall i :: 0 <= i < |MODELS| ==> ModelProvidersValid(PROVIDERS, MODELS[i])
  {
    ProviderKeysInOrder();
    ProvidersListedFirstHalf();
    ProvidersListedSecondHalf();
  }

  lemma ProvidersListedFirstHalf()
    ensures forall i :: 0 <= i < 17 ==>
              && |MODELS[i].providers| > 0 && MODELS[i].autoProvider in MODELS[i].providers
              && forall k :: 0 <= k < |MODELS[i].providers| ==> MODELS[i].providers[k] in PROVIDER_KEYS
  {
  }

  lemma ProvidersListedSecondHalf()
    ensures forall i :: 17 <= i < |MODELS| ==>
              && |MODELS[i].providers| > 0 && MODELS[i].autoProvider in MODELS[i].providers
              && forall k :: 0 <= k < |MODELS[i].providers| ==> MODELS[i].providers[k] in PROVIDER_KEYS
  {
  }

  /** The values and labels of the shipped models, written out in declaration order. */
  const MODEL_VALUES: seq<string> :=
    ["gpt-4o-mini", "gpt-4o", "claude-3-5-sonnet-20241022", "claude-3-haiku-20240307",
     "llama-3.3-70b-versatile", "llama-3.1-8b-instant", "mixtral-8x7b-32768",
     "meta-llama/Meta-Llama-3.1-70B-Instruct-Turbo", "meta-llama/Meta-Llama-3.1-8B-Instruct-Turbo",
     "mistralai/Mixtral-8x7B-Instruct-v0.1", "Meta-Llama-3.1-8B-Instruct",
     "Meta-Llama-3.1-70B-Instruct", "Meta-Llama-3.1-405B-Instruct",
     "accounts/fireworks/models/llama-v3p1-8b-instruct",
     "accounts/fireworks/models/llama-v3p1-70b-instruct",
     "hyperbolic/meta-llama/Meta-Llama-3.1-8B-Instruct",
     "hyperbolic/meta-llama/Meta-Llama-3.1-70B-Instruct",
     "novita/meta-llama/llama-3.1-8b-instruct", "novita/meta-llama/llama-3.1-70b-instruct",
     "deepinfra/meta-llama/Meta-Llama-3.1-8B-Instruct",
     "deepinfra/meta-llama/Meta-Llama-3.1-70B-Instruct", "command-r", "command-r-plus",
     "llama-3.1-sonar-small-128k-online", "llama-3.1-sonar-large-128k-online",
     "google/gemini-2.5-flash-lite", "google/gemini-2.5-flash", "google/gemma-2-3b-it",
     "google/gemma-2-9b-it", "deepseek-ai/DeepSeek-V3-0324",
     "deepseek-ai/deepseek-coder-33b-instruct", "Qwen/Qwen2.5-Coder-32B-Instruct",
     "Qwen/Qwen2.5-72B-Instruct"]

  const MODEL_LABELS: seq<string> :=
    ["GPT-4O Mini", "GPT-4O", "Claude 3.5 Sonnet", "Claude 3 Haiku", "Llama 3.3 70B",
     "Llama 3.1 8B Instant", "Mixtral 8x7B", "Llama 3.1 70B Turbo", "Llama 3.1 8B Turbo",
     "Mixtral 8x7B Instruct", "Llama 3.1 8B (SambaNova)", "Llama 3.1 70B (SambaNova)",
     "Llama 3.1 405B (SambaNova)", "Llama 3.1 8B (Fireworks)", "Llama 3.1 70B (Fireworks)",
     "Llama 3.1 8B (Hyperbolic)", "Llama 3.1 70B (Hyperbolic)", "Llama 3.1 8B (Novita)",
     "Llama 3.1 70B (Novita)", "Llama 3.1 8B (DeepInfra)", "Llama 3.1 70B (DeepInfra)",
     "Command R", "Command R+", "Sonar Small (Perplexity)", "Sonar Large (Perplexity)",
     "Gemini 2.5 Flash Lite", "Gemini 2.5 Flash", "Gemma 2 3B Instruct", "Gemma 2 9B Instruct",
     "DeepSeek V3", "DeepSeek Coder 33B", "Qwen2.5 Coder 32B", "Qwen2.5 72B"]

  lemma ValuesListedFirstHalf()
    ensures forall i :: 0 <= i < 17 ==> MODELS[i].value == MODEL_VALUES[i] && MODELS[i].labelText == MODEL_LABELS[i]
  {
  }

  lemma ValuesListedSecondHalf()
    ensures forall i :: 17 <= i < |MODELS| ==> MODELS[i].value == MODEL_VALUES[i] && MODELS[i].labelText == MODEL_LABELS[i]
  {
  }

  lemma ValuesDistinctBefore20()
    ensures forall i, j :: 0 <= i < j < 20 ==> MODEL_VALUES[i] != MODEL_VALUES[j]
  {
  }

  lemma ValuesDistinctFrom20()
    ensures forall i, j :: 0 <= i < j && 20 <= j < 33 ==> MODEL_VALUES[i] != MODEL_VALUES[j]
  {
  }

  lemma LabelsDistinctBefore20()
    ensures forall i, j :: 0 <= i < j < 20 ==> MODEL_LABELS[i] != MODEL_LABELS[j]
  {
  }

  lemma LabelsDistinctFrom20()
    ensures forall i, j :: 0 <= i < j && 20 <= j < 33 ==> MODEL_LABELS[i] != MODEL_LABELS[j]
  {
  }

  lemma ValuesNotLabelsBefore9()
    ensures forall i, j :: 0 <= i < 9 && 0 <= j < 33 ==> MODEL_VALUES[i] != MODEL_LABELS[j]
  {
  }

  lemma ValuesNotLabelsBefore17()
    ensures forall i, j :: 9 <= i < 17 && 0 <= j < 33 ==> MODEL_VALUES[i] != MODEL_LABELS[j]
  {
  }

  lemma ValuesNotLabelsBefore25()
    ensures forall i, j :: 17 <= i < 25 && 0 <= j < 33 ==> MODEL_VALUES[i] != MODEL_LABELS[j]
  {
  }

  lemma ValuesNotLabelsFrom25()
    ensures forall i, j :: 25 <= i < 33 && 0 <= j < 33 ==> MODEL_VALUES[i] != MODEL_LABELS[j]
  {
  }

  /** No value is another value or any label, and no two labels coincide. */
  lemma ShippedNamesUnambiguous()
    ensures NamesUnambiguous(MODELS)
  {
    ValuesListedFirstHalf();
    ValuesListedSecondHalf();
    ValuesDistinctBefore20();
    ValuesDistinctFrom20();
    LabelsDistinctBefore20();
    LabelsDistinctFrom20();
    ValuesNotLabelsBefore9();
    ValuesNotLabelsBefore17();
    ValuesNotLabelsBefore25();
    ValuesNotLabelsFrom25();
  }

  /** The shipped tables satisfy every invariant the router and the picker rely on. */
  lemma CatalogWellFormed()
    ensures WellFormed(PROVIDERS, MODELS)
  {
    ShippedProvidersWellFormed();
    ShippedModelsUseCatalogProviders();
    ShippedNamesUnambiguous();
    ProviderKeysInOrder();
  }
}

=== FILE: event_stream.dfy ===
/** The newline-buffered reader inside `streamChatCompletion` of lib/gemini-client.ts
    (lines 100-131): every read is appended to a buffer, the buffer is split at '\n',
    the complete lines are handled and the unfinished last piece is kept for the next
    read. Only `data: ` lines of the text/event-stream format (section 9.2 of the HTML
    Living Standard) yield anything. Reads are already-decoded strings, and the
    JSON parse plus candidate-text lookup of a line is the parameter `extract`
    (None for malformed JSON or a missing text). */
module EventStream {
  import opened Optional
  import opened JsString

  const DATA_PREFIX := "data: "

  function Last<T>(s: seq<T>): T requires |s| > 0 { s[|s| - 1] }
  function AllButLast<T>(s: seq<T>): seq<T> requires |s| > 0 { s[..|s| - 1] }

  /** One read: split buffer + chunk, hand out every piece but the last, keep the last. */
  function Feed(buffer: string, chunk: string): (r: (seq<string>, string))
    ensures '\n' !in r.1
    ensures forall k :: 0 <= k < |r.0| ==> '\n' !in r.0[k]
  {
    var parts := Split(buffer + chunk, '\n');
    (AllButLast(parts), Last(parts))
  }

  /** All reads in order, starting from an empty buffer: the complete lines handed out
      so far and the final buffer. */
  function ReadAll(chunks: seq<string>): (r: (seq<string>, string))
    decreases |chunks|
  {
    if |chunks| == 0 then ([], "")
    else
      var (lines, buffer) := ReadAll(chunks[..|chunks| - 1]);
      var (more, buffer') := Feed(buffer, chunks[|chunks| - 1]);
      (lines + more, buffer')
  }

  /** Appending text to a string splits as: every piece of the old string but its last,
      followed by the pieces of (its last piece + the new text). */
  lemma {:induction false} SplitAppend(p: string, c: string, sep: char)
    ensures var parts := Split(p, sep);
            Split(p + c, sep) == AllButLast(parts) + Split(Last(parts) + c, sep)
    decreases |p|
  {
    if |p| == 0 {
      assert p + c == c;
    } else {
      var x, q := p[0], p[1..];
      assert p == [x] + q;
      assert p + c == [x] + (q + c);
      SplitAppend(q, c, sep);
      if x == sep {
        SplitAppendSep(x, q, c, sep);
      } else {
        SplitAppendChar(x, q, c, sep);
      }
    }
  }

  /** `SplitAppend` for a string that starts with the separator, given the result for
      the rest of it. */
  lemma SplitAppendSep(x: char, q: string, c: string, sep: char)
    requires x == sep
    requires var qs := Split(q, sep);
             Split(q + c, sep) == AllButLast(qs) + Split(Last(qs) + c, sep)
    ensures var parts := Split([x] + q, sep);
            Split([x] + (q + c), sep) == AllButLast(parts) + Split(Last(parts) + c, sep)
  {
    SplitCons(x, q, sep);
    SplitCons(x, q + c, sep);
    ConsShape([""], Split(q, sep), Split(Last(Split(q, sep)) + c, sep));
  }

  lemma ConsShape(head: seq<string>, qs: seq<string>, tail: seq<string>)
    requires |qs| > 0
    ensures AllButLast(head + qs) + tail == head + (AllButLast(qs) + tail)
    ensures Last(head + qs) == Last(qs)
  {
  }

  /** `SplitAppend` for a string that starts with another character, given the result
      for the rest of it. */
  lemma SplitAppendChar(x: char, q: string, c: string, sep: char)
    requires x != sep
    requires var qs := Split(q, sep);
             Split(q + c, sep) == AllButLast(qs) + Split(Last(qs) + c, sep)
    ensures var parts := Split([x] + q, sep);
            Split([x] + (q + c), sep) == AllButLast(parts) + Split(Last(parts) + c, sep)
  {
    SplitCons(x, q, sep);
    SplitCons(x, q + c, sep);
    var qs := Split(q, sep);
    if |qs| == 1 {
      SplitAppendOnePiece(x, q, c, sep);
    } else {
      var tail := Split(Last(qs) + c, sep);
      TailShape(qs, tail);
      ConsShape([[x] + qs[0]], qs[1..], tail);
    }
  }

  lemma SplitAppendOnePiece(x: char, q: string, c: string, sep: char)
    requires x != sep && |Split(q, sep)| == 1
    requires var qs := Split(q, sep);
             Split(q + c, sep) == AllButLast(qs) + Split(Last(qs) + c, sep)
    ensures var parts := Split([x] + q, sep);
            Split([x] + (q + c), sep) == AllButLast(parts) + Split(Last(parts) + c, sep)
  {
    var qs := Split(q, sep);
    var l := qs[0];
    var tail := Split(l + c, sep);
    assert Split(q + c, sep) == tail by {
      assert AllButLast(qs) == [] && Last(qs) == l;
    }
    SplitCons(x, q + c, sep);
    assert Split([x] + (q + c), sep) == [[x] + tail[0]] + tail[1..];
    SplitCons(x, q, sep);
    var parts := Split([x] + q, sep);
    assert parts == [[x] + l] by { assert qs[1..] == []; }
    assert AllButLast(parts) == [] && Last(parts) == [x] + l;
    SplitCons(x, l + c, sep);
    ConsAssoc(x, l, c);
  }

  lemma ConsAssoc(x: char, l: string, c: string)
    ensures ([x] + l) + c == [x] + (l + c)
  {
  }

  lemma TailShape(qs: seq<string>, tail: seq<string>)
    requires |qs| > 1
    ensures (AllButLast(qs) + tail)[0] == qs[0]
    ensures (AllButLast(qs) + tail)[1..] == AllButLast(qs[1..]) + tail
    ensures Last(qs[1..]) == Last(qs)
  {
    assert AllButLast(qs)[1..] == AllButLast(qs[1..]);
  }

  /** After any number of reads the handed-out lines and the buffer are exactly the
      split of everything read so far: the lines are its complete lines and the buffer
      is the text after its last '\n'. Nothing is lost or duplicated. */
  lemma {:induction false} ReadAllSplits(chunks: seq<string>)
    ensures var parts := Split(Concat(chunks), '\n');
            ReadAll(chunks) == (AllButLast(parts), Last(parts))
    decreases |chunks|
  {
    if |chunks| > 0 {
      var init := chunks[..|chunks| - 1];
      var c := chunks[|chunks| - 1];
      ReadAllSplits(init);
      var before := Split(Concat(init), '\n');
      assert ReadAll(chunks) == (AllButLast(before) + Feed(Last(before), c).0, Feed(Last(before), c).1);
      assert Concat(chunks) == Concat(init) + c;
      SplitAppend(Concat(init), c, '\n');
      AppendPieces(AllButLast(before), Split(Last(before) + c, '\n'));
    }
  }

  lemma AppendPieces(lines: seq<string>, tail: seq<string>)
    requires |tail| > 0
    ensures AllButLast(lines + tail) == lines + AllButLast(tail)
    ensures Last(lines + tail) == Last(tail)
  {
    assert (lines + tail)[..|lines + tail| - 1] == lines + tail[..|tail| - 1];
  }

  /** The fragment one line yields: a `data: ` line whose payload extracts to a
      non-empty text yields that text, and every other line yields nothing. The
      `trim()` test never decides, since such a line starts with 'd'. */
  function LineFragment(line: string, extract: string -> Option<string>): (r: Option<string>)
    ensures r.Some? <==> StartsWith(line, DATA_PREFIX) && extract(line[6..]).Some? && extract(line[6..]).value != ""
    ensures r.Some? ==> r == extract(line[6..])
  {
    DataLineNotBlank(line);
    if Trim(line) != "" && StartsWith(line, DATA_PREFIX) then
      match extract(line[6..])
      case Some(t) => if t != "" then Some(t) else None
      case None => None
    else None
  }

  /** A `data: ` line survives `trim()`. */
  lemma DataLineNotBlank(line: string)
    ensures StartsWith(line, DATA_PREFIX) ==> Trim(line) != ""
  {
    if StartsWith(line, DATA_PREFIX) {
      assert line[0] == DATA_PREFIX[0];
    }
  }

  /** The fragments yielded for a sequence of complete lines, in order: for one line its
      fragment if it has one, and with `FragmentsAppend` the rest follows line by line. */
  function Fragments(lines: seq<string>, extract: string -> Option<string>): (r: seq<string>)
    ensures |r| <= |lines|
    ensures forall k :: 0 <= k < |r| ==> r[k] != ""
    ensures |lines| == 1 && LineFragment(lines[0], extract).Some? ==> r == [LineFragment(lines[0], extract).value]
    ensures |lines| == 1 && LineFragment(lines[0], extract).None? ==> r == []
    decreases |lines|
  {
    if |lines| == 0 then []
    else
      var rest := Fragments(lines[1..], extract);
      match LineFragment(lines[0], extract)
      case Some(t) => [t] + rest
      case None => rest
  }

  /** The fragments of two runs of lines are those of the first followed by those of
      the second: nothing is reordered, dropped or repeated across line boundaries. */
  lemma {:induction false} FragmentsAppend(a: seq<string>, b: seq<string>, extract: string -> Option<string>)
    ensures Fragments(a + b, extract) == Fragments(a, extract) + Fragments(b, extract)
    decreases |a|
  {
    if |a| == 0 {
      assert a + b == b;
    } else {
      assert (a + b)[0] == a[0] && (a + b)[1..] == a[1..] + b;
      FragmentsAppend(a[1..], b, extract);
    }
  }

  /** Everything the generator yields for a sequence of reads. */
  function StreamFragments(chunks: seq<string>, extract: string -> Option<string>): seq<string> {
    Fragments(ReadAll(chunks).0, extract)
  }

  /** How the body is cut into reads does not matter: the yielded fragments are those of
      the complete lines of the whole body, and the unterminated last line is never
      handed out. */
  lemma ChunkingIrrelevant(chunks1: seq<string>, chunks2: seq<string>, extract: string -> Option<string>)
    requires Concat(chunks1) == Concat(chunks2)
    ensures StreamFragments(chunks1, extract) == StreamFragments(chunks2, extract)
    ensures StreamFragments(chunks1, extract) == StreamFragments([Concat(chunks1)], extract)
  {
    ReadAllSplits(chunks1);
    ReadAllSplits(chunks2);
    ReadOnce(Concat(chunks1));
  }

  /** A body that is one terminated line yields exactly that line's fragment: a `data: `
      line with a non-empty text reaches the client. */
  lemma OneLineStream(line: string, extract: string -> Option<string>)
    requires '\n' !in line
    ensures LineFragment(line, extract).Some? ==> StreamFragments([line + "\n"], extract) == [LineFragment(line, extract).value]
    ensures LineFragment(line, extract).None? ==> StreamFragments([line + "\n"], extract) == []
  {
    UnterminatedLineKept(line, "");
    assert line + "\n" + "" == line + "\n";
    SplitHead(line, '\n');
  }

  /** The whole body in a single read. */
  lemma ReadOnce(body: string)
    ensures var parts := Split(body, '\n');
            ReadAll([body]) == (AllButLast(parts), Last(parts))
  {
    ReadAllSplits([body]);
    assert [body][..0] == [];
    assert Concat([body]) == body;
  }

  /** A body ending in a line without a '\n' after it: the lines handed out are those of
      the text before the last '\n', and the unterminated line stays in the buffer when
      the stream ends, so it never yields a fragment. */
  lemma UnterminatedLineKept(body: string, last: string)
    requires '\n' !in last
    ensures ReadAll([body + "\n" + last]) == (Split(body, '\n'), last)
  {
    var whole := body + "\n" + last;
    ReadOnce(whole);
    SplitLastLine(body, last, '\n');
  }

  /** The split of a text ending in a separator and a separator-free piece. */
  lemma SplitLastLine(body: string, last: string, sep: char)
    requires sep !in last
    ensures Split(body + [sep] + last, sep) == Split(body, sep) + [last]
  {
    Assoc(body, [sep], last);
    SplitAppend(body, [sep] + last, sep);
    var pb := Split(body, sep);
    TwoLines(Last(pb), last, sep);
    LastSplit(pb, [last]);
  }

  lemma LastSplit(pb: seq<string>, rest: seq<string>)
    requires |pb| > 0
    ensures AllButLast(pb) + ([Last(pb)] + rest) == pb + rest
  {
    assert AllButLast(pb) + [Last(pb)] == pb;
  }

  /** Two separator-free pieces joined by one separator split back into those two. */
  lemma TwoLines(l: string, last: string, sep: char)
    requires sep !in l && sep !in last
    ensures Split(l + ([sep] + last), sep) == [l] + [last]
  {
    var t := l + ([sep] + last);
    assert t[|l|] == sep && t[..|l|] == l && t[|l| + 1..] == last;
    SplitAtFirst(t, sep, |l|);
    SplitHead(last, sep);
  }

  lemma Assoc(a: string, b: string, c: string)
    ensures a + b + c == a + (b + c)
  {
  }
}

=== FILE: gemini.dfy ===
/** The deterministic parts of lib/gemini-client.ts: turning OpenAI-style messages into
    Gemini's request shape, the model-name table, the generation defaults and the
    direct-API switch. The HTTP calls themselves are not modelled. */
module Gemini {
  import opened Optional
  import opened JsString

  datatype Role = System | User | Assistant

  /** `GeminiMessage`. */
  datatype Message = Message(role: Role, content: string)

  /** The two roles Gemini's `contents` accept. */
  datatype GeminiRole = UserRole | ModelRole

  /** One entry of `contents`: `{ role, parts: [{ text }] }`. */
  datatype Content = Content(role: GeminiRole, text: string)

  /** The result of `convertMessages`. */
  datatype Converted = Converted(systemInstruction: Option<string>, contents: seq<Content>)

  /** `messages.find(m => m.role === "system")`, as its content. */
  function FirstSystem(msgs: seq<Message>): (r: Option<string>)
    ensures r.None? <==> forall i :: 0 <= i < |msgs| ==> msgs[i].role != System
    ensures r.Some? ==> exists i :: 0 <= i < |msgs| && msgs[i] == Message(System, r.value)
                                   && forall j :: 0 <= j < i ==> msgs[j].role != System
  {
    if |msgs| == 0 then None
    else if msgs[0].role == System then Some(msgs[0].content)
    else
      var r := FirstSystem(msgs[1..]);
      assert forall i :: 1 <= i < |msgs| ==> msgs[i] == msgs[1..][i - 1];
      if r.Some? then
        var i :| 0 <= i < |msgs[1..]| && msgs[1..][i] == Message(System, r.value)
                 && forall j :: 0 <= j < i ==> msgs[1..][j].role != System;
        assert msgs[i + 1] == Message(System, r.value);
        r
      else r
  }

  /** `messages.filter(m => m.role !== "system")`. */
  function NonSystem(msgs: seq<Message>): (r: seq<Message>)
    ensures forall k :: 0 <= k < |r| ==> r[k].role != System
    ensures |r| <= |msgs|
    ensures forall m :: m in r <==> m in msgs && m.role != System
    ensures Subsequence(r, msgs)
    decreases |msgs|
  {
    if |msgs| == 0 then []
    else
      var rest := NonSystem(msgs[1..]);
      assert msgs == [msgs[0]] + msgs[1..];
      if msgs[0].role == System then
        SkipHead(rest, msgs);
        rest
      else
        assert ([msgs[0]] + rest)[1..] == rest;
        [msgs[0]] + rest
  }

  /** `assistant` becomes `model`; every other role becomes `user`. */
  function ConvertRole(r: Role): GeminiRole {
    if r == Assistant then ModelRole else UserRole
  }

  /** `conversationMessages.map(...)`: each non-system message becomes one content entry
      carrying its text unchanged. */
  function ConvertContents(msgs: seq<Message>): (r: seq<Content>)
    ensures |r| == |NonSystem(msgs)|
    ensures forall k :: 0 <= k < |r| ==>
              r[k] == Content(ConvertRole(NonSystem(msgs)[k].role), NonSystem(msgs)[k].content)
  {
    if |msgs| == 0 then []
    else if msgs[0].role == System then ConvertContents(msgs[1..])
    else [Content(ConvertRole(msgs[0].role), msgs[0].content)] + ConvertContents(msgs[1..])
  }

  /** `convertMessages`: the first system message is lifted into `systemInstruction` and
      every system message is dropped from `contents`. */
  function ConvertMessages(msgs: seq<Message>): (r: Converted)
    ensures r.systemInstruction.None? <==> forall i :: 0 <= i < |msgs| ==> msgs[i].role != System
    ensures |r.contents| == |NonSystem(msgs)|
  {
    Converted(FirstSystem(msgs), ConvertContents(msgs))
  }

  /** The inverse role mapping on the roles that survive conversion. */
  function RestoreRole(r: GeminiRole): Role {
    if r == ModelRole then Assistant else User
  }

  function RestoreContents(cs: seq<Content>): (r: seq<Message>)
    ensures |r| == |cs|
    ensures forall k :: 0 <= k < |cs| ==> r[k] == Message(RestoreRole(cs[k].role), cs[k].text)
  {
    if |cs| == 0 then [] else [Message(RestoreRole(cs[0].role), cs[0].text)] + RestoreContents(cs[1..])
  }

  /** Conversion loses nothing of the conversation: mapping the contents back gives the
      non-system messages, in order, with their roles and texts. */
  lemma ConvertRestores(msgs: seq<Message>)
    ensures RestoreContents(ConvertMessages(msgs).contents) == NonSystem(msgs)
  {
    var cs := ConvertMessages(msgs).contents;
    var ns := NonSystem(msgs);
    forall k | 0 <= k < |cs|
      ensures RestoreContents(cs)[k] == ns[k]
    {
      assert ns[k].role != System;
    }
  }

  /** A prompt of one leading system message followed by a conversation is rebuilt
      exactly from its conversion. */
  lemma ConvertRoundTrip(system: string, conversation: seq<Message>)
    requires forall i :: 0 <= i < |conversation| ==> conversation[i].role != System
    ensures var r := ConvertMessages([Message(System, system)] + conversation);
            r.systemInstruction == Some(system)
            && [Message(System, r.systemInstruction.value)] + RestoreContents(r.contents)
               == [Message(System, system)] + conversation
  {
    var msgs := [Message(System, system)] + conversation;
    assert msgs[1..] == conversation;
    NonSystemKeeps(conversation);
    ConvertRestores(msgs);
  }

  lemma {:induction false} NonSystemKeeps(msgs: seq<Message>)
    requires forall i :: 0 <= i < |msgs| ==> msgs[i].role != System
    ensures NonSystem(msgs) == msgs
  {
    if |msgs| > 0 {
      NonSystemKeeps(msgs[1..]);
    }
  }

  /** `getModelName`: the fixed table, with `gemini-1.5-flash` for any other id. The
      names `modelMap` inherits from `Object.prototype` are not modelled: the route only
      passes ids that start with `google/`, and none of them does. */
  function GetModelName(modelValue: string): (r: string)
    ensures r == "gemini-1.5-pro" <==> modelValue == "google/gemini-2.5-flash"
    ensures r == "gemini-1.5-pro" || r == "gemini-1.5-flash"
  {
    if modelValue == "google/gemini-2.5-flash-lite" then "gemini-1.5-flash"
    else if modelValue == "google/gemini-2.5-flash" then "gemini-1.5-pro"
    else if modelValue == "google/gemma-2-3b-it" then "gemini-1.5-flash"
    else if modelValue == "google/gemma-2-9b-it" then "gemini-1.5-flash"
    else "gemini-1.5-flash"
  }

  const DEFAULT_MAX_OUTPUT_TOKENS := 2048
  const DEFAULT_TEMPERATURE := 0.7

  /** `max_tokens || 2048`: an absent or zero budget becomes 2048, any other is kept. */
  function MaxOutputTokens(maxTokens: Option<int>): (r: int)
    ensures r != 0
    ensures maxTokens.Some? && maxTokens.value != 0 ==> r == maxTokens.value
    ensures r == DEFAULT_MAX_OUTPUT_TOKENS <==>
              maxTokens.None? || maxTokens.value == 0 || maxTokens.value == DEFAULT_MAX_OUTPUT_TOKENS
  {
    match maxTokens
    case Some(n) => if n != 0 then n else DEFAULT_MAX_OUTPUT_TOKENS
    case None => DEFAULT_MAX_OUTPUT_TOKENS
  }

  /** `temperature || 0.7`: an absent or zero temperature becomes 0.7. */
  function Temperature(temperature: Option<real>): (r: real)
    ensures r != 0.0
    ensures temperature.Some? && temperature.value != 0.0 ==> r == temperature.value
    ensures temperature.None? || temperature.value == 0.0 ==> r == DEFAULT_TEMPERATURE
  {
    match temperature
    case Some(t) => if t != 0.0 then t else DEFAULT_TEMPERATURE
    case None => DEFAULT_TEMPERATURE
  }

  /** What one call of `streamChatCompletion` or `chatCompletion` sends: the model in
      the URL and the JSON body. */
  datatype GeminiRequest = GeminiRequest(modelName: string, systemInstruction: Option<string>,
                                         contents: seq<Content>, maxOutputTokens: int,
                                         temperature: real)

  /** The request built from a `GeminiRequest` argument: the model name from the table,
      the converted messages and the generation defaults. */
  function BuildRequest(model: string, messages: seq<Message>, maxTokens: Option<int>,
                        temperature: Option<real>): (r: GeminiRequest)
    ensures r.modelName == "gemini-1.5-pro" || r.modelName == "gemini-1.5-flash"
    ensures r.modelName == "gemini-1.5-pro" <==> model == "google/gemini-2.5-flash"
    ensures r.systemInstruction.None? <==> forall i :: 0 <= i < |messages| ==> messages[i].role != System
    ensures r.systemInstruction == FirstSystem(messages)
    ensures RestoreContents(r.contents) == NonSystem(messages)
    ensures r.maxOutputTokens != 0 && r.temperature != 0.0
    ensures maxTokens.Some? && maxTokens.value != 0 ==> r.maxOutputTokens == maxTokens.value
    ensures maxTokens.None? || maxTokens.value == 0 ==> r.maxOutputTokens == DEFAULT_MAX_OUTPUT_TOKENS
    ensures temperature.Some? && temperature.value != 0.0 ==> r.temperature == temperature.value
    ensures temperature.None? || temperature.value == 0.0 ==> r.temperature == DEFAULT_TEMPERATURE
  {
    ConvertRestores(messages);
    var c := ConvertMessages(messages);
    GeminiRequest(GetModelName(model), c.systemInstruction, c.contents,
                  MaxOutputTokens(maxTokens), Temperature(temperature))
  }

  /** `shouldUseDirectGeminiAPI(model)`, with the `GOOGLE_API_KEY` variable ("" when
      unset) as a parameter. */
  predicate ShouldUseDirectGeminiAPI(googleApiKey: string, model: string)
    ensures ShouldUseDirectGeminiAPI(googleApiKey, model) <==>
              |googleApiKey| > 0 && |model| >= 7 && model[..7] == "google/"
  {
    |googleApiKey| > 0 && StartsWith(model, "google/")
  }

  /** `chatCompletion`'s content: the first candidate's text, or "" when the path is missing. */
  function CompletionContent(candidateText: Option<string>): (r: string)
    ensures candidateText.None? ==> r == ""
    ensures candidateText.Some? ==> r == candidateText.value
  {
    candidateText.GetOr("")
  }
}

=== FILE: handlers.dfy ===
/** The two request handlers of app/api/ask-ai/route.ts. `POST` generates a page and
    streams it; `PUT` asks for a follow-up edit and applies the search/replace blocks of
    the answer to the page. Both validate the body, route the model, look it up in the
    catalog, admit the client and pick the upstream (the Gemini API directly, or the
    Hugging Face inference client with a provider).

    Everything outside the handler is a parameter: the environment variables, the
    per-IP counter the module keeps between requests (threaded through as a value), and
    what the upstream answers. Prompts whose text lives in lib/prompts.ts (the system
    prompts and the three markers) are parameters of the environment too. */
module Handlers {
  import opened Optional
  import opened JsString
  import opened Catalog
  import opened Routing
  import opened RateLimit
  import opened Gemini
  import opened StreamSession
  import EventStream
  import Patch

  /** The environment variables the handlers read ("" when unset), `MAX_REQUESTS_PER_IP`,
      the texts defined in lib/prompts.ts, the provider and model catalog, and how the
      follow-up patch inserts replacement texts (`Patch.Expanded` is the route as
      written, `Patch.Literal` the intended literal insertion). */
  datatype Env = Env(routeGoogleKey: string, clientGoogleKey: string, hfToken: string,
                     maxRequestsPerIp: nat, markers: Patch.Markers, substitution: Patch.Substitution,
                     initialSystemPrompt: string, followUpSystemPrompt: string,
                     providers: ProviderTable, models: seq<Model>)


  /** The `POST` body fields, the token cookie and the `x-forwarded-for` header
      ("" for an absent body field or cookie). */
  datatype PostRequest = PostRequest(prompt: string, provider: string, model: string,
                                     redesignMarkdown: string, html: string,
                                     cookieToken: string, forwardedFor: Option<string>)

  /** The `PUT` body fields, the token cookie and the `x-forwarded-for` header. */
  datatype PutRequest = PutRequest(prompt: string, html: string, previousPrompt: string,
                                   provider: string, selectedElementHtml: string,
                                   model: string, cookieToken: string,
                                   forwardedFor: Option<string>)

  /** The call the handler makes: straight to the Gemini API, through the inference
      client (model without its provider prefix, provider id, the `max_tokens` of the
      provider and whether it bills Hugging Face; None where an inherited member leaves
      them `undefined`), or none at all because `selectedProvider` is `undefined` and
      reading its fields throws. */
  datatype Upstream =
    | Direct(request: GeminiRequest)
    | HuggingFace(model: string, providerId: Option<string>, messages: seq<Message>,
                  maxTokens: Option<nat>, billToHuggingFace: bool)
    | Unresolved

  /** The message a property read on `undefined` throws. */
  const UNDEFINED_PROVIDER_ERROR := "Cannot read properties of undefined (reading 'max_tokens')"

  /** What the upstream streams for this `POST`: the raw reads of the Gemini response
      body with the payload parser, and how that stream ends; the content of each chunk
      of the inference client's stream, and how that one ends. */
  datatype StreamBackend = StreamBackend(geminiReads: seq<string>,
                                         extract: string -> Option<string>,
                                         geminiOutcome: Outcome,
                                         hfChunks: seq<string>, hfOutcome: Outcome)

  /** How a single completion call ends: with an answer (the candidate text for the
      Gemini API, `choices[0]?.message?.content` for the inference client) or with a
      thrown error and its message. */
  datatype Completion = Answer(content: Option<string>) | Thrown(message: string)

  datatype CompletionBackend = CompletionBackend(geminiAnswer: Completion, hfAnswer: Completion)

  /** The responses of the two handlers. */
  datatype Reply =
    | MissingFields
    | InvalidModel
    | UnsupportedProvider(provider: string)
    | LoginRequired
    | Streaming(upstream: Upstream, frames: seq<Frame>)
    | NoContent
    | Patched(upstream: Upstream, html: string, updatedLines: seq<Patch.LineRange>)
    | CreditsExceeded(message: string)
    | ServerError(message: string)

  /** The HTTP status of each response. */
  function Status(r: Reply): (code: nat)
    ensures code == 200 <==> r.Streaming? || r.Patched?
    ensures code == 429 <==> r.LoginRequired?
  {
    match r
    case MissingFields => 400
    case InvalidModel => 400
    case UnsupportedProvider(_) => 400
    case LoginRequired => 429
    case Streaming(_, _) => 200
    case NoContent => 400
    case Patched(_, _, _) => 200
    case CreditsExceeded(_) => 402
    case ServerError(_) => 500
  }

  // ---------------------------------------------------------------------------
  // The steps both handlers share

  /** The catalog entry the routed model names, if any. */
  function SelectModel(env: Env, model: string, prompt: string): Option<Model> {
    FindModel(env.models, SmartModel(model, prompt, env.routeGoogleKey != ""))
  }

  /** The upstream call for the routed model id `smart`, the selected catalog entry and
      the requested provider. */
  function PlanUpstream(env: Env, smart: string, selected: Model, provider: string,
                        billToHuggingFace: bool, messages: seq<Message>): (u: Upstream)
    ensures u.Unresolved? <==> ResolveProvider(env.providers, selected, provider).Undefined?
    ensures u.Direct? <==> !ResolveProvider(env.providers, selected, provider).Undefined?
                           && StartsWith(smart, "google/") && env.routeGoogleKey != ""
                           && env.clientGoogleKey != ""
    ensures u.HuggingFace? ==> u.model == ActualModelName(selected.value)
    ensures var r := ResolveProvider(env.providers, selected, provider);
            && (u.HuggingFace? && r.Own? ==> u.providerId == Some(r.provider.id) && u.maxTokens == Some(r.provider.maxTokens))
            && (u.HuggingFace? && r.Inherited? ==> u.providerId.None? && u.maxTokens.None?)
            && (u.Direct? && r.Inherited? ==> u.request.maxOutputTokens == DEFAULT_MAX_OUTPUT_TOKENS)
            && (u.Direct? && r.Own? && r.provider.maxTokens != 0 ==> u.request.maxOutputTokens == r.provider.maxTokens)
  {
    match ResolveProvider(env.providers, selected, provider)
    case Undefined => Unresolved
    case Own(p) => CallWith(env, smart, selected, billToHuggingFace, messages, Some(p.id), Some(p.maxTokens))
    case Inherited => CallWith(env, smart, selected, billToHuggingFace, messages, None, None)
  }

  /** The call for a resolved provider whose `id` and `max_tokens` read as given. */
  function CallWith(env: Env, smart: string, selected: Model, billToHuggingFace: bool,
                    messages: seq<Message>, id: Option<string>, budget: Option<nat>): Upstream {
    if ShouldUseDirectGeminiAPI(env.clientGoogleKey, smart) && env.routeGoogleKey != "" then
      Direct(BuildRequest(smart, messages, budget, None))
    else
      HuggingFace(ActualModelName(selected.value), id, messages, budget, billToHuggingFace)
  }

  /** How the front half both handlers share ends: with a response, or with the routed
      model id, its catalog entry and whether the call is billed to Hugging Face. */
  datatype Gate = Stop(counter: Counter, reply: Reply)
                | Go(counter: Counter, smart: string, selected: Model, billToHuggingFace: bool)

  /** Route the model and look it up, check the provider when `checkProvider` (only
      `POST` does), then count an anonymous client and turn it away past the limit. */
  function Front(env: Env, counter: Counter, prompt: string, model: string, provider: string,
                 checkProvider: bool, cookieToken: string, forwardedFor: Option<string>): (g: Gate)
    ensures g.Stop? ==> g.reply.InvalidModel? || g.reply.UnsupportedProvider? || g.reply.LoginRequired?
    ensures g.Stop? && g.reply.InvalidModel? <==> SelectModel(env, model, prompt).None?
    ensures g.Stop? && g.reply.UnsupportedProvider? ==> checkProvider && provider != "auto"
    ensures g.Go? ==> g.smart == SmartModel(model, prompt, env.routeGoogleKey != "")
                      && SelectModel(env, model, prompt) == Some(g.selected)
                      && (checkProvider ==> ProviderAccepted(g.selected, provider))
                      && g.billToHuggingFace == !HasCredential(cookieToken, env.hfToken)
    ensures g.Stop? && !g.reply.LoginRequired? ==> g.counter == counter
    ensures HasCredential(cookieToken, env.hfToken) ==> g.counter == counter && !(g.Stop? && g.reply.LoginRequired?)
    ensures g.Stop? && g.reply.LoginRequired? ==> Seen(g.counter, ClientKeyOf(forwardedFor)) > env.maxRequestsPerIp
    ensures g.Go? && !HasCredential(cookieToken, env.hfToken) ==>
              Seen(g.counter, ClientKeyOf(forwardedFor)) <= env.maxRequestsPerIp
    ensures (g.Go? || g.reply.LoginRequired?) && !HasCredential(cookieToken, env.hfToken) ==>
              Seen(g.counter, ClientKeyOf(forwardedFor)) == Seen(counter, ClientKeyOf(forwardedFor)) + 1
    ensures forall k :: k != ClientKeyOf(forwardedFor) ==> Seen(g.counter, k) == Seen(counter, k)
    ensures checkProvider && SelectModel(env, model, prompt).Some?
            && !ProviderAccepted(SelectModel(env, model, prompt).value, provider) ==>
              g == Stop(counter, UnsupportedProvider(provider))
  {
    var smart := SmartModel(model, prompt, env.routeGoogleKey != "");
    match SelectModel(env, model, prompt)
    case None => Stop(counter, InvalidModel)
    case Some(selected) =>
      if checkProvider && !ProviderAccepted(selected, provider) then Stop(counter, UnsupportedProvider(provider))
      else
        var credential := HasCredential(cookieToken, env.hfToken);
        var (counter', verdict) := Admit(counter, ClientKeyOf(forwardedFor), credential, env.maxRequestsPerIp);
        if verdict == Denied then Stop(counter', LoginRequired)
        else Go(counter', smart, selected, !credential)
  }

  // ---------------------------------------------------------------------------
  // POST

  /** The templates that wrap a design or the current page in a generation request. */
  const REDESIGN_HEAD := "Here is my current design as a markdown:\n\n"
  const REDESIGN_TAIL := "\n\nNow, please create a new design based on this markdown."
  const PAGE_HEAD := "Here is my current HTML code:\n\n```html\n"
  const PAGE_TAIL := "\n```\n\nNow, please create a new design based on this HTML."

  /** The user message of a generation request: the redesign template when a markdown
      design is given, else the HTML template when the current page is given, else the
      prompt itself. */
  function InitialUserContent(prompt: string, redesignMarkdown: string, html: string): (r: string)
    ensures redesignMarkdown == "" && html == "" ==> r == prompt
    ensures redesignMarkdown != "" ==> Includes(r, redesignMarkdown)
    ensures redesignMarkdown == "" && html != "" ==> Includes(r, html)
  {
    if redesignMarkdown != "" then
      IncludesMiddle(REDESIGN_HEAD, redesignMarkdown, REDESIGN_TAIL);
      REDESIGN_HEAD + redesignMarkdown + REDESIGN_TAIL
    else if html != "" then
      IncludesMiddle(PAGE_HEAD, html, PAGE_TAIL);
      PAGE_HEAD + html + PAGE_TAIL
    else prompt
  }

  /** A string occurs in any text that has it in the middle. */
  lemma IncludesMiddle(a: string, b: string, c: string)
    ensures Includes(a + b + c, b)
  {
    var t := a + b + c;
    assert t[|a|..|a| + |b|] == b;
    assert MatchesAt(t, b, |a|);
  }

  /** The two messages of a generation request. */
  function InitialMessages(env: Env, req: PostRequest): seq<Message> {
    [Message(System, env.initialSystemPrompt),
     Message(User, InitialUserContent(req.prompt, req.redesignMarkdown, req.html))]
  }

  /** What the session writes for the chosen upstream. */
  function StreamFrames(u: Upstream, backend: StreamBackend): seq<Frame> {
    match u
    case Direct(_) =>
      Session(EventStream.StreamFragments(backend.geminiReads, backend.extract), backend.geminiOutcome)
    case HuggingFace(_, _, _, _, _) => Session(backend.hfChunks, backend.hfOutcome)
    case Unresolved => Session([], Failed(UNDEFINED_PROVIDER_ERROR))
  }

  /** `POST`: the counter after the request and the response. */
  function Post(env: Env, counter: Counter, req: PostRequest, backend: StreamBackend): (r: (Counter, Reply))
    ensures r.1 == MissingFields <==> req.model == "" || (req.prompt == "" && req.redesignMarkdown == "")
    ensures r.1.UnsupportedProvider? ==> req.provider != "auto"
    ensures r.1.MissingFields? || r.1.InvalidModel? || r.1.UnsupportedProvider? ==> r.0 == counter
    ensures HasCredential(req.cookieToken, env.hfToken) ==> r.0 == counter && !r.1.LoginRequired?
    ensures r.1.LoginRequired? ==> Seen(r.0, ClientKeyOf(req.forwardedFor)) > env.maxRequestsPerIp
    ensures r.1.Streaming? || r.1.MissingFields? || r.1.InvalidModel?
            || r.1.UnsupportedProvider? || r.1.LoginRequired?
    ensures (r.1.Streaming? || r.1.LoginRequired?) && !HasCredential(req.cookieToken, env.hfToken) ==>
              Seen(r.0, ClientKeyOf(req.forwardedFor)) == Seen(counter, ClientKeyOf(req.forwardedFor)) + 1
    ensures forall k :: k != ClientKeyOf(req.forwardedFor) ==> Seen(r.0, k) == Seen(counter, k)
    ensures req.model != "" && (req.prompt != "" || req.redesignMarkdown != "")
            && SelectModel(env, req.model, req.prompt).Some?
            && !ProviderAccepted(SelectModel(env, req.model, req.prompt).value, req.provider) ==>
              r == (counter, UnsupportedProvider(req.provider))
  {
    if req.model == "" || (req.prompt == "" && req.redesignMarkdown == "") then (counter, MissingFields)
    else
      match Front(env, counter, req.prompt, req.model, req.provider, true, req.cookieToken, req.forwardedFor)
      case Stop(counter', reply) => (counter', reply)
      case Go(counter', smart, selected, billToHuggingFace) =>
        var u := PlanUpstream(env, smart, selected, req.provider, billToHuggingFace, InitialMessages(env, req));
        (counter', Streaming(u, StreamFrames(u, backend)))
  }

  // ---------------------------------------------------------------------------
  // PUT

  const DEFAULT_PREVIOUS_PROMPT := "You are modifying the HTML file based on the user's request."
  const CODE_HEAD := "The current code is: \n```html\n"
  const CODE_TAIL := "\n``` "
  const ELEMENT_HEAD := "\n\nYou have to update ONLY the following element, NOTHING ELSE: \n\n```html\n"
  const ELEMENT_TAIL := "\n```"

  /** The assistant turn of a follow-up request: the current page, and the element to
      limit the edit to when one is selected. */
  function CurrentCode(html: string, selectedElementHtml: string): (r: string)
    ensures Includes(r, html)
    ensures selectedElementHtml != "" ==> Includes(r, selectedElementHtml)
  {
    var code := Fenced(CODE_HEAD, html, CODE_TAIL);
    if selectedElementHtml != "" then
      var element := Fenced(ELEMENT_HEAD, selectedElementHtml, ELEMENT_TAIL);
      IncludesExtend(code, element, html);
      IncludesPrepend(code, element, selectedElementHtml);
      code + element
    else code
  }

  /** A text between a head and a tail. */
  function Fenced(head: string, body: string, tail: string): (r: string)
    ensures Includes(r, body)
  {
    IncludesMiddle(head, body, tail);
    head + body + tail
  }

  /** A text containing `pat` still contains it after more text is put in front. */
  lemma IncludesPrepend(a: string, b: string, pat: string)
    requires Includes(b, pat)
    ensures Includes(a + b, pat)
  {
    var i: nat :| i <= |b| && MatchesAt(b, pat, i);
    assert (a + b)[|a| + i..|a| + i + |pat|] == b[i..i + |pat|];
    assert MatchesAt(a + b, pat, |a| + i);
  }

  /** The four messages of a follow-up request. */
  function FollowUpMessages(env: Env, req: PutRequest): (ms: seq<Message>)
    ensures |ms| == 4 && ms[0] == Message(System, env.followUpSystemPrompt)
    ensures ms[1].role == User && ms[2].role == Assistant && ms[3] == Message(User, req.prompt)
    ensures req.previousPrompt != "" ==> ms[1].content == req.previousPrompt
    ensures req.previousPrompt == "" ==> ms[1].content == DEFAULT_PREVIOUS_PROMPT
    ensures Includes(ms[2].content, req.html)
  {
    [Message(System, env.followUpSystemPrompt),
     Message(User, if req.previousPrompt != "" then req.previousPrompt else DEFAULT_PREVIOUS_PROMPT),
     Message(Assistant, CurrentCode(req.html, req.selectedElementHtml)),
     Message(User, req.prompt)]
  }

  /** How the completion call for the chosen upstream ends. The Gemini client turns a
      missing candidate text into "". */
  function CompletionOf(u: Upstream, backend: CompletionBackend): (c: Completion)
    ensures u.Direct? && c.Answer? ==> c.content.Some?
    ensures u.Unresolved? ==> c == Thrown(UNDEFINED_PROVIDER_ERROR)
  {
    match u
    case Direct(_) =>
      (match backend.geminiAnswer
       case Answer(candidate) => Answer(Some(CompletionContent(candidate)))
       case Thrown(m) => Thrown(m))
    case HuggingFace(_, _, _, _, _) => backend.hfAnswer
    case Unresolved => Thrown(UNDEFINED_PROVIDER_ERROR)
  }

  /** The response for a thrown error: the billing message answers 402, anything else
      500 with its message or the generic one. */
  function ErrorReply(message: string): (r: Reply)
    ensures r.CreditsExceeded? <==> Includes(message, BILLING_MARKER)
    ensures r.CreditsExceeded? || r.ServerError?
    ensures r.CreditsExceeded? ==> r.message == message
    ensures r.ServerError? ==> r.message == (if message != "" then message else GENERIC_ERROR)
  {
    if Includes(message, BILLING_MARKER) then CreditsExceeded(message)
    else ServerError(if message != "" then message else GENERIC_ERROR)
  }

  /** The response once the completion call is over. */
  function FollowUpReply(env: Env, html: string, u: Upstream, c: Completion): (r: Reply)
    requires env.markers.Valid()
    ensures r.NoContent? <==> c.Answer? && (c.content.None? || c.content.value == "")
    ensures r.Patched? ==> c.Answer? && c.content.Some? && r.upstream == u
                           && (r.html, r.updatedLines)
                              == Patch.ApplyAll(env.substitution, html, Patch.ParseBlocks(c.content.value, env.markers))
    ensures c.Thrown? ==> r == ErrorReply(c.message)
    ensures r.NoContent? || r.Patched? || r.CreditsExceeded? || r.ServerError?
  {
    match c
    case Thrown(m) => ErrorReply(m)
    case Answer(content) =>
      if content.None? || content.value == "" then NoContent
      else
        var (newHtml, updatedLines) := Patch.ApplyAll(env.substitution, html, Patch.ParseBlocks(content.value, env.markers));
        Patched(u, newHtml, updatedLines)
  }

  /** `PUT`: the counter after the request and the response. There is no provider
      check on this path. */
  function Put(env: Env, counter: Counter, req: PutRequest, backend: CompletionBackend): (r: (Counter, Reply))
    requires env.markers.Valid()
    ensures r.1 == MissingFields <==> req.prompt == "" || req.html == ""
    ensures !r.1.UnsupportedProvider? && !r.1.Streaming?
    ensures r.1.MissingFields? || r.1.InvalidModel? ==> r.0 == counter
    ensures HasCredential(req.cookieToken, env.hfToken) ==> r.0 == counter && !r.1.LoginRequired?
    ensures r.1.LoginRequired? ==> Seen(r.0, ClientKeyOf(req.forwardedFor)) > env.maxRequestsPerIp
    ensures !r.1.MissingFields? && !r.1.InvalidModel? && !HasCredential(req.cookieToken, env.hfToken) ==>
              Seen(r.0, ClientKeyOf(req.forwardedFor)) == Seen(counter, ClientKeyOf(req.forwardedFor)) + 1
    ensures forall k :: k != ClientKeyOf(req.forwardedFor) ==> Seen(r.0, k) == Seen(counter, k)
  {
    if req.prompt == "" || req.html == "" then (counter, MissingFields)
    else
      match Front(env, counter, req.prompt, req.model, req.provider, false, req.cookieToken, req.forwardedFor)
      case Stop(counter', reply) => (counter', reply)
      case Go(counter', smart, selected, billToHuggingFace) =>
        var u := PlanUpstream(env, smart, selected, req.provider, billToHuggingFace, FollowUpMessages(env, req));
        (counter', FollowUpReply(env, req.html, u, CompletionOf(u, backend)))
  }

  // ---------------------------------------------------------------------------
  // Properties of the handlers on a catalog like the shipped one
  // (`ShippedGoogleTargets` and `ShippedFallbackTargets` prove the premises for lib/providers.ts)

  /** When no fallback target is in the catalog, a routed request never gets past the
      lookup without the Google API key: both handlers answer "Invalid model selected"
      and leave the counter alone. */
  lemma FallbackRoutingRejected(env: Env, counter: Counter, post: PostRequest, put: PutRequest,
                                sb: StreamBackend, cb: CompletionBackend)
    requires FallbackTargetsUnlisted(env.models) && env.markers.Valid() && env.routeGoogleKey == ""
    requires RoutingApplies(post.model, post.prompt)
    requires RoutingApplies(put.model, put.prompt) && put.html != ""
    ensures Post(env, counter, post, sb) == (counter, InvalidModel)
    ensures Put(env, counter, put, cb) == (counter, InvalidModel)
  {
    assert FindModel(env.models, RouteTarget(Classify(post.prompt), false)).None?;
    assert FindModel(env.models, RouteTarget(Classify(put.prompt), false)).None?;
    NonEmptyMention(post.model, "gemini", "gemma");
  }

  /** A text that mentions a non-empty word is not empty. */
  lemma NonEmptyMention(s: string, w1: string, w2: string)
    requires |w1| > 0 && |w2| > 0 && (Includes(s, w1) || Includes(s, w2))
    ensures s != ""
  {
  }

  /** With a well-formed catalog every request that passes the front half resolves a
      provider, so the `undefined` provider path is never taken. */
  lemma ProviderResolved(env: Env, smart: string, selected: Model, provider: string,
                         bill: bool, messages: seq<Message>, model: string, prompt: string)
    requires WellFormed(env.providers, env.models) && SelectModel(env, model, prompt) == Some(selected)
    ensures !PlanUpstream(env, smart, selected, provider, bill, messages).Unresolved?
  {
    var i :| 0 <= i < |env.models| && env.models[i] == selected;
    ResolveProviderTotal(env.providers, env.models, i, provider);
  }

  /** With a well-formed catalog, no response of either handler comes from the
      `undefined` provider path. */
  lemma HandlersResolveProvider(env: Env, counter: Counter, post: PostRequest, put: PutRequest,
                                sb: StreamBackend, cb: CompletionBackend)
    requires WellFormed(env.providers, env.models) && env.markers.Valid()
    ensures var r := Post(env, counter, post, sb).1;
            r.Streaming? ==> !r.upstream.Unresolved?
    ensures var r := Put(env, counter, put, cb).1;
            r.Patched? ==> !r.upstream.Unresolved?
  {
    PostResolvesProvider(env, counter, post, sb);
    PutResolvesProvider(env, counter, put, cb);
  }

  lemma PostResolvesProvider(env: Env, counter: Counter, post: PostRequest, sb: StreamBackend)
    requires WellFormed(env.providers, env.models)
    ensures var r := Post(env, counter, post, sb).1;
            r.Streaming? ==> !r.upstream.Unresolved?
  {
    if post.model != "" && (post.prompt != "" || post.redesignMarkdown != "") {
      var g := Front(env, counter, post.prompt, post.model, post.provider, true, post.cookieToken, post.forwardedFor);
      if g.Go? {
        ProviderResolved(env, g.smart, g.selected, post.provider, g.billToHuggingFace,
                         InitialMessages(env, post), post.model, post.prompt);
      }
    }
  }

  lemma PutResolvesProvider(env: Env, counter: Counter, put: PutRequest, cb: CompletionBackend)
    requires WellFormed(env.providers, env.models) && env.markers.Valid()
    ensures var r := Put(env, counter, put, cb).1;
            r.Patched? ==> !r.upstream.Unresolved?
  {
    if put.prompt != "" && put.html != "" {
      var g := Front(env, counter, put.prompt, put.model, put.provider, false, put.cookieToken, put.forwardedFor);
      if g.Go? {
        ProviderResolved(env, g.smart, g.selected, put.provider, g.billToHuggingFace,
                         FollowUpMessages(env, put), put.model, put.prompt);
      }
    }
  }

  /** `POST` checks the provider against the model's list, so with a well-formed catalog
      an admitted generation request always reads an own provider descriptor: the
      inference client gets a real id and budget. */
  lemma PostReadsOwnProvider(env: Env, counter: Counter, req: PostRequest, sb: StreamBackend)
    requires WellFormed(env.providers, env.models)
    ensures var r := Post(env, counter, req, sb).1;
            r.Streaming? && r.upstream.HuggingFace? ==> r.upstream.providerId.Some? && r.upstream.maxTokens.Some?
  {
    if req.model != "" && (req.prompt != "" || req.redesignMarkdown != "") {
      var g := Front(env, counter, req.prompt, req.model, req.provider, true, req.cookieToken, req.forwardedFor);
      if g.Go? {
        var i :| 0 <= i < |env.models| && env.models[i] == g.selected;
        ResolveProviderTotal(env.providers, env.models, i, req.provider);
        if req.provider != "auto" {
          assert ModelProvidersValid(env.providers, g.selected);
          var k :| 0 <= k < |g.selected.providers| && g.selected.providers[k] == req.provider;
        }
      }
    }
  }

  /** `PUT` has no provider check, so an `Object.prototype` name such as `toString`
      survives `?? DEFAULT_PROVIDER`: the inference client is called without a provider
      id and without a budget, and the Gemini API falls back to 2048 output tokens. */
  lemma PutInheritedProvider(env: Env, counter: Counter, req: PutRequest, cb: CompletionBackend)
    requires WellFormed(env.providers, env.models) && env.markers.Valid()
    requires req.provider in OBJECT_PROTOTYPE_NAMES && req.provider !in Keys(env.providers)
    ensures var r := Put(env, counter, req, cb).1;
            && (r.Patched? && r.upstream.HuggingFace? ==> r.upstream.providerId.None? && r.upstream.maxTokens.None?)
            && (r.Patched? && r.upstream.Direct? ==> r.upstream.request.maxOutputTokens == DEFAULT_MAX_OUTPUT_TOKENS)
            && (r.Patched? ==> !r.upstream.Unresolved?)
  {
    if req.prompt != "" && req.html != "" {
      var g := Front(env, counter, req.prompt, req.model, req.provider, false, req.cookieToken, req.forwardedFor);
      if g.Go? {
        var i :| 0 <= i < |env.models| && env.models[i] == g.selected;
        assert "auto" !in OBJECT_PROTOTYPE_NAMES;
        ResolveProviderTotal(env.providers, env.models, i, req.provider);
      }
    }
  }

  /** With both Google keys set and the Google targets in the catalog, a routed
      generation request is never rejected for its model, and once admitted it goes
      straight to the Gemini API with the system prompt as system instruction and the
      user message as the only content. */
  lemma GoogleRoutingGoesDirect(env: Env, counter: Counter, req: PostRequest, sb: StreamBackend)
    requires WellFormed(env.providers, env.models) && GoogleTargetsListed(env.models)
    requires env.routeGoogleKey != "" && env.clientGoogleKey != ""
    requires RoutingApplies(req.model, req.prompt)
    ensures var r := Post(env, counter, req, sb).1;
            && !r.MissingFields? && !r.InvalidModel?
            && (r.Streaming? ==> r.upstream.Direct?
                                 && r.upstream.request.systemInstruction == Some(env.initialSystemPrompt)
                                 && RestoreContents(r.upstream.request.contents)
                                    == [Message(User, InitialUserContent(req.prompt, req.redesignMarkdown, req.html))])
  {
    NonEmptyMention(req.model, "gemini", "gemma");
    var target := RouteTarget(Classify(req.prompt), true);
    assert FindModel(env.models, target).Some? && StartsWith(FindModel(env.models, target).value.value, "google/");
    var g := Front(env, counter, req.prompt, req.model, req.provider, true, req.cookieToken, req.forwardedFor);
    if g.Go? {
      var messages := InitialMessages(env, req);
      ProviderResolved(env, g.smart, g.selected, req.provider, g.billToHuggingFace, messages,
                       req.model, req.prompt);
      GoogleTargetPrefix(Classify(req.prompt));
      PlanDirectKeepsMessages(env, g.smart, g.selected, req.provider, g.billToHuggingFace, messages);
      InitialMessagesConvert(env, req);
    }
  }

  /** No id the direct path accepts is a name `Object.prototype` supplies, so the model
      table of the Gemini client is only ever read at its own keys or at absent ones. */
  lemma DirectModelNotInherited(googleApiKey: string, model: string)
    requires ShouldUseDirectGeminiAPI(googleApiKey, model)
    ensures model !in OBJECT_PROTOTYPE_NAMES
  {
    assert model[0] == 'g';
  }

  /** A resolved provider, a `google/` model and both keys make the call go straight to
      the Gemini API with the messages converted as they are. */
  lemma PlanDirectKeepsMessages(env: Env, smart: string, selected: Model, provider: string,
                                bill: bool, messages: seq<Message>)
    requires !ResolveProvider(env.providers, selected, provider).Undefined?
    requires StartsWith(smart, "google/") && env.routeGoogleKey != "" && env.clientGoogleKey != ""
    ensures var u := PlanUpstream(env, smart, selected, provider, bill, messages);
            && u.Direct?
            && u.request.systemInstruction == ConvertMessages(messages).systemInstruction
            && u.request.contents == ConvertMessages(messages).contents
  {
  }

  /** The two messages of a generation request convert to a system instruction and a
      single user turn. */
  lemma InitialMessagesConvert(env: Env, req: PostRequest)
    ensures var c := ConvertMessages(InitialMessages(env, req));
            c.systemInstruction == Some(env.initialSystemPrompt)
            && RestoreContents(c.contents)
               == [Message(User, InitialUserContent(req.prompt, req.redesignMarkdown, req.html))]
  {
    var user := [Message(User, InitialUserContent(req.prompt, req.redesignMarkdown, req.html))];
    assert InitialMessages(env, req) == [Message(System, env.initialSystemPrompt)] + user;
    ConvertRoundTrip(env.initialSystemPrompt, user);
  }

  /** The client of a generation request receives exactly a prefix of the text the
      upstream produced: through the inference client the chunk contents, through the
      Gemini API the text fragments of the complete `data: ` lines of the body. */
  lemma PostWritesUpstreamPrefix(env: Env, counter: Counter, req: PostRequest, sb: StreamBackend)
    ensures var r := Post(env, counter, req, sb).1;
            && (r.Streaming? && r.upstream.HuggingFace? ==>
                  var k := Consumed(sb.hfChunks);
                  Written(r.frames) == Concat(sb.hfChunks[..k])
                  && Concat(sb.hfChunks) == Concat(sb.hfChunks[..k]) + Concat(sb.hfChunks[k..]))
            && (r.Streaming? && r.upstream.Direct? ==>
                  var fs := EventStream.StreamFragments(sb.geminiReads, sb.extract);
                  var k := Consumed(fs);
                  Written(r.frames) == Concat(fs[..k])
                  && Concat(fs) == Concat(fs[..k]) + Concat(fs[k..]))
  {
    PostWritesChunkPrefix(env, counter, req, sb);
    PostWritesFragmentPrefix(env, counter, req, sb);
  }

  /** `PostWritesUpstreamPrefix` through the inference client. */
  lemma PostWritesChunkPrefix(env: Env, counter: Counter, req: PostRequest, sb: StreamBackend)
    ensures var r := Post(env, counter, req, sb).1;
            r.Streaming? && r.upstream.HuggingFace? ==>
              var k := Consumed(sb.hfChunks);
              Written(r.frames) == Concat(sb.hfChunks[..k])
              && Concat(sb.hfChunks) == Concat(sb.hfChunks[..k]) + Concat(sb.hfChunks[k..])
  {
    SessionWritesPrefix(sb.hfChunks, sb.hfOutcome);
  }

  /** `PostWritesUpstreamPrefix` through the Gemini API. */
  lemma PostWritesFragmentPrefix(env: Env, counter: Counter, req: PostRequest, sb: StreamBackend)
    ensures var r := Post(env, counter, req, sb).1;
            r.Streaming? && r.upstream.Direct? ==>
              var fs := EventStream.StreamFragments(sb.geminiReads, sb.extract);
              var k := Consumed(fs);
              Written(r.frames) == Concat(fs[..k])
              && Concat(fs) == Concat(fs[..k]) + Concat(fs[k..])
  {
    SessionWritesPrefix(EventStream.StreamFragments(sb.geminiReads, sb.extract), sb.geminiOutcome);
  }

  /** How the Gemini response body is cut into reads does not change the response of a
      generation request. */
  lemma DirectReadsChunkingIrrelevant(env: Env, counter: Counter, req: PostRequest,
                                      sb: StreamBackend, pieces: seq<string>)
    requires Concat(pieces) == Concat(sb.geminiReads)
    ensures Post(env, counter, req, sb) == Post(env, counter, req, sb.(geminiReads := pieces))
  {
    EventStream.ChunkingIrrelevant(sb.geminiReads, pieces, sb.extract);
  }

  /** A follow-up answer without any complete block leaves the page as it was and
      reports no updated lines. */
  lemma FollowUpWithoutBlocks(env: Env, html: string, u: Upstream, out: string)
    requires env.markers.Valid() && out != "" && !Includes(out, env.markers.replaceEnd)
    ensures FollowUpReply(env, html, u, Answer(Some(out))) == Patched(u, html, [])
  {
    Patch.NoBlockNoChange(env.substitution, html, out, env.markers);
  }

  /** A follow-up answer written as blocks (each one parsable) and a tail without an end
      marker applies exactly those blocks, in order, to the page. */
  lemma FollowUpAppliesRenderedBlocks(env: Env, html: string, u: Upstream,
                                      blocks: seq<Patch.Block>, tail: string)
    requires env.markers.Valid()
    requires forall k :: 0 <= k < |blocks| ==> Patch.Parsable(blocks[k], env.markers)
    requires !Includes(tail, env.markers.replaceEnd)
    requires Patch.Render(blocks, env.markers) + tail != ""
    ensures var (newHtml, updatedLines) := Patch.ApplyAll(env.substitution, html, blocks);
            FollowUpReply(env, html, u, Answer(Some(Patch.Render(blocks, env.markers) + tail)))
              == Patched(u, newHtml, updatedLines)
  {
    Patch.ParseRenderRoundTrip(blocks, tail, env.markers);
  }

  /** How a follow-up failure is reported: the billing message with 402, everything
      else with 500; an empty answer or a missing one with 400. */
  lemma FollowUpStatuses(env: Env, html: string, u: Upstream, c: Completion)
    requires env.markers.Valid()
    ensures var r := FollowUpReply(env, html, u, c);
            && (c.Thrown? ==> (Status(r) == 402 <==> Includes(c.message, BILLING_MARKER))
                              && (Status(r) == 500 <==> !Includes(c.message, BILLING_MARKER)))
            && (c.Answer? ==> (Status(r) == 200 <==> c.content.Some? && c.content.value != ""))
  {
  }
}

=== FILE: js_string.dfy ===
/** The JavaScript string primitives the server code relies on (`indexOf`, `includes`,
    `startsWith`, `split` on one character, `join`, `trim`, `substring`, `toLowerCase`),
    stated over Dafny strings, with one `char` per Unicode scalar value. */
module JsString {
  import opened Optional

  function Min(a: int, b: int): int { if a <= b then a else b }
  function Max(a: int, b: int): int { if a <= b then b else a }

  /** `pat` occurs in `s` starting at index `i`. */
  predicate MatchesAt(s: string, pat: string, i: nat) {
    i + |pat| <= |s| && s[i..i + |pat|] == pat
  }

  /** `s.indexOf(pat, from)` for a non-empty `pat`: the first index at or after `from`
      where `pat` occurs; None stands for JavaScript's -1. That it is the first such
      index is `IndexOfFirst`. */
  function IndexOf(s: string, pat: string, from: nat): Option<nat>
    requires |pat| > 0
    decreases |s| - from
  {
    if |s| < from + |pat| then None
    else if s[from..from + |pat|] == pat then Some(from)
    else IndexOf(s, pat, from + 1)
  }

  /** `indexOf` returns an occurrence at or after `from`, misses no earlier one, and
      returns -1 only when there is none. */
  lemma {:induction false} IndexOfFirst(s: string, pat: string, from: nat)
    requires |pat| > 0
    ensures IndexOf(s, pat, from).Some? ==>
              from <= IndexOf(s, pat, from).value && MatchesAt(s, pat, IndexOf(s, pat, from).value)
    ensures IndexOf(s, pat, from).Some? ==>
              forall j :: from <= j < IndexOf(s, pat, from).value ==> !MatchesAt(s, pat, j)
    ensures IndexOf(s, pat, from).None? <==> forall j :: from <= j ==> !MatchesAt(s, pat, j)
    decreases |s| - from
  {
    if |s| < from + |pat| {
    } else if s[from..from + |pat|] == pat {
      assert MatchesAt(s, pat, from);
    } else {
      IndexOfFirst(s, pat, from + 1);
    }
  }

  /** `indexOf` finds a given occurrence when there is none between `from` and it. */
  lemma IndexOfAt(s: string, pat: string, from: nat, i: nat)
    requires |pat| > 0 && from <= i && MatchesAt(s, pat, i)
    requires forall j :: from <= j < i ==> !MatchesAt(s, pat, j)
    ensures IndexOf(s, pat, from) == Some(i)
  {
    IndexOfFirst(s, pat, from);
  }

  /** `s.includes(pat)`. */
  predicate Includes(s: string, pat: string)
  {
    exists i: nat :: i <= |s| && MatchesAt(s, pat, i)
  }

  /** `s.includes(c)` for a one-character pattern is membership of that character. */
  lemma IncludesChar(s: string, c: char)
    ensures Includes(s, [c]) <==> c in s
  {
    if c in s {
      var i :| 0 <= i < |s| && s[i] == c;
      assert MatchesAt(s, [c], i);
    }
    if Includes(s, [c]) {
      var i: nat :| i <= |s| && MatchesAt(s, [c], i);
      assert s[i] == s[i..i + 1][0];
    }
  }

  /** The first position of a character that occurs in `s`. */
  function FirstIndexOf(s: string, c: char): (i: nat)
    requires c in s
    ensures i < |s| && s[i] == c && c !in s[..i]
  {
    if s[0] == c then 0
    else
      var i := FirstIndexOf(s[1..], c);
      assert s[..i + 1] == [s[0]] + s[1..][..i];
      i + 1
  }

  /** `s.startsWith(prefix)`. */
  predicate StartsWith(s: string, prefix: string) {
    |prefix| <= |s| && s[..|prefix|] == prefix
  }

  /** Number of occurrences of the character `c` in `s`. */
  function Count(s: string, c: char): (n: nat)
    ensures n <= |s|
    ensures n == 0 <==> c !in s
  {
    if |s| == 0 then 0
    else (if s[0] == c then 1 else 0) + Count(s[1..], c)
  }

  lemma {:induction false} CountAppend(a: string, b: string, c: char)
    ensures Count(a + b, c) == Count(a, c) + Count(b, c)
    decreases |a|
  {
    if |a| == 0 {
      assert a + b == b;
    } else {
      assert (a + b)[1..] == a[1..] + b;
      CountAppend(a[1..], b, c);
    }
  }

  /** `s.split(sep)` for a one-character separator: the maximal separator-free pieces,
      so there is always one more piece than there are separators. */
  function Split(s: string, sep: char): (parts: seq<string>)
    ensures |parts| == Count(s, sep) + 1
    ensures forall k :: 0 <= k < |parts| ==> sep !in parts[k]
    decreases |s|
  {
    if |s| == 0 then [""]
    else
      var rest := Split(s[1..], sep);
      if s[0] == sep then [""] + rest
      else [[s[0]] + rest[0]] + rest[1..]
  }

  /** One step of `Split`, for a string given as its first character and the rest. */
  lemma SplitCons(x: char, rest: string, sep: char)
    ensures var tail := Split(rest, sep);
            Split([x] + rest, sep) == if x == sep then [""] + tail else [[x] + tail[0]] + tail[1..]
  {
    assert ([x] + rest)[1..] == rest;
  }

  // Order of elements, shared by the filters of the model

  /** `a` lists some of the elements of `b`, in the order they have in `b`. */
  predicate Subsequence<T(==)>(a: seq<T>, b: seq<T>)
    decreases |b|
  {
    if |a| == 0 then true
    else if |b| == 0 then false
    else if a[0] == b[0] then Subsequence(a[1..], b[1..])
    else Subsequence(a, b[1..])
  }

  /** Dropping the first element of `b` keeps every subsequence of its tail. */
  lemma SkipHead<T>(a: seq<T>, b: seq<T>)
    requires |b| > 0 && Subsequence(a, b[1..])
    ensures Subsequence(a, b)
  {
    if |a| > 0 && a[0] == b[0] {
      SubsequenceTail(a, b[1..]);
    }
  }

  /** A subsequence stays one after losing its first element. */
  lemma {:induction false} SubsequenceTail<T>(a: seq<T>, b: seq<T>)
    requires |a| > 0 && Subsequence(a, b)
    ensures Subsequence(a[1..], b)
    decreases |b|
  {
    if |b| > 0 {
      var t := a[1..];
      if a[0] != b[0] {
        SubsequenceTail(a, b[1..]);
      }
      assert Subsequence(t, b[1..]);
      if |t| > 0 && t[0] == b[0] {
        SubsequenceTail(t, b[1..]);
      }
    }
  }

  /** Every sequence is a subsequence of itself. */
  lemma {:induction false} SubsequenceRefl<T>(a: seq<T>)
    ensures Subsequence(a, a)
    decreases |a|
  {
    if |a| > 0 {
      SubsequenceRefl(a[1..]);
    }
  }

  /** The text built by appending the pieces in order with `+=`. */
  function Concat(pieces: seq<string>): string {
    if |pieces| == 0 then "" else Concat(pieces[..|pieces| - 1]) + pieces[|pieces| - 1]
  }

  lemma {:induction false} ConcatAppend(a: seq<string>, b: seq<string>)
    ensures Concat(a + b) == Concat(a) + Concat(b)
    decreases |b|
  {
    if |b| == 0 {
      assert a + b == a;
    } else {
      assert (a + b)[..|a + b| - 1] == a + b[..|b| - 1];
      ConcatAppend(a, b[..|b| - 1]);
    }
  }

  /** A text containing `pat` still contains it after more text is appended. */
  lemma IncludesExtend(a: string, b: string, pat: string)
    requires Includes(a, pat)
    ensures Includes(a + b, pat)
  {
    var i: nat :| i <= |a| && MatchesAt(a, pat, i);
    assert (a + b)[i..i + |pat|] == a[i..i + |pat|];
    assert MatchesAt(a + b, pat, i);
  }

  /** `parts.join(sep)`. */
  function Join(parts: seq<string>, sep: char): string
  {
    if |parts| == 0 then ""
    else if |parts| == 1 then parts[0]
    else parts[0] + [sep] + Join(parts[1..], sep)
  }

  /** Splitting and joining again on the same character gives back the string. */
  lemma {:induction false} JoinSplit(s: string, sep: char)
    ensures Join(Split(s, sep), sep) == s
    decreases |s|
  {
    if |s| > 0 {
      JoinSplit(s[1..], sep);
      if s[0] == sep {
        JoinSplitSep(s, sep);
      } else {
        JoinSplitChar(s, sep);
      }
    }
  }

  /** `JoinSplit` for a string that starts with the separator, given it for the rest. */
  lemma JoinSplitSep(s: string, sep: char)
    requires |s| > 0 && s[0] == sep && Join(Split(s[1..], sep), sep) == s[1..]
    ensures Join(Split(s, sep), sep) == s
  {
    var rest := Split(s[1..], sep);
    assert Split(s, sep) == [""] + rest;
    assert ([""] + rest)[1..] == rest;
    assert s == [sep] + s[1..];
  }

  /** `JoinSplit` for a string that starts with another character, given it for the rest. */
  lemma JoinSplitChar(s: string, sep: char)
    requires |s| > 0 && s[0] != sep && Join(Split(s[1..], sep), sep) == s[1..]
    ensures Join(Split(s, sep), sep) == s
  {
    var rest := Split(s[1..], sep);
    assert s == [s[0]] + s[1..];
    SplitCons(s[0], s[1..], sep);
    assert rest == [rest[0]] + rest[1..];
    JoinCons(s[0], rest[0], rest[1..], sep);
  }

  /** Joining pieces whose first one starts with `x` is `x` before the plain join. */
  lemma JoinCons(x: char, h: string, t: seq<string>, sep: char)
    ensures Join([[x] + h] + t, sep) == [x] + Join([h] + t, sep)
  {
    if |t| > 0 {
      assert ([[x] + h] + t)[1..] == t;
      assert ([h] + t)[1..] == t;
      var j := Join(t, sep);
      assert ([x] + h) + [sep] + j == [x] + (h + [sep] + j);
    }
  }

  /** Splitting at a separator whose first occurrence is at `i` yields the text before
      it, followed by the pieces of the text after it. */
  lemma {:induction false} SplitAtFirst(s: string, sep: char, i: nat)
    requires i < |s| && s[i] == sep && sep !in s[..i]
    ensures Split(s, sep) == [s[..i]] + Split(s[i + 1..], sep)
    decreases i
  {
    if i > 0 {
      assert s[1..][..i - 1] == s[1..i];
      assert s[1..][i - 1] == sep;
      SplitAtFirst(s[1..], sep, i - 1);
      assert s[1..][i..] == s[i + 1..];
      assert s[0] != sep by { assert s[0] == s[..i][0]; }
      assert s[..i] == [s[0]] + s[1..i];
    } else {
      assert s[1..] == s[i + 1..];
    }
  }

  /** The first piece of a split is the text before the first separator, or all of `s`. */
  lemma SplitHead(s: string, sep: char)
    ensures sep in s ==> Split(s, sep)[0] == s[..FirstIndexOf(s, sep)]
    ensures sep !in s ==> Split(s, sep) == [s]
  {
    if sep in s {
      SplitAtFirst(s, sep, FirstIndexOf(s, sep));
    } else {
      JoinSplit(s, sep);
    }
  }

  /** Dropping the first piece of a split and joining the rest gives back the text after
      the first separator. */
  lemma JoinSplitTail(s: string, sep: char, i: nat)
    requires i < |s| && s[i] == sep && sep !in s[..i]
    ensures Join(Split(s, sep)[1..], sep) == s[i + 1..]
  {
    SplitAtFirst(s, sep, i);
    assert Split(s, sep)[1..] == Split(s[i + 1..], sep);
    JoinSplit(s[i + 1..], sep);
  }

  /** The characters `String.prototype.trim` removes: the WhiteSpace and LineTerminator
      code points of ECMA-262 (sections 12.2 and 12.3). */
  predicate IsJsWhitespace(c: char) {
    || c == '\t' || c == '\n' || c == '\U{B}' || c == '\U{C}' || c == '\r' || c == ' '
    || c == '\U{A0}' || c == '\U{1680}' || ('\U{2000}' <= c <= '\U{200A}')
    || c == '\U{2028}' || c == '\U{2029}' || c == '\U{202F}' || c == '\U{205F}'
    || c == '\U{3000}' || c == '\U{FEFF}'
  }

  /** Every character of `s` is whitespace (vacuously so for ""). */
  predicate IsBlank(s: string) {
    forall i :: 0 <= i < |s| ==> IsJsWhitespace(s[i])
  }

  /** `s.trimStart()`: the suffix left after dropping the leading whitespace. */
  function TrimStart(s: string): (r: string)
    ensures |r| <= |s| && r == s[|s| - |r|..]
    ensures IsBlank(s[..|s| - |r|])
    ensures r == [] || !IsJsWhitespace(r[0])
  {
    if |s| > 0 && IsJsWhitespace(s[0]) then
      var r := TrimStart(s[1..]);
      assert s[..|s| - |r|] == [s[0]] + s[1..][..|s| - 1 - |r|];
      r
    else s
  }

  /** `s.trimEnd()`: the prefix left after dropping the trailing whitespace. */
  function TrimEnd(s: string): (r: string)
    ensures |r| <= |s| && r == s[..|r|]
    ensures IsBlank(s[|r|..])
    ensures r == [] || !IsJsWhitespace(r[|r| - 1])
  {
    if |s| > 0 && IsJsWhitespace(s[|s| - 1]) then
      var r := TrimEnd(s[..|s| - 1]);
      assert s[|r|..] == s[..|s| - 1][|r|..] + [s[|s| - 1]];
      r
    else s
  }

  /** `s.trim()`: the slice of `s` left once its leading and trailing whitespace are
      dropped (`a` characters in front), so it is empty exactly when `s` is blank. */
  function Trim(s: string): (r: string)
    ensures BlankAroundSlice(s, |s| - |TrimStart(s)|, r)
    ensures r == [] <==> IsBlank(s)
    ensures r == [] || (!IsJsWhitespace(r[0]) && !IsJsWhitespace(r[|r| - 1]))
  {
    var t := TrimStart(s);
    var r := TrimEnd(t);
    TrimmedBothEnds(s, t, r);
    r
  }

  /** What the two trims promise separately, put together for `s.trim()`. */
  lemma TrimmedBothEnds(s: string, t: string, r: string)
    requires |t| <= |s| && t == s[|s| - |t|..] && IsBlank(s[..|s| - |t|])
    requires t == [] || !IsJsWhitespace(t[0])
    requires |r| <= |t| && r == t[..|r|] && IsBlank(t[|r|..])
    requires r == [] || !IsJsWhitespace(r[|r| - 1])
    ensures BlankAroundSlice(s, |s| - |t|, r)
    ensures r == [] <==> IsBlank(s)
    ensures r == [] || (!IsJsWhitespace(r[0]) && !IsJsWhitespace(r[|r| - 1]))
  {
    if r != [] {
      assert r[0] == t[0];
    }
    TrimmedSlice(s, t, r);
    BlankAround(s, |s| - |t|, r);
  }

  /** `r` is the slice of `s` that starts at `a`, and only whitespace surrounds it. */
  predicate BlankAroundSlice(s: string, a: nat, r: string) {
    && a + |r| <= |s| && r == s[a..a + |r|]
    && IsBlank(s[..a]) && IsBlank(s[a + |r|..])
  }

  /** A slice with blanks on both sides is empty exactly when the whole text is blank,
      given that a non-empty slice does not start with whitespace. */
  lemma BlankAround(s: string, a: nat, r: string)
    requires BlankAroundSlice(s, a, r)
    requires r == [] || !IsJsWhitespace(r[0])
    ensures r == [] <==> IsBlank(s)
  {
    if r == [] {
      forall i | 0 <= i < |s|
        ensures IsJsWhitespace(s[i])
      {
        if i < a {
          assert s[i] == s[..a][i];
        } else {
          assert s[i] == s[a..][i - a];
        }
      }
    } else {
      assert r[0] == s[a];
    }
  }

  /** A prefix `r` of a suffix `t` of `s`, with blanks before `t` and after `r`, is a
      slice of `s` with blanks on both sides. */
  lemma TrimmedSlice(s: string, t: string, r: string)
    requires |t| <= |s| && t == s[|s| - |t|..] && IsBlank(s[..|s| - |t|])
    requires |r| <= |t| && r == t[..|r|] && IsBlank(t[|r|..])
    ensures BlankAroundSlice(s, |s| - |t|, r)
  {
    var a := |s| - |t|;
    assert t[..|r|] == s[a..a + |r|];
    assert s[a + |r|..] == t[|r|..];
  }

  /** `c.toLowerCase()` as far as it can yield ASCII: the ASCII capitals, U+0130 LATIN
      CAPITAL LETTER I WITH DOT ABOVE (to "i" and U+0307 COMBINING DOT ABOVE) and U+212A
      KELVIN SIGN (to "k"); every other character is kept. */
  function LowerChar(c: char): string {
    if 'A' <= c <= 'Z' then [(c as int + 32) as char]
    else if c == '\U{130}' then ['i', '\U{307}']
    else if c == '\U{212A}' then ['k']
    else [c]
  }

  predicate IsAsciiUpper(c: char) {
    'A' <= c <= 'Z'
  }

  /** `s.toLowerCase()`: the characters are mapped one by one and the results joined. */
  function ToLowerCase(s: string): (r: string)
    ensures |s| <= |r| <= 2 * |s|
    ensures forall i :: 0 <= i < |r| ==> !IsAsciiUpper(r[i])
    decreases |s|
  {
    if |s| == 0 then "" else LowerChar(s[0]) + ToLowerCase(s[1..])
  }

  /** Lower-casing distributes over concatenation, and a single character becomes its
      own lower-case form. */
  lemma {:induction false} ToLowerCaseAppend(a: string, b: string)
    ensures ToLowerCase(a + b) == ToLowerCase(a) + ToLowerCase(b)
    ensures |a| == 1 ==> ToLowerCase(a) == LowerChar(a[0])
    decreases |a|
  {
    if |a| > 0 {
      assert ToLowerCase(a[1..]) == "" || |a| > 1;
      assert (a + b)[0] == a[0] && (a + b)[1..] == a[1..] + b;
      ToLowerCaseAppend(a[1..], b);
    } else {
      assert a + b == b;
    }
  }

  /** A character the mapping keeps is one it does not act on. */
  lemma LowerCharFixed(c: char)
    ensures LowerChar(c) == [c] <==> !IsAsciiUpper(c) && c != '\U{130}' && c != '\U{212A}'
  {
  }

  /** Lower-casing twice is lower-casing once. */
  lemma {:induction false} ToLowerCaseIdempotent(s: string)
    ensures ToLowerCase(ToLowerCase(s)) == ToLowerCase(s)
    decreases |s|
  {
    if |s| > 0 {
      var l := LowerChar(s[0]);
      ToLowerCaseIdempotent(s[1..]);
      ToLowerCaseAppend(l, ToLowerCase(s[1..]));
      LowerCharIdempotent(s[0]);
    }
  }

  lemma LowerCharIdempotent(c: char)
    ensures ToLowerCase(LowerChar(c)) == LowerChar(c)
  {
    var l := LowerChar(c);
    if |l| == 2 {
      assert ToLowerCase(l) == LowerChar(l[0]) + ToLowerCase(l[1..]);
      assert ToLowerCase(l[1..]) == LowerChar(l[1]) + ToLowerCase(l[2..]);
    } else {
      assert ToLowerCase(l) == LowerChar(l[0]) + ToLowerCase(l[1..]);
    }
  }

  /** `s.substring(a, b)` for non-negative arguments: both are clamped to `|s|` and the
      smaller one is taken as the start. */
  function Substring(s: string, a: nat, b: nat): (r: string)
    ensures a <= b <= |s| ==> r == s[a..b]
    ensures b <= a <= |s| ==> r == s[b..a]
  {
    var lo := Min(Min(a, b), |s|);
    var hi := Min(Max(a, b), |s|);
    s[lo..hi]
  }
}

=== FILE: optional.dfy ===
/** The optional value used throughout the model for JavaScript's `undefined`/`null`
    results (a missed `find`, a missing map key, an `indexOf` that returns -1). */
module Optional {

  datatype Option<+T> = None | Some(value: T) {

    /** The value, or `default` when there is none (JavaScript's `x ?? default`). */
    function GetOr(default: T): T {
      match this
      case Some(v) => v
      case None => default
    }
  }
}

=== FILE: patch.dfy ===
/** The follow-up patch engine of `PUT` in app/api/ask-ai/route.ts (lines 507-564): the
    model's answer is scanned for blocks `SEARCH_START search DIVIDER replace REPLACE_END`,
    and each block is applied in order to the current HTML, recording the 1-based line
    range it touched. The three markers come from lib/prompts.ts, which is not part of
    this model; they are a parameter and only assumed non-empty. */
module Patch {
  import opened Optional
  import opened JsString

  /** `SEARCH_START`, `DIVIDER`, `REPLACE_END`. */
  datatype Markers = Markers(searchStart: string, divider: string, replaceEnd: string) {
    predicate Valid() {
      |searchStart| > 0 && |divider| > 0 && |replaceEnd| > 0
    }
  }

  /** One search/replace block of the answer. */
  datatype Block = Block(search: string, replace: string)

  /** One entry `[start, end]` of `updatedLines`. */
  datatype LineRange = LineRange(start: int, end: int)

  /** How `newHtml.replace(searchBlock, replaceBlock)` inserts the replacement:
      `Expanded` is line 553 as written, where the replacement is a template whose `$`
      patterns are expanded; `Literal` inserts it as it is, as the recorded line range
      assumes. */
  datatype Substitution = Literal | Expanded

  // ---------------------------------------------------------------------------
  // Scanning the answer

  /** The block whose `SEARCH_START` is the first one at or after `pos`, with the cursor
      after its `REPLACE_END`; None when any of the three markers is missing. As in the
      source, `DIVIDER` is searched from the start of `SEARCH_START` and `REPLACE_END`
      from the start of `DIVIDER`. */
  function NextBlock(out: string, m: Markers, pos: nat): (r: Option<(Block, nat)>)
    requires m.Valid()
  {
    match IndexOf(out, m.searchStart, pos)
    case None => None
    case Some(s) =>
      match IndexOf(out, m.divider, s)
      case None => None
      case Some(d) =>
        match IndexOf(out, m.replaceEnd, d)
        case None => None
        case Some(e) => Some(BlockAt(out, m, s, d, e))
  }

  /** The block between a `SEARCH_START` at `s`, a `DIVIDER` at `d` and a `REPLACE_END`
      at `e`, and the cursor after it. */
  function BlockAt(out: string, m: Markers, s: nat, d: nat, e: nat): (Block, nat) {
    (Block(Substring(out, s + |m.searchStart|, d), Substring(out, d + |m.divider|, e)), e + |m.replaceEnd|)
  }

  /** The cursor moves forward and stays inside the answer. */
  lemma NextBlockAdvances(out: string, m: Markers, pos: nat)
    requires m.Valid()
    ensures NextBlock(out, m, pos).Some? ==> pos < NextBlock(out, m, pos).value.1 <= |out|
  {
    match IndexOf(out, m.searchStart, pos)
    case None =>
    case Some(s) =>
      IndexOfFirst(out, m.searchStart, pos);
      match IndexOf(out, m.divider, s)
      case None =>
      case Some(d) =>
        IndexOfFirst(out, m.divider, s);
        match IndexOf(out, m.replaceEnd, d)
        case None =>
        case Some(e) =>
          IndexOfFirst(out, m.replaceEnd, d);
  }

  /** The blocks found scanning from `pos` on; scanning stops at the first missing marker. */
  function ParseFrom(out: string, m: Markers, pos: nat): seq<Block>
    requires m.Valid()
    decreases |out| - pos
  {
    NextBlockAdvances(out, m, pos);
    match NextBlock(out, m, pos)
    case None => []
    case Some((b, next)) => [b] + ParseFrom(out, m, next)
  }

  function ParseBlocks(out: string, m: Markers): seq<Block>
    requires m.Valid()
  {
    ParseFrom(out, m, 0)
  }

  // ---------------------------------------------------------------------------
  // Applying one block

  /** `text.split("\n").length`, the number of lines of `text`. */
  function LineCount(text: string): nat {
    Count(text, '\n') + 1
  }

  /** `LineCount` is the length of the JavaScript split. */
  lemma LineCountIsSplitLength(text: string)
    ensures LineCount(text) == |Split(text, '\n')|
  {
  }

  /** The 1-based line of `doc` on which position `pos` lies. */
  function LineOf(doc: string, pos: nat): nat
    requires pos <= |doc|
  {
    LineCount(doc[..pos])
  }

  /** `doc.replace(search, replace)` with the replacement taken literally: the first
      occurrence of `search` is swapped for `replace`. */
  function ReplaceFirst(doc: string, search: string, replace: string): string
    requires |search| > 0
  {
    match IndexOf(doc, search, 0)
    case None => doc
    case Some(p) =>
      IndexOfFirst(doc, search, 0);
      doc[..p] + replace + doc[p + |search|..]
  }

  /** A block applied to the current document, with the range it records: a blank search
      text prepends the replacement on its own lines; otherwise the first occurrence of the
      search text is replaced; a search text that does not occur changes nothing. The test
      `searchBlock.trim() === ""` is `IsBlank`, which `Trim`'s contract makes equivalent. */
  function ApplyBlock(doc: string, b: Block): (r: (string, Option<LineRange>))
    ensures r.1.Some? ==> 1 <= r.1.value.start <= r.1.value.end
  {
    if IsBlank(b.search) then
      (b.replace + "\n" + doc, Some(LineRange(1, LineCount(b.replace))))
    else
      match IndexOf(doc, b.search, 0)
      case None => (doc, None)
      case Some(p) =>
        var startLine := LineCount(Substring(doc, 0, p));
        var endLine := startLine + LineCount(b.replace) - 1;
        (ReplaceFirst(doc, b.search, b.replace), Some(LineRange(startLine, endLine)))
  }

  /** A whitespace-only search text prepends the replacement and a newline, and records
      lines 1 to the number of lines of the replacement; this path does not go through
      `replace`, so the code as written does the same. */
  lemma BlankSearchPrepends(doc: string, b: Block)
    requires IsBlank(b.search)
    ensures ApplyBlock(doc, b) == (b.replace + "\n" + doc, Some(LineRange(1, Count(b.replace, '\n') + 1)))
    ensures ApplyBlockAsWritten(doc, b) == ApplyBlock(doc, b)
  {
  }

  /** A search text found first at `i` is replaced there, and the range runs from the line
      of `i` over as many lines as the replacement has. As written, what goes in at `i` is
      the replacement with its `$` patterns expanded against that match, under the same
      range. */
  lemma FoundReplacesFirst(doc: string, b: Block, i: nat)
    requires !IsBlank(b.search) && MatchesAt(doc, b.search, i)
    requires forall j :: 0 <= j < i ==> !MatchesAt(doc, b.search, j)
    ensures ApplyBlock(doc, b) == (doc[..i] + b.replace + doc[i + |b.search|..],
                                   Some(LineRange(LineOf(doc, i), LineOf(doc, i) + Count(b.replace, '\n'))))
    ensures ApplyBlockAsWritten(doc, b)
            == (doc[..i] + Expand(b.replace, doc[..i], b.search, doc[i + |b.search|..]) + doc[i + |b.search|..],
                Some(LineRange(LineOf(doc, i), LineOf(doc, i) + Count(b.replace, '\n'))))
  {
    IndexOfAt(doc, b.search, 0, i);
    assert ReplaceFirst(doc, b.search, b.replace) == doc[..i] + b.replace + doc[i + |b.search|..];
    assert Substring(doc, 0, i) == doc[..i];
  }

  /** A search text that does not occur leaves the document as it is and records
      nothing, whichever way the replacement would have been inserted. */
  lemma MissingSearchChangesNothing(doc: string, b: Block)
    requires !IsBlank(b.search) && forall j :: !MatchesAt(doc, b.search, j)
    ensures ApplyBlock(doc, b) == (doc, None)
    ensures ApplyBlockAsWritten(doc, b) == (doc, None)
  {
    IndexOfFirst(doc, b.search, 0);
  }

  /** The recorded range is exactly where the replacement text now sits: it starts on line
      `start` and ends on line `end` of the new document. */
  lemma RangeCoversReplacement(doc: string, b: Block)
    requires ApplyBlock(doc, b).1.Some?
    ensures var (d, range) := ApplyBlock(doc, b);
            exists q: nat :: q + |b.replace| <= |d| && d[q..q + |b.replace|] == b.replace
                             && LineOf(d, q) == range.value.start
                             && LineOf(d, q + |b.replace|) == range.value.end
  {
    if IsBlank(b.search) {
      BlankSearchPrepends(doc, b);
      PrependedSpan(doc, b.replace);
    } else {
      var i := IndexOf(doc, b.search, 0).value;
      IndexOfFirst(doc, b.search, 0);
      FoundReplacesFirst(doc, b, i);
      ReplacedSpan(doc[..i], b.replace, doc[i + |b.search|..]);
    }
  }

  lemma PrependedSpan(doc: string, replace: string)
    ensures var d := replace + "\n" + doc;
            && |replace| <= |d| && d[0..|replace|] == replace
            && LineOf(d, 0) == 1 && LineOf(d, |replace|) == Count(replace, '\n') + 1
  {
    var d := replace + "\n" + doc;
    assert d[..0] == "";
    assert d[0..|replace|] == replace && d[..|replace|] == replace;
  }

  lemma ReplacedSpan(before: string, replace: string, after: string)
    ensures var d := before + replace + after;
            && |before| + |replace| <= |d| && d[|before|..|before| + |replace|] == replace
            && LineOf(d, |before|) == LineCount(before)
            && LineOf(d, |before| + |replace|) == LineCount(before) + Count(replace, '\n')
  {
    var d := before + replace + after;
    assert d[..|before|] == before;
    assert d[..|before| + |replace|] == before + replace;
    CountAppend(before, replace, '\n');
  }

  // ---------------------------------------------------------------------------
  // The replacement as JavaScript performs it

  /** The replacement text `String.prototype.replace` actually inserts for a string
      pattern: GetSubstitution of ECMA-262 (section 22.1.3.19.1) with no capture groups.
      `$$` inserts "$", `$&` the matched text, `` $` `` the text before the match, `$'` the
      text after it; every other character, including any other `$`, is copied. */
  function Expand(template: string, before: string, matched: string, after: string): string
    decreases |template|
  {
    if |template| == 0 then ""
    else if template[0] == '$' && |template| >= 2 && template[1] in "$&`'" then
      var piece := match template[1]
        case '$' => "$"
        case '&' => matched
        case '`' => before
        case _ => after;
      piece + Expand(template[2..], before, matched, after)
    else [template[0]] + Expand(template[1..], before, matched, after)
  }

  /** Without `$` the template is inserted literally. */
  lemma {:induction false} ExpandLiteral(template: string, before: string, matched: string, after: string)
    requires '$' !in template
    ensures Expand(template, before, matched, after) == template
    decreases |template|
  {
    if |template| > 0 {
      assert '$' !in template[1..];
      ExpandLiteral(template[1..], before, matched, after);
    }
  }

  /** `doc.replace(search, replace)` as written: the template is expanded. */
  function ReplaceFirstAsWritten(doc: string, search: string, replace: string): string
    requires |search| > 0
  {
    match IndexOf(doc, search, 0)
    case None => doc
    case Some(p) =>
      IndexOfFirst(doc, search, 0);
      doc[..p] + Expand(replace, doc[..p], search, doc[p + |search|..]) + doc[p + |search|..]
  }

  /** `ApplyBlock` with the replacement of line 553 as the source performs it. The range
      is computed from the unexpanded replacement, so it is the one `ApplyBlock` records,
      and a block that records nothing changes nothing. */
  function ApplyBlockAsWritten(doc: string, b: Block): (r: (string, Option<LineRange>))
    ensures r.1 == ApplyBlock(doc, b).1
    ensures r.1.None? ==> r.0 == doc
  {
    if IsBlank(b.search) then
      (b.replace + "\n" + doc, Some(LineRange(1, LineCount(b.replace))))
    else
      match IndexOf(doc, b.search, 0)
      case None => (doc, None)
      case Some(p) =>
        var startLine := LineCount(Substring(doc, 0, p));
        var endLine := startLine + LineCount(b.replace) - 1;
        (ReplaceFirstAsWritten(doc, b.search, b.replace), Some(LineRange(startLine, endLine)))
  }

  /** Replacement texts without `$` are unaffected by the expansion. */
  lemma AsWrittenAgreesWithoutDollar(doc: string, b: Block)
    requires '$' !in b.replace
    ensures ApplyBlockAsWritten(doc, b) == ApplyBlock(doc, b)
  {
    if !IsBlank(b.search) {
      match IndexOf(doc, b.search, 0)
      case None =>
      case Some(p) =>
        IndexOfFirst(doc, b.search, 0);
        ExpandLiteral(b.replace, doc[..p], b.search, doc[p + |b.search|..]);
        assert ReplaceFirstAsWritten(doc, b.search, b.replace) == ReplaceFirst(doc, b.search, b.replace);
    }
  }

  /** A replacement text containing `` $` `` makes the source insert the text before the
      match, so the document gains a line the recorded range does not cover: in "a\nb",
      replacing "b" by "$`x" yields three lines while only line 2 is recorded. */
  lemma AsWrittenRangeMisses()
    ensures ApplyBlockAsWritten("a\nb", Block("b", "$`x")) == ("a\na\nx", Some(LineRange(2, 2)))
    ensures LineCount("a\na\nx") == 3
    ensures ApplyBlock("a\nb", Block("b", "$`x")) == ("a\n$`x", Some(LineRange(2, 2)))
  {
    LineOfB();
    assert Count("a\na\nx", '\n') == 2;
    assert "a\n" + "a\nx" + "" == "a\na\nx";
    assert Expand("$`x", "a\n", "b", "") == "a\nx" by {
      assert "$`x"[2..] == "x";
      assert Expand("x", "a\n", "b", "") == "x";
    }
  }

  /** In "a\nb", the search text "b" is found first at index 2, on line 2, and the
      replacement "$`x" has a single line. */
  lemma LineOfB()
    ensures IndexOf("a\nb", "b", 0) == Some(2) && !IsBlank("b")
    ensures LineCount(Substring("a\nb", 0, 2)) == 2 && LineCount("$`x") == 1
    ensures ReplaceFirst("a\nb", "b", "$`x") == "a\n$`x"
    ensures ReplaceFirstAsWritten("a\nb", "b", "$`x") == "a\n" + Expand("$`x", "a\n", "b", "") + ""
  {
    var doc := "a\nb";
    assert MatchesAt(doc, "b", 2);
    assert !MatchesAt(doc, "b", 0) by { assert doc[0..1][0] == 'a'; }
    assert !MatchesAt(doc, "b", 1) by { assert doc[1..2][0] == '\n'; }
    IndexOfAt(doc, "b", 0, 2);
    assert !IsBlank("b") by { assert !IsJsWhitespace("b"[0]); }
    assert doc[..2] == "a\n" && doc[3..] == "";
    assert Count("a\n", '\n') == 1;
    assert Count("$`x", '\n') == 0;
    assert "a\n" + "$`x" + "" == "a\n$`x";
  }

  // ---------------------------------------------------------------------------
  // Applying all blocks

  /** One block applied with the given way of inserting the replacement: either way it
      records the range `ApplyBlock` records. */
  function ApplyBlockWith(sub: Substitution, doc: string, b: Block): (r: (string, Option<LineRange>))
    ensures r.1 == ApplyBlock(doc, b).1
    ensures r.1.Some? ==> 1 <= r.1.value.start <= r.1.value.end
  {
    match sub
    case Literal => ApplyBlock(doc, b)
    case Expanded => ApplyBlockAsWritten(doc, b)
  }

  /** The blocks applied in order, each to the previous result, with the ranges recorded
      so far in `ranges`. */
  function ApplyFrom(sub: Substitution, doc: string, ranges: seq<LineRange>, blocks: seq<Block>): (string, seq<LineRange>)
    decreases |blocks|
  {
    if |blocks| == 0 then (doc, ranges)
    else
      var (d, range) := ApplyBlockWith(sub, doc, blocks[0]);
      ApplyFrom(sub, d, ranges + (if range.Some? then [range.value] else []), blocks[1..])
  }

  /** The new document and `updatedLines` for a list of blocks. */
  function ApplyAll(sub: Substitution, html: string, blocks: seq<Block>): (string, seq<LineRange>) {
    ApplyFrom(sub, html, [], blocks)
  }

  /** One step of `ApplyFrom`. */
  lemma ApplyStep(sub: Substitution, doc: string, ranges: seq<LineRange>, b: Block, rest: seq<Block>)
    ensures var (d, range) := ApplyBlockWith(sub, doc, b);
            ApplyFrom(sub, doc, ranges, [b] + rest)
            == ApplyFrom(sub, d, ranges + (if range.Some? then [range.value] else []), rest)
  {
    assert ([b] + rest)[0] == b && ([b] + rest)[1..] == rest;
  }

  /** One step of `ParseFrom`. */
  lemma ParseStep(out: string, m: Markers, pos: nat)
    requires m.Valid()
    ensures NextBlock(out, m, pos).None? ==> ParseFrom(out, m, pos) == []
    ensures NextBlock(out, m, pos).Some? ==>
              var (b, next) := NextBlock(out, m, pos).value;
              ParseFrom(out, m, pos) == [b] + ParseFrom(out, m, next)
  {
  }

  /** The loop of lines 507-558: from the cursor, find the next block (`NextBlock` holds
      the three marker searches), apply it, move the cursor past its `REPLACE_END`; stop at
      the first missing marker. With `Expanded` it is the loop as written. */
  method ApplyPatches(sub: Substitution, html: string, out: string, m: Markers) returns (newHtml: string, updatedLines: seq<LineRange>)
    requires m.Valid()
    ensures (newHtml, updatedLines) == ApplyAll(sub, html, ParseBlocks(out, m))
  {
    updatedLines := [];
    newHtml := html;
    var position: nat := 0;
    var moreBlocks := true;
    ghost var result := ApplyAll(sub, html, ParseBlocks(out, m));
    while moreBlocks
      invariant position <= |out|
      invariant moreBlocks ==> result == ApplyFrom(sub, newHtml, updatedLines, ParseFrom(out, m, position))
      invariant !moreBlocks ==> (newHtml, updatedLines) == result
      decreases moreBlocks, |out| - position
    {
      ParseStep(out, m, position);
      NextBlockAdvances(out, m, position);
      match NextBlock(out, m, position)
      case None =>
        moreBlocks := false;
      case Some((block, next)) =>
        ghost var rest := ParseFrom(out, m, next);
        ApplyStep(sub, newHtml, updatedLines, block, rest);
        var (d, range) := ApplyBlockWith(sub, newHtml, block);
        ghost var recorded := updatedLines + (if range.Some? then [range.value] else []);
        assert result == ApplyFrom(sub, d, recorded, rest);
        newHtml := d;
        if range.Some? {
          updatedLines := updatedLines + [range.value];
        }
        assert updatedLines == recorded;
        position := next;
    }
  }

  /** Each block records at most one range, every range is well formed, and the ranges
      already recorded are kept. */
  lemma {:induction false} ApplyFromRanges(sub: Substitution, doc: string, ranges: seq<LineRange>, blocks: seq<Block>)
    ensures var rs := ApplyFrom(sub, doc, ranges, blocks).1;
            && |ranges| <= |rs| <= |ranges| + |blocks|
            && rs[..|ranges|] == ranges
            && (forall k :: |ranges| <= k < |rs| ==> 1 <= rs[k].start <= rs[k].end)
    decreases |blocks|
  {
    if |blocks| > 0 {
      var (d, range) := ApplyBlockWith(sub, doc, blocks[0]);
      var ranges' := ranges + (if range.Some? then [range.value] else []);
      ApplyFromRanges(sub, d, ranges', blocks[1..]);
      var rs := ApplyFrom(sub, d, ranges', blocks[1..]).1;
      assert ApplyFrom(sub, doc, ranges, blocks).1 == rs;
      assert rs[..|ranges|] == ranges'[..|ranges|];
    }
  }

  /** `updatedLines` has at most one entry per block, each with `1 <= start <= end`. */
  lemma UpdatedLinesBounded(sub: Substitution, html: string, blocks: seq<Block>)
    ensures var rs := ApplyAll(sub, html, blocks).1;
            |rs| <= |blocks| && forall k :: 0 <= k < |rs| ==> 1 <= rs[k].start <= rs[k].end
  {
    ApplyFromRanges(sub, html, [], blocks);
  }

  /** Blocks whose search text never occurs leave the document as it was and record
      nothing. */
  lemma {:induction false} UnmatchedBlocksChangeNothing(sub: Substitution, doc: string, ranges: seq<LineRange>, blocks: seq<Block>)
    requires forall k :: 0 <= k < |blocks| ==> !IsBlank(blocks[k].search)
    requires forall k, j :: 0 <= k < |blocks| ==> !MatchesAt(doc, blocks[k].search, j)
    ensures ApplyFrom(sub, doc, ranges, blocks) == (doc, ranges)
    decreases |blocks|
  {
    if |blocks| > 0 {
      MissingSearchChangesNothing(doc, blocks[0]);
      assert ranges + [] == ranges;
      UnmatchedBlocksChangeNothing(sub, doc, ranges, blocks[1..]);
    }
  }

  /** Applying the blocks of two answers one after the other is applying the blocks of
      both: each block acts on the result of the blocks before it. */
  lemma {:induction false} ApplyFromAppend(sub: Substitution, doc: string, ranges: seq<LineRange>, b1: seq<Block>, b2: seq<Block>)
    ensures var (d, rs) := ApplyFrom(sub, doc, ranges, b1);
            ApplyFrom(sub, doc, ranges, b1 + b2) == ApplyFrom(sub, d, rs, b2)
    decreases |b1|
  {
    if |b1| == 0 {
      assert b1 + b2 == b2;
    } else {
      var (d, range) := ApplyBlockWith(sub, doc, b1[0]);
      assert (b1 + b2)[0] == b1[0] && (b1 + b2)[1..] == b1[1..] + b2;
      ApplyFromAppend(sub, d, ranges + (if range.Some? then [range.value] else []), b1[1..], b2);
    }
  }

  /** When no replacement text holds a `$`, the loop as written and the literal one give
      the same page and the same ranges. */
  lemma {:induction false} ExpandedAgreesWithoutDollar(doc: string, ranges: seq<LineRange>, blocks: seq<Block>)
    requires forall k :: 0 <= k < |blocks| ==> '$' !in blocks[k].replace
    ensures ApplyFrom(Expanded, doc, ranges, blocks) == ApplyFrom(Literal, doc, ranges, blocks)
    decreases |blocks|
  {
    if |blocks| > 0 {
      AsWrittenAgreesWithoutDollar(doc, blocks[0]);
      var (d, range) := ApplyBlock(doc, blocks[0]);
      ExpandedAgreesWithoutDollar(d, ranges + (if range.Some? then [range.value] else []), blocks[1..]);
    }
  }

  // ---------------------------------------------------------------------------
  // Answers built from blocks

  /** The answer text for one block. */
  function RenderBlock(b: Block, m: Markers): string {
    m.searchStart + b.search + m.divider + b.replace + m.replaceEnd
  }

  /** The answer text for a list of blocks, back to back. */
  function Render(blocks: seq<Block>, m: Markers): string
    decreases |blocks|
  {
    if |blocks| == 0 then "" else RenderBlock(blocks[0], m) + Render(blocks[1..], m)
  }

  /** `pat` occurs in `text` only as its suffix. */
  predicate OnlyAtEnd(text: string, pat: string) {
    && |pat| <= |text| && text[|text| - |pat|..] == pat
    && forall j: nat :: j < |text| - |pat| ==> !MatchesAt(text, pat, j)
  }

  /** A block the scanner reads back as written: `DIVIDER` first occurs after the search
      text, and `REPLACE_END` first occurs after the replacement text. */
  predicate Parsable(b: Block, m: Markers) {
    && OnlyAtEnd(m.searchStart + b.search + m.divider, m.divider)
    && OnlyAtEnd(m.divider + b.replace + m.replaceEnd, m.replaceEnd)
  }

  /** A slice of a window is the same slice of the text, shifted. */
  lemma SubWindow(out: string, at: nat, w: string, i: nat, j: nat)
    requires at + |w| <= |out| && out[at..at + |w|] == w && i <= j <= |w|
    ensures out[at + i..at + j] == w[i..j]
  {
    var x, y := out[at + i..at + j], w[i..j];
    forall k | 0 <= k < j - i
      ensures x[k] == y[k]
    {
      assert x[k] == out[at + i + k];
      assert y[k] == out[at..at + |w|][i + k];
    }
  }

  /** A match inside a window of a text is a match in the window itself. */
  lemma MatchesInWindow(out: string, at: nat, w: string, pat: string, j: nat)
    requires at + |w| <= |out| && out[at..at + |w|] == w && j + |pat| <= |w|
    ensures MatchesAt(out, pat, at + j) <==> MatchesAt(w, pat, j)
  {
    SubWindow(out, at, w, j, j + |pat|);
  }

  /** `indexOf` from `at` finds the end of a window in which `pat` occurs only at the end. */
  lemma IndexOfWindowEnd(out: string, at: nat, w: string, pat: string)
    requires |pat| > 0 && at + |w| <= |out| && out[at..at + |w|] == w && OnlyAtEnd(w, pat)
    ensures IndexOf(out, pat, at) == Some(at + |w| - |pat|)
  {
    var i := at + |w| - |pat|;
    MatchesInWindow(out, at, w, pat, |w| - |pat|);
    assert MatchesAt(w, pat, |w| - |pat|);
    forall j | at <= j < i
      ensures !MatchesAt(out, pat, j)
    {
      MatchesInWindow(out, at, w, pat, j - at);
    }
    IndexOfAt(out, pat, at, i);
  }

  /** `indexOf` from `from`, inside a window, finds the end `found` of a stretch of the
      window in which `pat` occurs only at the end. */
  lemma IndexOfInWindow(out: string, at: nat, w: string, i: nat, j: nat, pat: string, from: nat, found: nat)
    requires |pat| > 0 && at + |w| <= |out| && out[at..at + |w|] == w
    requires i <= j <= |w| && OnlyAtEnd(w[i..j], pat)
    requires from == at + i && found + |pat| == at + j
    ensures IndexOf(out, pat, from) == Some(found)
  {
    SubWindow(out, at, w, i, j);
    IndexOfWindowEnd(out, at + i, w[i..j], pat);
  }

  /** Where the pieces of a rendered block lie in an answer that holds it at `at`: the
      marker windows the scanner searches and the two texts between the markers. */
  lemma RenderedSlices(out: string, m: Markers, at: nat, b: Block)
    requires at + |RenderBlock(b, m)| <= |out| && out[at..at + |RenderBlock(b, m)|] == RenderBlock(b, m)
    ensures var ss, dv, re := m.searchStart, m.divider, m.replaceEnd;
            var d := at + |ss| + |b.search|;
            var e := d + |dv| + |b.replace|;
            && e + |re| == at + |RenderBlock(b, m)|
            && out[at..at + |ss|] == ss
            && out[at..at + |ss + b.search + dv|] == ss + b.search + dv
            && out[d..d + |dv + b.replace + re|] == dv + b.replace + re
            && out[at + |ss|..d] == b.search
            && out[d + |dv|..e] == b.replace
  {
    RenderedParts(m.searchStart, b.search, m.divider, b.replace, m.replaceEnd);
    RenderedWindows(out, m, at, b);
    RenderedTexts(out, m, at, b);
  }

  lemma RenderedWindows(out: string, m: Markers, at: nat, b: Block)
    requires at + |RenderBlock(b, m)| <= |out| && out[at..at + |RenderBlock(b, m)|] == RenderBlock(b, m)
    requires var r := RenderBlock(b, m);
             var k := |m.searchStart| + |b.search|;
             && r[0..|m.searchStart|] == m.searchStart
             && r[0..k + |m.divider|] == m.searchStart + b.search + m.divider
             && r[k..|r|] == m.divider + b.replace + m.replaceEnd
    ensures var ss, dv, re := m.searchStart, m.divider, m.replaceEnd;
            var d := at + |ss| + |b.search|;
            && out[at..at + |ss|] == ss
            && out[at..at + |ss + b.search + dv|] == ss + b.search + dv
            && out[d..d + |dv + b.replace + re|] == dv + b.replace + re
  {
    var r := RenderBlock(b, m);
    var k := |m.searchStart| + |b.search|;
    SubWindow(out, at, r, 0, |m.searchStart|);
    SubWindow(out, at, r, 0, k + |m.divider|);
    SubWindow(out, at, r, k, |r|);
  }

  lemma RenderedTexts(out: string, m: Markers, at: nat, b: Block)
    requires at + |RenderBlock(b, m)| <= |out| && out[at..at + |RenderBlock(b, m)|] == RenderBlock(b, m)
    requires var r := RenderBlock(b, m);
             var k := |m.searchStart| + |b.search|;
             var l := k + |m.divider|;
             && r[|m.searchStart|..k] == b.search
             && r[l..l + |b.replace|] == b.replace
    ensures var d := at + |m.searchStart| + |b.search|;
            var e := d + |m.divider| + |b.replace|;
            && out[at + |m.searchStart|..d] == b.search
            && out[d + |m.divider|..e] == b.replace
  {
    var r := RenderBlock(b, m);
    var k := |m.searchStart| + |b.search|;
    var l := k + |m.divider|;
    SubWindow(out, at, r, |m.searchStart|, k);
    SubWindow(out, at, r, l, l + |b.replace|);
  }

  /** The pieces of a rendered block, by position. */
  lemma RenderedParts(ss: string, search: string, dv: string, replace: string, re: string)
    ensures var r := ss + search + dv + replace + re;
            var k := |ss| + |search|;
            var l := k + |dv|;
            && r[0..|ss|] == ss
            && r[0..l] == ss + search + dv
            && r[k..|r|] == dv + replace + re
            && r[|ss|..k] == search
            && r[l..l + |replace|] == replace
  {
    var r := ss + search + dv + replace + re;
    var k := |ss| + |search|;
    var l := k + |dv|;
    assert r == (ss + search + dv) + replace + re;
    assert r == ss + search + (dv + replace + re);
    assert r[0..|ss|] == ss;
    assert r[0..l] == ss + search + dv;
    assert r[k..|r|] == dv + replace + re;
    assert r[|ss|..k] == search;
    assert r[l..l + |replace|] == replace;
  }

  /** The scanner's reading once the three markers are located. */
  lemma NextBlockFound(out: string, m: Markers, at: nat, d: nat, e: nat)
    requires m.Valid()
    requires IndexOf(out, m.searchStart, at) == Some(at)
    requires IndexOf(out, m.divider, at) == Some(d)
    requires IndexOf(out, m.replaceEnd, d) == Some(e)
    ensures NextBlock(out, m, at) == Some(BlockAt(out, m, at, d, e))
  {
  }

  /** The scanner reads a rendered, parsable block back from the cursor at its start. */
  lemma NextBlockRendered(out: string, m: Markers, at: nat, b: Block)
    requires m.Valid() && Parsable(b, m)
    requires at + |RenderBlock(b, m)| <= |out| && out[at..at + |RenderBlock(b, m)|] == RenderBlock(b, m)
    ensures NextBlock(out, m, at) == Some((b, at + |RenderBlock(b, m)|))
  {
    RenderedSlices(out, m, at, b);
    NextBlockLaidOut(out, m, at, b);
  }

  lemma NextBlockLaidOut(out: string, m: Markers, at: nat, b: Block)
    requires m.Valid() && Parsable(b, m)
    requires var ss, dv, re := m.searchStart, m.divider, m.replaceEnd;
             var d := at + |ss| + |b.search|;
             var e := d + |dv| + |b.replace|;
             && e + |re| <= |out|
             && out[at..at + |ss|] == ss
             && out[at..at + |ss + b.search + dv|] == ss + b.search + dv
             && out[d..d + |dv + b.replace + re|] == dv + b.replace + re
             && out[at + |ss|..d] == b.search
             && out[d + |dv|..e] == b.replace
    ensures NextBlock(out, m, at) == Some((b, at + |m.searchStart| + |b.search| + |m.divider| + |b.replace| + |m.replaceEnd|))
  {
    var d := at + |m.searchStart| + |b.search|;
    var e := d + |m.divider| + |b.replace|;
    LaidOutMarkers(out, m, at, b);
    NextBlockFound(out, m, at, d, e);
    BlockAtIs(out, m, at, d, e, b);
  }

  lemma BlockAtIs(out: string, m: Markers, s: nat, d: nat, e: nat, b: Block)
    requires Substring(out, s + |m.searchStart|, d) == b.search
    requires Substring(out, d + |m.divider|, e) == b.replace
    ensures BlockAt(out, m, s, d, e) == (b, e + |m.replaceEnd|)
  {
  }

  /** Where the scanner finds the markers of a block whose pieces lie in the answer from
      the cursor on, and what it reads between them. */
  lemma LaidOutMarkers(out: string, m: Markers, at: nat, b: Block)
    requires m.Valid() && Parsable(b, m)
    requires var ss, dv, re := m.searchStart, m.divider, m.replaceEnd;
             var d := at + |ss| + |b.search|;
             var e := d + |dv| + |b.replace|;
             && e + |re| <= |out|
             && out[at..at + |ss|] == ss
             && out[at..at + |ss + b.search + dv|] == ss + b.search + dv
             && out[d..d + |dv + b.replace + re|] == dv + b.replace + re
             && out[at + |ss|..d] == b.search
             && out[d + |dv|..e] == b.replace
    ensures var d := at + |m.searchStart| + |b.search|;
            var e := d + |m.divider| + |b.replace|;
            && IndexOf(out, m.searchStart, at) == Some(at)
            && IndexOf(out, m.divider, at) == Some(d)
            && IndexOf(out, m.replaceEnd, d) == Some(e)
            && Substring(out, at + |m.searchStart|, d) == b.search
            && Substring(out, d + |m.divider|, e) == b.replace
  {
    var ss, dv, re := m.searchStart, m.divider, m.replaceEnd;
    var d := at + |ss| + |b.search|;
    IndexOfAt(out, ss, at, at);
    IndexOfWindowEnd(out, at, ss + b.search + dv, dv);
    IndexOfWindowEnd(out, d, dv + b.replace + re, re);
  }

  /** A scan from the cursor stops when the rest of the answer has no `REPLACE_END`. */
  lemma NoEndNoBlock(out: string, m: Markers, at: nat)
    requires m.Valid() && at <= |out| && !Includes(out[at..], m.replaceEnd)
    ensures NextBlock(out, m, at).None?
  {
    var re := m.replaceEnd;
    forall j: nat | at <= j
      ensures !MatchesAt(out, re, j)
    {
      if j + |re| <= |out| {
        MatchesInWindow(out, at, out[at..], re, j - at);
      }
    }
    forall d: nat | at <= d
      ensures IndexOf(out, re, d).None?
    {
      IndexOfFirst(out, re, d);
    }
    IndexOfFirst(out, m.searchStart, at);
    if IndexOf(out, m.searchStart, at).Some? {
      IndexOfFirst(out, m.divider, IndexOf(out, m.searchStart, at).value);
    }
  }

  /** Rendered blocks followed by text without `REPLACE_END` (such as a dangling block)
      are read back exactly: the blocks in order, and nothing from the tail. */
  lemma {:induction false} ParseRendered(out: string, m: Markers, at: nat, blocks: seq<Block>, tail: string)
    requires m.Valid() && forall k :: 0 <= k < |blocks| ==> Parsable(blocks[k], m)
    requires at <= |out| && out[at..] == Render(blocks, m) + tail
    requires !Includes(tail, m.replaceEnd)
    ensures ParseFrom(out, m, at) == blocks
    decreases |blocks|
  {
    if |blocks| == 0 {
      assert out[at..] == tail;
      NoEndNoBlock(out, m, at);
      ParseStep(out, m, at);
    } else {
      var r := RenderBlock(blocks[0], m);
      var rest := Render(blocks[1..], m);
      assert out[at..] == r + (rest + tail) by {
        Assoc(r, rest, tail);
      }
      ParseRenderedStep(out, m, at, blocks[0], rest + tail);
      SplitSuffix(out, at, r, rest + tail);
      ParseRendered(out, m, at + |r|, blocks[1..], tail);
      assert blocks == [blocks[0]] + blocks[1..];
    }
  }

  /** Scanning from the start of a rendered, parsable block reads that block and goes on
      right after it. */
  lemma ParseRenderedStep(out: string, m: Markers, at: nat, b: Block, rest: string)
    requires m.Valid() && Parsable(b, m)
    requires at <= |out| && out[at..] == RenderBlock(b, m) + rest
    ensures ParseFrom(out, m, at) == [b] + ParseFrom(out, m, at + |RenderBlock(b, m)|)
  {
    NextBlockBeforeRest(out, m, at, b, rest);
    ParseNext(out, m, at, b, at + |RenderBlock(b, m)|);
  }

  lemma NextBlockBeforeRest(out: string, m: Markers, at: nat, b: Block, rest: string)
    requires m.Valid() && Parsable(b, m)
    requires at <= |out| && out[at..] == RenderBlock(b, m) + rest
    ensures NextBlock(out, m, at) == Some((b, at + |RenderBlock(b, m)|))
  {
    SplitSuffix(out, at, RenderBlock(b, m), rest);
    NextBlockRendered(out, m, at, b);
  }

  lemma ParseNext(out: string, m: Markers, at: nat, b: Block, next: nat)
    requires m.Valid() && NextBlock(out, m, at) == Some((b, next))
    ensures ParseFrom(out, m, at) == [b] + ParseFrom(out, m, next)
  {
    ParseStep(out, m, at);
  }

  lemma Assoc(a: string, b: string, c: string)
    ensures a + b + c == a + (b + c)
  {
  }

  /** A suffix of a text that starts with `r` splits into `r` and what follows it. */
  lemma SplitSuffix(out: string, at: nat, r: string, rest: string)
    requires at <= |out| && out[at..] == r + rest
    ensures at + |r| <= |out| && out[at..at + |r|] == r && out[at + |r|..] == rest
  {
    assert out[at..at + |r|] == out[at..][..|r|];
    assert out[at + |r|..] == out[at..][|r|..];
  }

  /** Round trip: an answer made of parsable blocks, possibly followed by an unfinished
      block, is scanned back into exactly those blocks. */
  lemma ParseRenderRoundTrip(blocks: seq<Block>, tail: string, m: Markers)
    requires m.Valid() && forall k :: 0 <= k < |blocks| ==> Parsable(blocks[k], m)
    requires !Includes(tail, m.replaceEnd)
    ensures ParseBlocks(Render(blocks, m) + tail, m) == blocks
  {
    var out := Render(blocks, m) + tail;
    assert out[0..] == out;
    ParseRendered(out, m, 0, blocks, tail);
  }

  /** An answer without a complete block leaves the document as it was, with no ranges. */
  lemma NoBlockNoChange(sub: Substitution, html: string, out: string, m: Markers)
    requires m.Valid() && !Includes(out, m.replaceEnd)
    ensures ParseBlocks(out, m) == [] && ApplyAll(sub, html, ParseBlocks(out, m)) == (html, [])
  {
    assert out[0..] == out;
    NoEndNoBlock(out, m, 0);
  }

  /** A block whose search text is the whole document and whose replacement is one line
      turns the document into that line and reports line 1 as changed. As written, the
      replacement is expanded first: "$&" stands for the whole document, which then comes
      back unchanged while line 1 is still reported. */
  lemma WholeDocumentEdit(sub: Substitution, doc: string, replace: string)
    requires !IsBlank(doc) && '\n' !in replace
    ensures ApplyAll(sub, doc, [Block(doc, replace)])
            == (if sub.Literal? then replace else Expand(replace, "", doc, ""), [LineRange(1, 1)])
    ensures ApplyAll(Expanded, doc, [Block(doc, "$&")]) == (doc, [LineRange(1, 1)])
  {
    WholeDocumentStep(sub, doc, replace);
    WholeDocumentStep(Expanded, doc, "$&");
    assert Expand("$&", "", doc, "") == doc by {
      assert "$&"[2..] == "";
      assert doc + "" == doc;
    }
  }

  /** The one step of `WholeDocumentEdit`. */
  lemma WholeDocumentStep(sub: Substitution, doc: string, replace: string)
    requires !IsBlank(doc) && '\n' !in replace
    ensures ApplyAll(sub, doc, [Block(doc, replace)])
            == (if sub.Literal? then replace else Expand(replace, "", doc, ""), [LineRange(1, 1)])
  {
    var b := Block(doc, replace);
    assert MatchesAt(doc, doc, 0);
    FoundReplacesFirst(doc, b, 0);
    assert doc[..0] == "" && doc[0 + |doc|..] == "";
    assert doc[..0] + replace + doc[0 + |doc|..] == replace;
    assert LineOf(doc, 0) == 1 && Count(replace, '\n') == 0;
    IndexOfAt(doc, doc, 0, 0);
    var expanded := Expand(replace, "", doc, "");
    assert ReplaceFirstAsWritten(doc, doc, replace) == "" + expanded + "";
    assert "" + expanded + "" == expanded;
    var none: seq<LineRange>, noBlocks: seq<Block> := [], [];
    ApplyStep(sub, doc, none, b, noBlocks);
    assert [b] + noBlocks == [b];
    assert none + [LineRange(1, 1)] == [LineRange(1, 1)];
  }
}

=== FILE: rate_limit.dfy ===
/** The anonymous per-address request counter of app/api/ask-ai/route.ts (lines 107-138
    in `POST`, 372-403 in `PUT`). The process-wide `ipAddresses` map is a value threaded
    through calls; the ceiling `MAX_REQUESTS_PER_IP` is a parameter. */
module RateLimit {
  import opened Optional
  import opened JsString

  /** Client key: the derived address, or None when the `x-forwarded-for` header is
      absent (the source then keys the map by `null`). */
  type ClientKey = Option<string>

  /** `ipAddresses`: requests seen per key; a key not in the map has made none. */
  type Counter = map<ClientKey, nat>

  datatype Verdict = Admitted | Denied

  /** The text after the first comma of `h`, up to the next comma if there is one. */
  function AfterFirstComma(h: string): string
    requires ',' in h
  {
    var rest := h[FirstIndexOf(h, ',') + 1..];
    if ',' in rest then rest[..FirstIndexOf(rest, ',')] else rest
  }

  /** The key the source derives from `x-forwarded-for`: the second comma-separated
      entry, trimmed, when the header has a comma; otherwise the raw header. The test
      `includes(",")` is membership of the comma (`IncludesChar`). */
  function ClientKeyOf(forwardedFor: Option<string>): (k: ClientKey)
    ensures forwardedFor.None? ==> k.None?
    ensures forwardedFor.Some? && ',' !in forwardedFor.value ==> k == forwardedFor
    ensures forwardedFor.Some? && ',' in forwardedFor.value ==>
              k == Some(Trim(AfterFirstComma(forwardedFor.value)))
  {
    match forwardedFor
    case None => None
    case Some(h) =>
      if ',' in h then
        SecondField(h);
        Some(Trim(Split(h, ',')[1]))
      else Some(h)
  }

  /** Entry `[1]` of the comma split of a header with a comma is the text after its first
      comma, up to the next comma if there is one. */
  lemma SecondField(h: string)
    requires ',' in h
    ensures |Split(h, ',')| >= 2 && Split(h, ',')[1] == AfterFirstComma(h)
  {
    var i := FirstIndexOf(h, ',');
    SplitAtFirst(h, ',', i);
    SplitHead(h[i + 1..], ',');
  }

  /** The token the request runs with: a non-empty `HF_TOKEN` overrides the cookie.
      The empty string stands for an absent cookie, which JavaScript treats alike. */
  function Credential(cookieToken: string, hfToken: string): string {
    if |hfToken| > 0 then hfToken else cookieToken
  }

  /** `!token` is false: the request bypasses the counter. */
  predicate HasCredential(cookieToken: string, hfToken: string)
    ensures HasCredential(cookieToken, hfToken) <==> cookieToken != "" || hfToken != ""
  {
    Credential(cookieToken, hfToken) != ""
  }

  /** Requests seen so far for `key`. */
  function Seen(c: Counter, key: ClientKey): nat {
    if key in c then c[key] else 0
  }

  /** One admission decision: a request with a credential passes and leaves the map as
      it is; an anonymous one is counted first and refused (429, `openLogin`) when its
      count then exceeds `maxRequests`. A refused request stays counted. */
  function Admit(c: Counter, key: ClientKey, hasCredential: bool, maxRequests: nat): (r: (Counter, Verdict))
    ensures hasCredential ==> r == (c, Admitted)
    ensures !hasCredential ==> Seen(r.0, key) == Seen(c, key) + 1
    ensures !hasCredential ==> (r.1 == Denied <==> Seen(c, key) + 1 > maxRequests)
    ensures forall k :: k in c ==> k in r.0
    ensures forall k :: k != key ==> Seen(r.0, k) == Seen(c, k)
    ensures r.0.Keys <= c.Keys + {key}
  {
    if hasCredential then (c, Admitted)
    else
      var n := Seen(c, key) + 1;
      (c[key := n], if n > maxRequests then Denied else Admitted)
  }

  /** A sequence of requests, each a key and whether it carried a credential. */
  function Replay(c: Counter, requests: seq<(ClientKey, bool)>, maxRequests: nat): (r: (Counter, seq<Verdict>))
    ensures |r.1| == |requests|
    decreases |requests|
  {
    if |requests| == 0 then (c, [])
    else
      var (c1, v) := Admit(c, requests[0].0, requests[0].1, maxRequests);
      var (c2, vs) := Replay(c1, requests[1..], maxRequests);
      (c2, [v] + vs)
  }

  /** One step of `Replay`: the first request is decided on the current counter, the
      rest on the counter it leaves. */
  lemma ReplayStep(c: Counter, requests: seq<(ClientKey, bool)>, maxRequests: nat)
    requires |requests| > 0
    ensures var (c1, v) := Admit(c, requests[0].0, requests[0].1, maxRequests);
            Replay(c, requests, maxRequests).1 == [v] + Replay(c1, requests[1..], maxRequests).1
  {
  }

  /** Counts never decrease and keys are never dropped. */
  lemma {:induction false} ReplayMonotone(c: Counter, requests: seq<(ClientKey, bool)>, maxRequests: nat)
    ensures forall k :: Seen(c, k) <= Seen(Replay(c, requests, maxRequests).0, k)
    ensures c.Keys <= Replay(c, requests, maxRequests).0.Keys
    decreases |requests|
  {
    if |requests| > 0 {
      var (c1, _) := Admit(c, requests[0].0, requests[0].1, maxRequests);
      ReplayMonotone(c1, requests[1..], maxRequests);
    }
  }

  /** A key's count grows by exactly the number of anonymous requests made under that
      key: requests with a credential and requests from other addresses leave it alone. */
  function AnonymousFrom(requests: seq<(ClientKey, bool)>, key: ClientKey): nat {
    if |requests| == 0 then 0
    else (if requests[0].0 == key && !requests[0].1 then 1 else 0) + AnonymousFrom(requests[1..], key)
  }

  lemma {:induction false} ReplayCountsAnonymous(c: Counter, requests: seq<(ClientKey, bool)>, maxRequests: nat, key: ClientKey)
    ensures Seen(Replay(c, requests, maxRequests).0, key) == Seen(c, key) + AnonymousFrom(requests, key)
    decreases |requests|
  {
    if |requests| > 0 {
      var (c1, _) := Admit(c, requests[0].0, requests[0].1, maxRequests);
      ReplayCountsAnonymous(c1, requests[1..], maxRequests, key);
    }
  }

  /** `n` anonymous requests from `key`. */
  function Burst(key: ClientKey, n: nat): (reqs: seq<(ClientKey, bool)>)
    ensures |reqs| == n && forall i :: 0 <= i < n ==> reqs[i] == (key, false)
  {
    seq(n, _ => (key, false))
  }

  /** From an address with no history, `n` anonymous requests in a row: the `i`-th one
      (counting from one) is refused exactly when `i` exceeds the ceiling. */
  lemma {:induction false} RepeatedAnonymousRequests(c: Counter, key: ClientKey, n: nat, maxRequests: nat)
    requires Seen(c, key) == 0
    ensures var vs := Replay(c, Burst(key, n), maxRequests).1;
            forall i :: 0 <= i < n ==> (vs[i] == Denied <==> i + 1 > maxRequests)
  {
    RepeatedFrom(c, key, n, maxRequests);
  }

  lemma {:induction false} RepeatedFrom(c: Counter, key: ClientKey, n: nat, maxRequests: nat)
    ensures var vs := Replay(c, Burst(key, n), maxRequests).1;
            forall i :: 0 <= i < n ==> (vs[i] == Denied <==> Seen(c, key) + i + 1 > maxRequests)
    decreases n
  {
    if n > 0 {
      var reqs := Burst(key, n);
      var (c1, v) := Admit(c, key, false, maxRequests);
      assert reqs[0] == (key, false);
      assert reqs[1..] == Burst(key, n - 1);
      RepeatedFrom(c1, key, n - 1, maxRequests);
      var vs' := Replay(c1, Burst(key, n - 1), maxRequests).1;
      var vs := Replay(c, reqs, maxRequests).1;
      ReplayStep(c, reqs, maxRequests);
      assert vs == [v] + Replay(c1, reqs[1..], maxRequests).1;
      assert vs == [v] + vs';
      assert Seen(c1, key) == Seen(c, key) + 1;
      forall i | 0 <= i < n
        ensures vs[i] == Denied <==> Seen(c, key) + i + 1 > maxRequests
      {
        if i > 0 {
          assert vs[i] == vs'[i - 1];
          assert vs'[i - 1] == Denied <==> Seen(c1, key) + (i - 1) + 1 > maxRequests;
        } else {
          assert vs[0] == v;
          assert v == Denied <==> Seen(c, key) + 1 > maxRequests;
        }
      }
    }
  }
}

=== FILE: routing.dfy ===
/** Request routing in app/api/ask-ai/route.ts: the prompt-complexity heuristic that
    rewrites gemini/gemma model ids, the catalog lookup by value or label, the explicit
    provider check of `POST`, the auto/default provider resolution and
    `getActualModelName`. The Google availability flag (`hasGoogleAPI`, read from the
    lower-case `google_api_key` variable) is a parameter. */
module Routing {
  import opened Optional
  import opened JsString
  import opened Catalog

  datatype Complexity = Simple | Balanced | Complex

  /** Keywords that mark a prompt as complex (route.ts lines 42-46). */
  const COMPLEXITY_INDICATORS: seq<string> := [
    "animation", "interactive", "complex", "advanced", "dashboard",
    "chart", "graph", "database", "api", "responsive", "mobile",
    "framework", "library", "state management", "routing"
  ]

  /** Keywords that mark a short prompt as simple (route.ts lines 53-57). */
  const SIMPLE_KEYWORDS: seq<string> := ["button", "color", "text", "simple", "fix"]

  const SIMPLE_MAX_WORDS := 15
  const COMPLEX_MIN_WORDS := 50

  /** `prompt.split(' ').length`: one more than the number of spaces, so consecutive
      spaces count as extra words and the empty prompt has one word. */
  function WordCount(prompt: string): (n: nat)
    ensures n == Count(prompt, ' ') + 1
  {
    |Split(prompt, ' ')|
  }

  /** Some keyword of `words` occurs in `text`. */
  predicate MentionsAny(text: string, words: seq<string>) {
    exists k :: 0 <= k < |words| && Includes(text, words[k])
  }

  predicate IsSimplePrompt(prompt: string) {
    WordCount(prompt) < SIMPLE_MAX_WORDS && MentionsAny(ToLowerCase(prompt), SIMPLE_KEYWORDS)
  }

  predicate IsComplexPrompt(prompt: string) {
    MentionsAny(ToLowerCase(prompt), COMPLEXITY_INDICATORS) || WordCount(prompt) > COMPLEX_MIN_WORDS
  }

  /** The class the router acts on: simple wins over complex, balanced is the rest. */
  function Classify(prompt: string): (c: Complexity)
    ensures c == Simple <==> IsSimplePrompt(prompt)
    ensures c == Complex <==> !IsSimplePrompt(prompt) && IsComplexPrompt(prompt)
  {
    if IsSimplePrompt(prompt) then Simple
    else if IsComplexPrompt(prompt) then Complex
    else Balanced
  }

  /** A short prompt that asks for a fix is simple even when it also names a complex topic. */
  lemma SimpleTakesPrecedence(prompt: string)
    requires WordCount(prompt) < SIMPLE_MAX_WORDS
    requires Includes(ToLowerCase(prompt), "fix")
    requires Includes(ToLowerCase(prompt), "dashboard")
    ensures IsComplexPrompt(prompt)
    ensures Classify(prompt) == Simple
  {
    assert SIMPLE_KEYWORDS[4] == "fix";
    assert COMPLEXITY_INDICATORS[4] == "dashboard";
  }

  /** Lower-casing can produce a keyword from letters outside ASCII: "AP\U{130}" becomes
      "api" followed by U+0307, so the prompt is complex. */
  lemma DottedCapitalIMentionsApi()
    ensures ToLowerCase("AP\U{130}") == "api\U{307}"
    ensures Classify("AP\U{130}") == Complex
  {
    var p := "AP\U{130}";
    var l := ToLowerCase(p);
    assert l == "api\U{307}" by {
      ToLowerCaseAppend("A", "P\U{130}");
      ToLowerCaseAppend("P", "\U{130}");
      ToLowerCaseAppend("\U{130}", "");
      assert p == "A" + ("P\U{130}") && "P\U{130}" == "P" + "\U{130}" && "\U{130}" + "" == "\U{130}";
    }
    assert COMPLEXITY_INDICATORS[8] == "api" && MatchesAt(l, "api", 0);
    assert Count(p, ' ') == 0;
    NoSimpleKeyword(l);
  }

  /** None of the simple-prompt keywords occurs in "api" followed by U+0307. */
  lemma NoSimpleKeyword(l: string)
    requires l == "api\U{307}"
    ensures !MentionsAny(l, SIMPLE_KEYWORDS)
  {
    forall k, i: nat | 0 <= k < |SIMPLE_KEYWORDS| && i <= |l|
      ensures !MatchesAt(l, SIMPLE_KEYWORDS[k], i)
    {
      var w := SIMPLE_KEYWORDS[k];
      assert |w| >= 3 && w[0] != 'a' && w[0] != 'p';
      if i + |w| <= |l| {
        assert l[i..i + |w|][0] == l[i];
      }
    }
  }

  /** A prompt of more than fifty words is never simple, so it is always complex. */
  lemma LongPromptIsComplex(prompt: string)
    requires Count(prompt, ' ') >= COMPLEX_MIN_WORDS
    ensures Classify(prompt) == Complex
  {
  }

  /** The model the router asks for, given the class and whether the Google API is
      configured (route.ts lines 63-81). */
  function RouteTarget(c: Complexity, hasGoogleAPI: bool): string {
    if hasGoogleAPI then
      match c
      case Simple => "google/gemma-2-3b-it"
      case Complex => "google/gemini-2.5-flash"
      case Balanced => "google/gemini-2.5-flash-lite"
    else
      match c
      case Simple => "google/gemma-2b-it"
      case Complex => "meta-llama/Llama-3.2-3B-Instruct"
      case Balanced => "google/gemma-2b-it"
  }

  /** Smart routing is attempted only for a non-empty prompt and a model id that
      contains `gemini` or `gemma`. */
  predicate RoutingApplies(model: string, prompt: string) {
    prompt != "" && (Includes(model, "gemini") || Includes(model, "gemma"))
  }

  /** `smartModel`: the requested id, or the routed target when routing applies. */
  function SmartModel(model: string, prompt: string, hasGoogleAPI: bool): (r: string)
    ensures !RoutingApplies(model, prompt) ==> r == model
    ensures RoutingApplies(model, prompt) ==> r == RouteTarget(Classify(prompt), hasGoogleAPI)
  {
    if RoutingApplies(model, prompt) then RouteTarget(Classify(prompt), hasGoogleAPI) else model
  }

  /** `MODELS.find(m => m.value === id || m.label === id)`. */
  function FindModel(models: seq<Model>, id: string): (r: Option<Model>)
    ensures r.None? <==> forall i :: 0 <= i < |models| ==> models[i].value != id && models[i].labelText != id
    ensures r.Some? ==> exists i :: 0 <= i < |models| && models[i] == r.value
                                   && (forall j :: 0 <= j < i ==> models[j].value != id && models[j].labelText != id)
    ensures r.Some? ==> r.value.value == id || r.value.labelText == id
  {
    if |models| == 0 then None
    else if models[0].value == id || models[0].labelText == id then Some(models[0])
    else
      var r := FindModel(models[1..], id);
      assert forall i :: 1 <= i < |models| ==> models[i] == models[1..][i - 1];
      if r.Some? then
        var i :| 0 <= i < |models[1..]| && models[1..][i] == r.value
                 && (forall j :: 0 <= j < i ==> models[1..][j].value != id && models[1..][j].labelText != id);
        assert models[i + 1] == r.value;
        assert forall j :: 1 <= j < i + 1 ==> models[j] == models[1..][j - 1];
        r
      else r
  }

  /** When names are unambiguous, looking a model up by its value or its label finds
      exactly that model. */
  lemma FindModelByName(models: seq<Model>, i: nat, id: string)
    requires NamesUnambiguous(models)
    requires i < |models| && (models[i].value == id || models[i].labelText == id)
    ensures FindModel(models, id) == Some(models[i])
  {
    var r := FindModel(models, id);
    var k :| 0 <= k < |models| && models[k] == r.value
             && (forall j :: 0 <= j < k ==> models[j].value != id && models[j].labelText != id);
  }

  /** Every shipped model is found under its own value. */
  lemma FindShippedModel(i: nat)
    requires i < |MODELS|
    ensures FindModel(MODELS, MODELS[i].value) == Some(MODELS[i])
  {
    ShippedNamesUnambiguous();
    FindModelByName(MODELS, i, MODELS[i].value);
  }

  /** With the Google API configured, every routing target is a catalog model whose
      value starts with `google/`. */
  lemma GoogleTargetFound(c: Complexity)
    ensures var found := FindModel(MODELS, RouteTarget(c, true));
            found.Some? && StartsWith(found.value.value, "google/")
  {
    var i: nat := match c case Balanced => 25 case Complex => 26 case Simple => 27;
    assert MODELS[i].value == RouteTarget(c, true);
    FindShippedModel(i);
    GoogleTargetPrefix(c);
  }

  lemma GoogleTargetPrefix(c: Complexity)
    ensures StartsWith(RouteTarget(c, true), "google/")
  {
    var target := RouteTarget(c, true);
    assert target[..7] == "google/" by {
      assert forall k :: 0 <= k < 7 ==> target[k] == "google/"[k];
    }
  }

  /** So with the Google API configured, a routed request always passes the lookup. */
  lemma GoogleRoutesFound(model: string, prompt: string)
    requires RoutingApplies(model, prompt)
    ensures var found := FindModel(MODELS, SmartModel(model, prompt, true));
            found.Some? && StartsWith(found.value.value, "google/")
  {
    GoogleTargetFound(Classify(prompt));
  }

  /** Without the Google API, the routed targets `google/gemma-2b-it` and
      `meta-llama/Llama-3.2-3B-Instruct` are neither a value nor a label of the catalog,
      so every routed request ends in "Invalid model selected". */
  lemma FallbackRoutesMissCatalog(model: string, prompt: string)
    requires RoutingApplies(model, prompt)
    ensures FindModel(MODELS, SmartModel(model, prompt, false)).None?
  {
    FallbackTargetUnlisted(Classify(prompt));
  }

  lemma FallbackTargetUnlisted(c: Complexity)
    ensures FindModel(MODELS, RouteTarget(c, false)).None?
  {
    match c
    case Complex =>
      assert RouteTarget(c, false) == "meta-llama/Llama-3.2-3B-Instruct";
      LlamaFallbackUnlisted();
    case Simple =>
      assert RouteTarget(c, false) == "google/gemma-2b-it";
      GemmaFallbackUnlisted();
    case Balanced =>
      assert RouteTarget(c, false) == "google/gemma-2b-it";
      GemmaFallbackUnlisted();
  }

  lemma GemmaFallbackUnlisted()
    ensures FindModel(MODELS, "google/gemma-2b-it").None?
  {
    GemmaNotAValue();
    GemmaNotALabel();
    NameUnlisted("google/gemma-2b-it");
  }

  lemma GemmaNotAValue()
    ensures "google/gemma-2b-it" !in MODEL_VALUES
  {
  }

  lemma GemmaNotALabel()
    ensures "google/gemma-2b-it" !in MODEL_LABELS
  {
  }

  lemma LlamaFallbackUnlisted()
    ensures FindModel(MODELS, "meta-llama/Llama-3.2-3B-Instruct").None?
  {
    LlamaNotAValue();
    LlamaNotALabel();
    NameUnlisted("meta-llama/Llama-3.2-3B-Instruct");
  }

  lemma LlamaNotAValue()
    ensures "meta-llama/Llama-3.2-3B-Instruct" !in MODEL_VALUES
  {
  }

  lemma LlamaNotALabel()
    ensures "meta-llama/Llama-3.2-3B-Instruct" !in MODEL_LABELS
  {
  }

  /** An id that is neither a listed value nor a listed label is not found. */
  lemma NameUnlisted(id: string)
    requires id !in MODEL_VALUES && id !in MODEL_LABELS
    ensures FindModel(MODELS, id).None?
  {
    ValuesListedFirstHalf();
    ValuesListedSecondHalf();
    UnnamedNotFound(MODELS, id);
  }

  lemma UnnamedNotFound(models: seq<Model>, id: string)
    requires forall i :: 0 <= i < |models| ==> models[i].value != id
    requires forall i :: 0 <= i < |models| ==> models[i].labelText != id
    ensures FindModel(models, id).None?
  {
  }

  /** Every Google-API routing target names a catalog model whose value starts with
      `google/`. */
  predicate GoogleTargetsListed(models: seq<Model>) {
    forall c: Complexity {:trigger RouteTarget(c, true)} ::
      var found := FindModel(models, RouteTarget(c, true));
      found.Some? && StartsWith(found.value.value, "google/")
  }

  /** No fallback routing target names a catalog model. */
  predicate FallbackTargetsUnlisted(models: seq<Model>) {
    forall c: Complexity {:trigger RouteTarget(c, false)} :: FindModel(models, RouteTarget(c, false)).None?
  }

  /** The shipped catalog lists every Google-API target. */
  lemma ShippedGoogleTargets()
    ensures GoogleTargetsListed(MODELS)
  {
    forall c: Complexity
      ensures var found := FindModel(MODELS, RouteTarget(c, true));
              found.Some? && StartsWith(found.value.value, "google/")
    {
      GoogleTargetFound(c);
    }
  }

  /** The shipped catalog lists no fallback target. */
  lemma ShippedFallbackTargets()
    ensures FallbackTargetsUnlisted(MODELS)
  {
    forall c: Complexity
      ensures FindModel(MODELS, RouteTarget(c, false)).None?
    {
      FallbackTargetUnlisted(c);
    }
  }

  /** `POST` rejects an explicit provider the model does not list; `auto` always passes. */
  predicate ProviderAccepted(model: Model, provider: string) {
    provider == "auto" || provider in model.providers
  }

  /** `selectedProvider`: `auto` reads the model's own auto provider; an explicit name
      reads that property of `PROVIDERS`, and only when it is `undefined` does `??` fall
      back to `PROVIDERS.groq`. An inherited name such as `toString` is not `undefined`,
      so it is kept. */
  function ResolveProvider(table: ProviderTable, model: Model, provider: string): (r: Property)
    ensures provider == "auto" ==> r == Get(table, model.autoProvider)
    ensures provider != "auto" && !Get(table, provider).Undefined? ==> r == Get(table, provider)
    ensures provider != "auto" && Get(table, provider).Undefined? ==> r == Get(table, DEFAULT_PROVIDER_KEY)
  {
    if provider == "auto" then Get(table, model.autoProvider)
    else match Get(table, provider)
      case Undefined => Get(table, DEFAULT_PROVIDER_KEY)
      case r => r
  }

  /** With a well-formed catalog the resolved provider is never `undefined`: `auto` gives
      the model's auto provider, a key gives itself, an `Object.prototype` name gives that
      inherited member, and any other name gives `groq`. */
  lemma ResolveProviderTotal(table: ProviderTable, models: seq<Model>, i: nat, provider: string)
    requires WellFormed(table, models) && i < |models|
    ensures var r := ResolveProvider(table, models[i], provider);
            && !r.Undefined?
            && (r.Inherited? <==> provider != "auto" && provider !in Keys(table) && provider in OBJECT_PROTOTYPE_NAMES)
            && (provider == "auto" ==> r.Own? && r.provider.id == models[i].autoProvider)
            && (provider != "auto" && provider in Keys(table) ==> r.Own? && r.provider.id == provider)
            && (provider != "auto" && provider !in Keys(table) && provider !in OBJECT_PROTOTYPE_NAMES
                ==> r.Own? && r.provider.id == DEFAULT_PROVIDER_KEY)
  {
    var m := models[i];
    assert ModelProvidersValid(table, m);
    var k :| 0 <= k < |m.providers| && m.providers[k] == m.autoProvider;
    assert m.autoProvider in Keys(table);
    var r := ResolveProvider(table, m, provider);
    if r.Own? {
      var j :| 0 <= j < |table| && table[j].1 == r.provider;
      assert table[j].1.id == table[j].0;
    }
  }

  /** Model ids that `getActualModelName` leaves alone even though they contain '/'. */
  predicate KeepsPrefix(v: string) {
    StartsWith(v, "meta-llama/") || StartsWith(v, "mistralai/") || StartsWith(v, "accounts/")
  }

  /** `getActualModelName`: a provider-prefixed id loses the text up to and including its
      first '/'; ids without '/' or with a kept prefix are passed through. */
  function ActualModelName(v: string): (r: string)
    ensures !Includes(v, "/") || KeepsPrefix(v) ==> r == v
    ensures Includes(v, "/") && !KeepsPrefix(v) ==>
              var cut := |v| - |r| - 1;
              0 <= cut && v == v[..cut] + "/" + r && '/' !in v[..cut]
  {
    if Includes(v, "/") && !KeepsPrefix(v) then
      var r := Join(Split(v, '/')[1..], '/');
      IncludesChar(v, '/');
      var i := FirstIndexOf(v, '/');
      JoinSplitTail(v, '/', i);
      assert v == v[..i] + "/" + v[i + 1..];
      r
    else v
  }
}

=== FILE: settings.dfy ===
/** The provider-picker logic of components/editor/ask-ai/settings.tsx: which providers
    the picker offers for the chosen model, the effect that resets an unavailable
    provider to `auto`, the auto-provider switch and the list of models the dropdown
    shows. The catalog is a parameter; `Catalog` supplies the shipped one. */
module Settings {
  import opened Optional
  import opened JsString
  import opened Catalog

  const AUTO := "auto"

  /** `MODELS.find(m => m.value === model)`: unlike the router, by value only. */
  function FindByValue(models: seq<Model>, value: string): (r: Option<Model>)
    ensures r.None? <==> forall i :: 0 <= i < |models| ==> models[i].value != value
    ensures r.Some? ==> exists i :: 0 <= i < |models| && models[i] == r.value
                                   && forall j :: 0 <= j < i ==> models[j].value != value
    ensures r.Some? ==> r.value.value == value
  {
    if |models| == 0 then None
    else if models[0].value == value then Some(models[0])
    else
      var r := FindByValue(models[1..], value);
      assert forall i :: 1 <= i < |models| ==> models[i] == models[1..][i - 1];
      if r.Some? then
        var i :| 0 <= i < |models[1..]| && models[1..][i] == r.value
                 && forall j :: 0 <= j < i ==> models[1..][j].value != value;
        assert models[i + 1] == r.value;
        r
      else r
  }

  /** `keys.filter(id => allowed.includes(id))`. */
  function KeepListed(keys: seq<string>, allowed: seq<string>): (r: seq<string>)
    ensures forall x :: x in r <==> x in keys && x in allowed
    ensures |r| <= |keys|
    decreases |keys|
  {
    if |keys| == 0 then []
    else (if keys[0] in allowed then [keys[0]] else []) + KeepListed(keys[1..], allowed)
  }

  /** The filter keeps the order of the keys. */
  lemma {:induction false} KeepListedInOrder(keys: seq<string>, allowed: seq<string>)
    ensures Subsequence(KeepListed(keys, allowed), keys)
    decreases |keys|
  {
    if |keys| > 0 {
      KeepListedInOrder(keys[1..], allowed);
      var rest := KeepListed(keys[1..], allowed);
      if keys[0] in allowed {
        assert KeepListed(keys, allowed) == [keys[0]] + rest;
        assert ([keys[0]] + rest)[1..] == rest;
      } else {
        assert KeepListed(keys, allowed) == rest;
        SkipHead(rest, keys);
      }
    }
  }

  /** `modelAvailableProviders`: every provider key for a model the catalog does not
      know by value, otherwise the keys the model lists, in key order. */
  function AvailableProviders(table: ProviderTable, models: seq<Model>, model: string): (r: seq<string>)
    ensures FindByValue(models, model).None? ==> r == Keys(table)
    ensures FindByValue(models, model).Some? ==>
              forall x :: x in r <==> x in Keys(table) && x in FindByValue(models, model).value.providers
  {
    match FindByValue(models, model)
    case None => Keys(table)
    case Some(m) => KeepListed(Keys(table), m.providers)
  }

  /** The picker only offers real providers, in the order of the provider table. */
  lemma AvailableAreKeys(table: ProviderTable, models: seq<Model>, model: string)
    ensures Subsequence(AvailableProviders(table, models, model), Keys(table))
    ensures forall x :: x in AvailableProviders(table, models, model) ==> x in Keys(table)
  {
    match FindByValue(models, model)
    case None => SubsequenceRefl(Keys(table));
    case Some(m) => KeepListedInOrder(Keys(table), m.providers);
  }

  /** In a well-formed catalog a known model is offered exactly the providers it lists,
      so in particular its auto provider. */
  lemma AvailableForCatalogModel(table: ProviderTable, models: seq<Model>, i: nat)
    requires WellFormed(table, models) && i < |models|
    ensures var available := AvailableProviders(table, models, models[i].value);
            && (forall x :: x in available <==> x in models[i].providers)
            && models[i].autoProvider in available
  {
    var m := FindByValue(models, models[i].value).value;
    var k :| 0 <= k < |models| && models[k] == m
             && forall j :: 0 <= j < k ==> models[j].value != models[i].value;
    assert ModelProvidersValid(table, m);
    forall x | x in m.providers
      ensures x in Keys(table)
    {
      var p :| 0 <= p < |m.providers| && m.providers[p] == x;
    }
  }

  /** The effect on `[model, provider]`: Some("auto") when it calls `onChange("auto")`,
      None when it does nothing. */
  function ResetEffect(provider: string, available: seq<string>): (r: Option<string>)
    ensures r.Some? <==> provider != AUTO && provider !in available
    ensures r.Some? ==> r.value == AUTO
  {
    if provider != AUTO && provider !in available then Some(AUTO) else None
  }

  /** After the effect the provider is `auto` or one the picker offers, and running the
      effect again changes nothing. */
  lemma ResetSettles(provider: string, available: seq<string>)
    ensures var p := ResetEffect(provider, available).GetOr(provider);
            && (p == AUTO || p in available)
            && ResetEffect(p, available).None?
  {
  }

  /** The auto-provider switch: from `auto` to the model's own auto provider when the
      model is known by value and names one; in every other case to `auto`. */
  function Toggle(models: seq<Model>, model: string, provider: string): (r: string)
    ensures provider != AUTO ==> r == AUTO
    ensures provider == AUTO && FindByValue(models, model).Some? && FindByValue(models, model).value.autoProvider != ""
            ==> r == FindByValue(models, model).value.autoProvider
    ensures provider == AUTO && (FindByValue(models, model).None? || FindByValue(models, model).value.autoProvider == "")
            ==> r == AUTO
  {
    match FindByValue(models, model)
    case Some(m) => if provider == AUTO && m.autoProvider != "" then m.autoProvider else AUTO
    case None => AUTO
  }

  /** Switching twice from `auto` comes back to `auto`; from an explicit provider it
      lands on the model's auto provider, not on the provider it started from. */
  lemma ToggleTwice(table: ProviderTable, models: seq<Model>, i: nat, provider: string)
    requires WellFormed(table, models) && i < |models|
    ensures var model := models[i].value;
            && Toggle(models, model, Toggle(models, model, AUTO)) == AUTO
            && (provider != AUTO ==> Toggle(models, model, Toggle(models, model, provider)) == models[i].autoProvider)
  {
    var model := models[i].value;
    FindByValueCatalog(table, models, i);
    AutoProviderNamed(table, models[i]);
  }

  /** In a catalog whose names are unambiguous, a model is found by its own value. */
  lemma FindByValueCatalog(table: ProviderTable, models: seq<Model>, i: nat)
    requires WellFormed(table, models) && i < |models|
    ensures FindByValue(models, models[i].value) == Some(models[i])
  {
    var r := FindByValue(models, models[i].value);
    var k :| 0 <= k < |models| && models[k] == r.value
             && forall j :: 0 <= j < k ==> models[j].value != models[i].value;
  }

  /** A model of a well-formed catalog names a non-empty auto provider that is a key. */
  lemma AutoProviderNamed(table: ProviderTable, m: Model)
    requires ProvidersWellFormed(table) && ModelProvidersValid(table, m)
    ensures m.autoProvider != "" && m.autoProvider in Keys(table)
  {
    var p :| 0 <= p < |m.providers| && m.providers[p] == m.autoProvider;
    var k :| 0 <= k < |table| && Keys(table)[k] == m.autoProvider;
  }

  /** Whatever the switch picks, the reset effect leaves it alone: the switch never
      offers a provider the picker would take back. */
  lemma ToggleSurvivesReset(table: ProviderTable, models: seq<Model>, model: string, provider: string)
    requires WellFormed(table, models)
    ensures ResetEffect(Toggle(models, model, provider), AvailableProviders(table, models, model)).None?
  {
    match FindByValue(models, model)
    case None =>
    case Some(m) =>
      var k :| 0 <= k < |models| && models[k] == m
               && forall j :: 0 <= j < k ==> models[j].value != model;
      AvailableForCatalogModel(table, models, k);
  }

  /** A model the dropdown lists: its value mentions `gemini` or `gemma`. */
  predicate IsSmartModel(m: Model) {
    Includes(m.value, "gemini") || Includes(m.value, "gemma")
  }

  /** `MODELS.filter(m => m.value.includes('gemini') || m.value.includes('gemma'))`. */
  function SmartModels(models: seq<Model>): (r: seq<Model>)
    ensures forall m :: m in r <==> m in models && IsSmartModel(m)
    decreases |models|
  {
    if |models| == 0 then []
    else (if IsSmartModel(models[0]) then [models[0]] else []) + SmartModels(models[1..])
  }

  /** The dropdown keeps catalog order. */
  lemma {:induction false} SmartModelsInOrder(models: seq<Model>)
    ensures Subsequence(SmartModels(models), models)
    decreases |models|
  {
    if |models| > 0 {
      SmartModelsInOrder(models[1..]);
      var rest := SmartModels(models[1..]);
      if IsSmartModel(models[0]) {
        assert SmartModels(models) == [models[0]] + rest;
        assert ([models[0]] + rest)[1..] == rest;
      } else {
        assert SmartModels(models) == rest;
        SkipHead(rest, models);
      }
    }
  }

  /** The four Google models of the shipped catalog (`gemini-2.5-flash-lite`,
      `gemini-2.5-flash`, `gemma-2-3b-it`, `gemma-2-9b-it`) are offered by the dropdown. */
  lemma ShippedGoogleModelsListed()
    ensures forall i :: 25 <= i < 29 ==> MODELS[i] in SmartModels(MODELS)
  {
    forall i | 25 <= i < 29
      ensures MODELS[i] in SmartModels(MODELS)
    {
      ValuesListedSecondHalf();
      GoogleValueSmart(i);
      SmartModelListed(MODELS, i);
    }
  }

  lemma SmartModelListed(models: seq<Model>, i: nat)
    requires i < |models| && IsSmartModel(models[i])
    ensures models[i] in SmartModels(models)
  {
  }

  /** The Google values name their family right after the `google/` prefix. */
  lemma GoogleValueSmart(i: nat)
    requires 25 <= i < 29
    ensures Includes(MODEL_VALUES[i], "gemini") || Includes(MODEL_VALUES[i], "gemma")
  {
    var v := MODEL_VALUES[i];
    if i < 27 {
      assert v[7..13] == "gemini";
      assert MatchesAt(v, "gemini", 7);
    } else {
      assert v[7..12] == "gemma";
      assert MatchesAt(v, "gemma", 7);
    }
  }
}

=== FILE: stream_session.dfy ===
/** The streaming body of `POST` in app/api/ask-ai/route.ts (lines 173-281): chunks of
    generated text are written to the response as they arrive, accumulated, and the
    session stops as soon as the accumulated text contains `</html>`. A failure of the
    upstream stream becomes one JSON error frame; the writer is always closed last.
    Both upstream paths (the direct Gemini stream and the Hugging Face stream) share
    this loop, so the upstream is a parameter: the sequence of chunk contents it
    delivers (with "" for a chunk whose `choices[0].delta.content` is missing or empty)
    and how it ends. */
module StreamSession {
  import opened JsString

  const END_OF_DOCUMENT := "</html>"
  const BILLING_MARKER := "exceeded your monthly included credits"
  const GENERIC_ERROR := "An error occurred while processing your request."

  /** What the session writes to the response: a piece of generated text, the
      serialised `{ ok: false, openProModal?, message }` object, or the final close. */
  datatype Frame = Data(text: string) | ErrorFrame(openProModal: bool, message: string) | Close

  /** How the upstream ends once its chunks are delivered: normally, or by throwing an
      error with the given message ("" when it has none). */
  datatype Outcome = Finished | Failed(message: string)

  /** The error frame for a thrown error: the billing message passes through unchanged
      with `openProModal`; any other error keeps its message, or gets the generic one. */
  function ErrorFrameFor(message: string): (f: Frame)
    ensures f.ErrorFrame? && f.message != ""
    ensures f.openProModal <==> Includes(message, BILLING_MARKER)
    ensures message != "" ==> f.message == message
    ensures message == "" ==> f.message == GENERIC_ERROR
  {
    if Includes(message, BILLING_MARKER) then ErrorFrame(true, message)
    else ErrorFrame(false, if message != "" then message else GENERIC_ERROR)
  }

  /** One data frame per non-empty chunk, in order. */
  function DataFrames(chunks: seq<string>): (fs: seq<Frame>)
    ensures forall k :: 0 <= k < |fs| ==> fs[k].Data? && fs[k].text != ""
    ensures |fs| <= |chunks|
  {
    if |chunks| == 0 then []
    else
      var last := chunks[|chunks| - 1];
      DataFrames(chunks[..|chunks| - 1]) + (if last != "" then [Data(last)] else [])
  }

  /** The text the client receives from a sequence of frames. */
  function Written(fs: seq<Frame>): string {
    if |fs| == 0 then ""
    else Written(fs[..|fs| - 1]) + (if fs[|fs| - 1].Data? then fs[|fs| - 1].text else "")
  }

  /** Nothing is lost or added: the data frames carry exactly the chunks' text. */
  lemma {:induction false} WrittenDataFrames(chunks: seq<string>)
    ensures Written(DataFrames(chunks)) == Concat(chunks)
    decreases |chunks|
  {
    if |chunks| > 0 {
      var init := chunks[..|chunks| - 1];
      var last := chunks[|chunks| - 1];
      WrittenDataFrames(init);
      WrittenAppend(DataFrames(init), if last != "" then [Data(last)] else []);
    }
  }

  lemma {:induction false} WrittenAppend(a: seq<Frame>, b: seq<Frame>)
    ensures Written(a + b) == Written(a) + Written(b)
    decreases |b|
  {
    if |b| == 0 {
      assert a + b == a;
    } else {
      assert (a + b)[..|a + b| - 1] == a + b[..|b| - 1];
      WrittenAppend(a, b[..|b| - 1]);
    }
  }

  /** When no chunk is empty, every chunk becomes exactly one data frame. */
  lemma {:induction false} DataFramesOfNonEmpty(chunks: seq<string>)
    requires forall k :: 0 <= k < |chunks| ==> chunks[k] != ""
    ensures |DataFrames(chunks)| == |chunks|
    ensures forall k :: 0 <= k < |chunks| ==> DataFrames(chunks)[k] == Data(chunks[k])
    decreases |chunks|
  {
    if |chunks| > 0 {
      DataFramesOfNonEmpty(chunks[..|chunks| - 1]);
    }
  }

  /** The number of chunks the session reads, scanning from `i` on: it stops right after
      the first chunk whose arrival makes the accumulated text contain `</html>`. */
  function ConsumedFrom(chunks: seq<string>, i: nat): (k: nat)
    requires i <= |chunks|
    requires forall j :: 0 <= j <= i ==> !Includes(Concat(chunks[..j]), END_OF_DOCUMENT)
    ensures i <= k <= |chunks|
    ensures forall j :: 0 <= j < k ==> !Includes(Concat(chunks[..j]), END_OF_DOCUMENT)
    ensures k < |chunks| ==> Includes(Concat(chunks[..k]), END_OF_DOCUMENT)
    ensures k > i ==> Includes(Concat(chunks[..k]), END_OF_DOCUMENT) || k == |chunks|
    decreases |chunks| - i
  {
    if i == |chunks| then i
    else if Includes(Concat(chunks[..i + 1]), END_OF_DOCUMENT) then i + 1
    else ConsumedFrom(chunks, i + 1)
  }

  /** The number of chunks the session reads. */
  function Consumed(chunks: seq<string>): (k: nat)
    ensures k <= |chunks|
    ensures forall j :: 0 <= j < k ==> !Includes(Concat(chunks[..j]), END_OF_DOCUMENT)
    ensures k < |chunks| ==> Includes(Concat(chunks[..k]), END_OF_DOCUMENT)
  {
    assert Concat(chunks[..0]) == "";
    ConsumedFrom(chunks, 0)
  }

  /** Whether the session stopped on a complete document (rather than running out of
      chunks without one). */
  predicate Completed(chunks: seq<string>) {
    Includes(Concat(chunks[..Consumed(chunks)]), END_OF_DOCUMENT)
  }

  /** The frames the session writes: the data of the chunks it read, an error frame when
      the upstream failed before a complete document arrived, and the close. */
  function Session(chunks: seq<string>, outcome: Outcome): seq<Frame> {
    var k := Consumed(chunks);
    DataFrames(chunks[..k])
    + (if !Completed(chunks) && outcome.Failed? then [ErrorFrameFor(outcome.message)] else [])
    + [Close]
  }

  /** The loop of the streaming task: write each non-empty chunk, accumulate it, stop once
      the accumulated text contains `</html>`; afterwards report a failure that ended the
      stream and close the writer. */
  method RunSession(chunks: seq<string>, outcome: Outcome) returns (frames: seq<Frame>)
    ensures frames == Session(chunks, outcome)
  {
    var completeResponse := "";
    var i := 0;
    var stopped := false;
    frames := [];
    while i < |chunks| && !stopped
      invariant 0 <= i <= |chunks|
      invariant completeResponse == Concat(chunks[..i])
      invariant frames == DataFrames(chunks[..i])
      invariant stopped <==> Includes(completeResponse, END_OF_DOCUMENT)
      invariant forall j :: 0 <= j < i ==> !Includes(Concat(chunks[..j]), END_OF_DOCUMENT)
      invariant !stopped ==> Consumed(chunks) == ConsumedFrom(chunks, i)
      invariant stopped ==> Consumed(chunks) == i
    {
      var content := chunks[i];
      assert chunks[..i + 1][..i] == chunks[..i];
      if content != "" {
        frames := frames + [Data(content)];
        completeResponse := completeResponse + content;
        if Includes(completeResponse, END_OF_DOCUMENT) {
          stopped := true;
        }
      }
      i := i + 1;
    }
    if !stopped && outcome.Failed? {
      frames := frames + [ErrorFrameFor(outcome.message)];
    }
    frames := frames + [Close];
  }

  /** The shape of every session: data frames, at most one error frame, and exactly one
      close, which comes last. */
  lemma SessionShape(chunks: seq<string>, outcome: Outcome)
    ensures var fs := Session(chunks, outcome);
            && |fs| > 0 && fs[|fs| - 1] == Close
            && (forall k :: 0 <= k < |fs| - 1 ==> fs[k] != Close)
            && (forall k :: 0 <= k < |fs| - 2 ==> fs[k].Data?)
  {
  }

  /** The client receives exactly the text of the chunks the session read, which is a
      prefix of everything the upstream produced. */
  lemma SessionWritesPrefix(chunks: seq<string>, outcome: Outcome)
    ensures var k := Consumed(chunks);
            Written(Session(chunks, outcome)) == Concat(chunks[..k])
            && Concat(chunks) == Concat(chunks[..k]) + Concat(chunks[k..])
  {
    var k := Consumed(chunks);
    var fs := DataFrames(chunks[..k]);
    var err := if !Completed(chunks) && outcome.Failed? then [ErrorFrameFor(outcome.message)] else [];
    WrittenAppend(fs + err, [Close]);
    WrittenAppend(fs, err);
    WrittenDataFrames(chunks[..k]);
    assert chunks == chunks[..k] + chunks[k..];
    ConcatAppend(chunks[..k], chunks[k..]);
  }

  /** If the upstream never produces `</html>`, every chunk is written and a failure is
      always reported. */
  lemma IncompleteDocumentReportsFailure(chunks: seq<string>, message: string)
    requires !Includes(Concat(chunks), END_OF_DOCUMENT)
    ensures Consumed(chunks) == |chunks|
    ensures Session(chunks, Failed(message)) == DataFrames(chunks) + [ErrorFrameFor(message)] + [Close]
  {
    ReadsEverything(chunks);
  }

  /** Without `</html>` in the whole text, the session never stops early. */
  lemma ReadsEverything(chunks: seq<string>)
    requires !Includes(Concat(chunks), END_OF_DOCUMENT)
    ensures Consumed(chunks) == |chunks| && chunks[..Consumed(chunks)] == chunks
    ensures !Completed(chunks)
  {
    var k := Consumed(chunks);
    if k < |chunks| {
      PrefixIncludes(chunks, k, END_OF_DOCUMENT);
    }
    assert chunks[..k] == chunks;
  }

  /** Text found in what the first `k` chunks built is found in what all of them build. */
  lemma PrefixIncludes(chunks: seq<string>, k: nat, pat: string)
    requires k <= |chunks| && Includes(Concat(chunks[..k]), pat)
    ensures Includes(Concat(chunks), pat)
  {
    assert chunks == chunks[..k] + chunks[k..];
    ConcatAppend(chunks[..k], chunks[k..]);
    IncludesExtend(Concat(chunks[..k]), Concat(chunks[k..]), pat);
  }

  /** Once the accumulated text contains `</html>` the session stops there: whatever the
      upstream would have sent afterwards, and however it would have ended, is never
      read, so no error frame is written. */
  lemma CompleteDocumentIgnoresRest(chunks: seq<string>, rest: seq<string>, o1: Outcome, o2: Outcome)
    requires Includes(Concat(chunks), END_OF_DOCUMENT)
    ensures Session(chunks + rest, o1) == Session(chunks, o2)
    ensures forall k :: 0 <= k < |Session(chunks, o2)| ==> !Session(chunks, o2)[k].ErrorFrame?
  {
    var all := chunks + rest;
    CompleteDocumentRead(chunks);
    ConsumedIgnoresRest(chunks, rest);
    var k := Consumed(chunks);
    assert all[..k] == chunks[..k];
    assert Completed(all);
  }

  /** A text with `</html>` stops the session on a complete document. */
  lemma CompleteDocumentRead(chunks: seq<string>)
    requires Includes(Concat(chunks), END_OF_DOCUMENT)
    ensures Completed(chunks)
  {
    if Consumed(chunks) == |chunks| {
      assert chunks[..|chunks|] == chunks;
    }
  }

  /** Chunks after a complete document do not change how many chunks are read. */
  lemma ConsumedIgnoresRest(chunks: seq<string>, rest: seq<string>)
    requires Completed(chunks)
    ensures Consumed(chunks + rest) == Consumed(chunks)
  {
    var all := chunks + rest;
    var k, m := Consumed(chunks), Consumed(all);
    PrefixOfAppend(chunks, rest, k);
    PrefixOfAppend(chunks, rest, m);
  }

  /** The first `j` chunks of `a + b` are those of `a` when `a` has at least `j`. */
  lemma PrefixOfAppend(a: seq<string>, b: seq<string>, j: nat)
    ensures j <= |a| ==> (a + b)[..j] == a[..j]
  {
  }
}
